=== FILE: README.md ===
# OptoPsh core, modelled in Dafny

OptoPsh evolves population-based optimisers. An optimiser is a Push program that the Psh interpreter runs once for every swarm member in every move. The program proposes the member's next search point, and it does so with vector instructions working on a stack of `float[]` points. An optimiser's fitness is the mean error it reaches on a set of benchmark problems (the CEC 2005 functions, optionally shifted and stretched). The evolutionary algorithm around it can breed by crowding or by a standard tournament EA.

This project models the parts of that system that hold the logic:

- **Typed Push stacks** (`vectorStack`, `booleanStack`). Two pieces model them.
  - `ArrayStack` is an array, a size and a capacity. Its methods follow the Java loops.
  - `StackSpec` gives the same operations on sequences. `ArrayStack`'s methods are proved to implement it, and the stack laws are proved there.
- **Vector instructions** (`VectorInstructions`, over the interpreter state in `Machine`). This covers:
  - each instruction's guard, the values it pops and pushes, and operand order;
  - index resolution by Java's `%`, and the overflow clamps;
  - the loops of `VectorZip`/`VectorApply` around an interpreter oracle;
  - `VectorBest`/`VectorCurrent`.
- **Swarm evaluation** (`Population`, `Swarm`). This covers:
  - `getPosition`, `getBest`, `rank` and `Process.compareTo`;
  - the move-acceptance rule and the move loop, with their invariants;
  - trajectory recording and `phenotypicDistance`;
  - the averaging of runs into errors and of errors into fitness;
  - the swarm-size draw and mutation.
- **Reproduction** (`Breeding`, `Crowding`, `StandardEA`). This covers:
  - crossover and mutation with their size budget;
  - the crowding loop: parent sets, children, distance matrix, matching, replacement and slot filling;
  - the standard EA with elitism;
  - best-individual selection in `Evaluate`.
- **Individuals** (`Individuals`): `clone` and `toString` of `PopulationOptimiser`.
- **Benchmark problems** (`Cec2005`, `ModifiedCec2005`). This covers the bounds table, inclusive box membership, the error and the random affine transform of the box.

Shared foundations:

- `Float32` models Java `float` as `Fin(real) | PosInf | NegInf | NaN`. Arithmetic is exact, and a result beyond the IEEE round-to-nearest overflow threshold becomes an infinity. It also holds Java's comparisons (NaN compares false), `Float.compare`, the infinity clamps, and float sums and means.
- `Int32` models Java `int` wrap-around and the truncating `%`.
- `Random` maps raw draws onto the ranges of `java.util.Random`'s `nextInt`, `nextFloat` and `nextDouble`.
- `Decimal` prints integers and reads them back.
- `Common` defines `Option`, `Result` and the Java exceptions as `Fault`.

Collaborators whose code is not part of this model are parameters:

- the interpreter run (`Runner`, and the `run` oracle of the vector instructions);
- the objective (error and bounds test);
- the CEC test functions;
- `Math.sqrt` (`root`);
- `Autosimplify`, `HungarianMatching`, `EvaluateIndividual` of a child, and tournament `Select` (the winners are given).

Random draws are parameters too. A raw draw is a natural number, and `Random` maps it onto the generator's range.

Where the code disagrees with a plain reading of it, the model follows the code:

- **The negative clamp.** `1.0f - Float.MAX_VALUE` is evaluated in single precision. It is exactly `-Float.MAX_VALUE`, not the real number 1 − MAX, because 1 is far below half an ulp at that magnitude. So the negative clamp is `NEG_CLAMP = -MAX`; `Float32.NegClampIsNearestFloat` proves that this is the nearest float.
- **Crowding's replacement rule prefers higher fitness.** `replacementRule` keeps the child when its fitness is *higher*, while `Evaluate` calls the *lowest* fitness best. `StandardEA.ReplacementKeepsTheWorse` exhibits the disagreement.
- **Crowding's operator choice.** Crowding compares `nextInt(100)` with a fraction in [0, 1], so mutation happens only on a draw of 0. `Crowding.MutationOnlyOnZeroDraw` proves this.
- **Crowding's simplification test.** It uses the raw percentage, with no `/100`. `Crowding.PercentAboveOneAlwaysSimplifies` proves that any percentage of 1 or more always simplifies.
- **Null children.** `ReproduceTwoChildrenByCrossover` can leave a child `null`. Crowding then fails evaluating it (`Crowding.NullChildFails`).
- **Flips are dead.** `ModifiedOriginalCEC2005Problem.evaluate` overwrites the flipped value before it is used, so the flips have no effect (`ModifiedCec2005.EvaluateIgnoresFlips`).
- **`Evaluate` falls through.** The crowding block is meant to replace the library's evaluation, but `super.Evaluate()` follows it outside the `if`, so every individual is evaluated again in crowding mode too. `StandardEA.EvaluateSummary` models the block only, as the state before that call.
- **The modified problem rescales in the original box.** `ModifiedOriginalCEC2005Problem.evaluate` passes `rescale` on to the original problem, which rescales the transformed point with its own box, not the stretched one. The model passes the transformed point to `Cec2005.Evaluate` unchanged, as the code does.
- **Problems 7 and 25.** Their lower bound is `Float.MIN_VALUE`, which is positive, so no point with a non-positive coordinate is within bounds (`Cec2005.PositiveOrthantOnly`).
- **`Integer.MIN_VALUE` in the ternary instructions.** `VectorDimAdd`/`VectorDimMul` negate the index, and `Integer.MIN_VALUE` stays negative, so its index is `Integer.MIN_VALUE % length`: a vector whose length is not a power of two is left unchanged, and one whose length is a power of two has component 0 combined (`VectorInstructions.DimOpOfMinInt`, over `Int32.MinIntRemZero`).

## Model

| member | source | states |
|---|---|---|
| StackSpec.Push | src/org/spiderland/Psh/vectorStack.java:33-39 | the pushed value becomes the new top, above the old contents unchanged |
| StackSpec.Pop | src/org/spiderland/Psh/vectorStack.java:41-50 | the top is removed; an empty stack stays empty |
| StackSpec.Peek | src/org/spiderland/Psh/vectorStack.java:52-57 | an entry is returned exactly for indices in [0, size), and it is the entry at that index |
| StackSpec.Top | src/org/spiderland/Psh/vectorStack.java:59-61 | nothing exactly on an empty stack, otherwise the last entry |
| StackSpec.Dup | src/org/spiderland/Psh/vectorStack.java:63-67 | a non-empty stack grows by one copy of its top with the rest unchanged; an empty one is unchanged |
| StackSpec.Swap | src/org/spiderland/Psh/vectorStack.java:99-106 | the top two exchange places, everything else stays; below two entries nothing changes |
| StackSpec.Rot | src/org/spiderland/Psh/vectorStack.java:69-77 | the third from the top goes to the top and the top two move down; below three entries nothing changes |
| StackSpec.Clamp | src/org/spiderland/Psh/vectorStack.java:80-87 | a depth is forced into [0, size - 1]: kept when valid, 0 when negative, size - 1 when too deep |
| StackSpec.PushThenPop | src/org/spiderland/Psh/vectorStack.java:33-50 | push then pop returns the pushed value and restores the stack |
| StackSpec.Lifo | org/spiderland/Psh/booleanStack.java:63-80 | after pushing a sequence the size has grown by its length, and popping returns it in reverse order |
| StackSpec.ShoveProperties | src/org/spiderland/Psh/vectorStack.java:79-97 | shove keeps the size and the multiset of entries, puts the old top at the clamped depth and leaves the entries below it alone |
| StackSpec.YankProperties | src/org/spiderland/Psh/vectorStack.java:108-126 | yank keeps the size and the multiset of entries, brings the entry at the clamped depth to the top and leaves the entries below it alone |
| StackSpec.YankUndoesShove | src/org/spiderland/Psh/vectorStack.java:80-126 | yank(i) after shove(i) restores the stack, for every i |
| StackSpec.ShoveUndoesYank | src/org/spiderland/Psh/vectorStack.java:80-126 | shove(i) after yank(i) restores the stack, for every i |
| StackSpec.YankDupProperties | src/org/spiderland/Psh/vectorStack.java:128-141 | yankdup grows the stack by one, keeps the old contents in place and pushes a copy of the entry at the clamped depth |
| StackSpec.RotOrderThree | src/org/spiderland/Psh/vectorStack.java:69-77 | three rotations restore any stack |
| StackSpec.SwapInvolutive | src/org/spiderland/Psh/vectorStack.java:99-106 | two swaps restore any stack |
| ArrayStack.Resize | src/org/spiderland/Psh/vectorStack.java:19-31 | the new array has the requested capacity, the live prefix copied unchanged and blank slots after it |
| ArrayStack.Push | src/org/spiderland/Psh/vectorStack.java:33-39 | the live contents become StackSpec.Push of the old ones, and the capacity doubles exactly when the push fills the array, so there is always room for the next push |
| ArrayStack.Pop | src/org/spiderland/Psh/vectorStack.java:41-50 | returns the old top (nothing when empty), leaves the array untouched and the live contents as StackSpec.Pop |
| ArrayStack.Dup | src/org/spiderland/Psh/vectorStack.java:63-67 | the live contents become StackSpec.Dup of the old ones and the capacity invariant holds |
| ArrayStack.Swap | src/org/spiderland/Psh/vectorStack.java:99-106 | the live contents become StackSpec.Swap of the old ones; size, capacity and stale slots are kept |
| ArrayStack.Rot | src/org/spiderland/Psh/vectorStack.java:69-77 | the live contents become StackSpec.Rot of the old ones; size, capacity and stale slots are kept |
| ArrayStack.Shove | src/org/spiderland/Psh/vectorStack.java:79-97 | the in-place shift loop yields StackSpec.Shove of the live contents; size, capacity and stale slots are kept |
| ArrayStack.ShiftUp | src/org/spiderland/Psh/vectorStack.java:92-94 | after shove's loop, the slots between the target and the top hold their lower neighbours and every other slot is unchanged |
| ArrayStack.ShiftedUp | src/org/spiderland/Psh/vectorStack.java:89-95 | the shifted array with the old top stored at the target slot is exactly the shoved stack |
| ArrayStack.Yank | src/org/spiderland/Psh/vectorStack.java:108-126 | the in-place shift loop yields StackSpec.Yank of the live contents; size, capacity and stale slots are kept |
| ArrayStack.ShiftDown | src/org/spiderland/Psh/vectorStack.java:121-123 | after yank's loop, the slots from the target up hold their upper neighbours and every other slot is unchanged |
| ArrayStack.ShiftedDown | src/org/spiderland/Psh/vectorStack.java:118-124 | the shifted array with the yanked entry stored on top is exactly the yanked stack |
| ArrayStack.YankDup | src/org/spiderland/Psh/vectorStack.java:128-141 | the live contents become StackSpec.YankDup of the old ones and the capacity invariant holds |
| BooleanStack.Peek | org/spiderland/Psh/booleanStack.java:56-61 | true exactly when the index is live and holds true; out of range gives false |
| BooleanStack.Top | org/spiderland/Psh/booleanStack.java:49-54 | true exactly when the stack is non-empty with true on top |
| BooleanStack.Pop | org/spiderland/Psh/booleanStack.java:63-72 | returns the old top (false when empty) and removes it; an empty stack keeps size 0 |
| BooleanStack.Equals | org/spiderland/Psh/booleanStack.java:16-29 | true exactly when the other stack exists and the live contents are equal (sizes and entries); stale slots are ignored |
| BooleanStack.HashCode | org/spiderland/Psh/booleanStack.java:31-37 | the loop computes the hash of the live contents only, as a 32-bit int, so stacks that are equal hash equally |
| Int32.Neg | src/org/spiderland/Psh/VectorStackInstructions.java:613 | Java's unary minus is the negation except at Integer.MIN_VALUE, which maps to itself |
| Int32.Rem | src/org/spiderland/Psh/VectorStackInstructions.java:32 | Java's `%`: strictly inside (-abs b, abs b), takes the sign of the dividend, and a minus the remainder is a multiple of b |
| Int32.MinIntRemZero | src/org/spiderland/Psh/VectorStackInstructions.java:613-616 | Integer.MIN_VALUE % n is never positive for n > 0, and it is 0 exactly when n is a power of two no larger than 2^31 |
| Float32.NegClampIsNearestFloat | src/org/spiderland/Psh/VectorStackInstructions.java:371-373 | -MAX is the float nearest to 1 - MAX, so that is what `1.0f - Float.MAX_VALUE` evaluates to |
| Float32.ClampInf | src/org/spiderland/Psh/VectorStackInstructions.java:366-376 | no infinity comes out; +inf becomes MAX, -inf becomes -MAX; NaN and finite values pass through |
| Float32.ClampAll | src/org/spiderland/Psh/VectorStackInstructions.java:414-427 | the result is always finite: infinities clamped as above, NaN becomes 0, finite values unchanged |
| Float32.Compare | src/optimisation/PopulationOptimisation.java:352-354 | Float.compare: 0 exactly on equal values, agrees with `<` on numbers, and puts NaN above everything else |
| Float32.CompareIsTotalOrder | src/optimisation/PopulationOptimisation.java:352-354 | Float.compare is antisymmetric and transitive, so sorting by it is well defined |
| Float32.FirstMin | src/optimisation/PopulationOptimisation.java:361-371 | the selection loop answers -1 exactly when no value is below the bound; otherwise an index whose value is below the bound, with no value below it and no earlier value below or equal to it |
| Float32.FirstMinStep | src/optimisation/PopulationOptimisation.java:364-369 | a value below the running minimum is below the bound and strictly below every earlier value |
| Float32.Mean | src/optimisation/PopulationOptimisation.java:247-250 | the mean of no values is NaN (0/0) |
| Float32.SumIsExact | src/optimisation/PopulationOptimisation.java:247-249 | while every partial sum is representable, the float accumulator equals the exact sum |
| Float32.MeanWithinBounds | src/optimisation/PopulationOptimisation.java:638-642 | the float mean of values in [lo, hi] is finite and in [lo, hi] when no partial sum overflows |
| Decimal.IntToDecimal | src/optimisation/PopulationOptimiser.java:47 | the decimal text of an int is non-empty and starts with '-' exactly for negative numbers |
| Decimal.IntToDecimalRoundTrip | src/optimisation/PopulationOptimiser.java:47 | reading the printed int back gives the int |
| Random.NextInt | src/optimisation/PushGPWithMoreStandardEAs.java:261 | fails exactly for a non-positive bound; otherwise lies in [0, bound), and every value in range can be drawn |
| Random.NextFloat | src/optimisation/PushGPWithMoreStandardEAs.java:107 | lies in [0, 1), and each multiple of 2^-24 in that range is drawn by some raw value |
| Random.NextDouble | src/optimisation/PushGPWithMoreStandardEAs.java:307 | lies in [0, 1), and each multiple of 2^-53 in that range is drawn by some raw value |
| VectorInstructions.Sanitise | src/org/spiderland/Psh/VectorStackInstructions.java:363-456 | no component is infinite; multiplicative ops leave only finite values; additive ops keep NaN exactly where it was; finite values pass through |
| VectorInstructions.SanitisedExact | src/org/spiderland/Psh/VectorStackInstructions.java:363-456 | a component whose exact result is in float range comes out as that exact value |
| VectorInstructions.Combine | src/org/spiderland/Psh/VectorStackInstructions.java:363-456 | works exactly when the second vector is at least as long as the first (otherwise an index fault); the result has the first's length, no infinity, and each component is the clamped op of the two components |
| VectorInstructions.CombineScalar | src/org/spiderland/Psh/VectorStackInstructions.java:487-579 | the vector-scalar ops keep the length, have no infinity, and apply the clamped op with the scalar to every component |
| VectorInstructions.DotProduct | src/org/spiderland/Psh/VectorStackInstructions.java:465-477 | fails exactly when the second vector is shorter; otherwise the clamped float sum of the products, never infinite |
| VectorInstructions.DotProductExact | src/org/spiderland/Psh/VectorStackInstructions.java:465-469 | when products and partial sums stay in float range, the dot product is the exact one |
| VectorInstructions.Magnitude | src/org/spiderland/Psh/VectorStackInstructions.java:589-602 | NaN exactly when a component is NaN; MAX when a component is infinite and none is NaN |
| VectorInstructions.MagnitudeIsLength | src/org/spiderland/Psh/VectorStackInstructions.java:589-602 | with an exact square root, a vector of finite components whose squares are floats has as magnitude a non-negative float whose square is the sum of the squared components |
| VectorInstructions.DimIndex | src/org/spiderland/Psh/VectorStackInstructions.java:612-616 | the written index lies in (-len, len) and is abs(c) % len unless c is Integer.MIN_VALUE |
| VectorInstructions.DimOp | src/org/spiderland/Psh/VectorStackInstructions.java:612-652 | fails on an empty vector (division by zero); otherwise a copy that differs at most at the resolved index, where it holds the clamped sum or product, and that adds no infinity |
| VectorInstructions.DimOpOfMinInt | src/org/spiderland/Psh/VectorStackInstructions.java:612-652 | with Integer.MIN_VALUE as the index, the resolved index is never positive; a vector whose length is not a power of two comes back unchanged, and one whose length is a power of two has component 0 combined with the float |
| VectorInstructions.BetweenComponent | src/org/spiderland/Psh/VectorStackInstructions.java:751-762 | a component of VectorBetween is never infinite unless copied from the first vector, and NaN only when the first vector's component is NaN |
| VectorInstructions.BetweenOnSegment | src/org/spiderland/Psh/VectorStackInstructions.java:752 | for f in [0, 1] the component lies between the two points, f = 0 giving the first and f = 1 the second |
| VectorInstructions.BetweenExact | src/org/spiderland/Psh/VectorStackInstructions.java:752 | when every intermediate stays in float range, the component is x + f(y - x) exactly |
| VectorInstructions.GetComp | src/org/spiderland/Psh/VectorStackInstructions.java:26-37 | without a vector and an int nothing changes; otherwise the int is consumed, the vector stays, and the component is pushed only for a non-negative remainder |
| VectorInstructions.SetComp | src/org/spiderland/Psh/VectorStackInstructions.java:51-65 | without a float, an int and a vector nothing changes; an empty vector faults; a valid remainder replaces that component with the popped float; a negative one loses the vector and keeps the float |
| VectorInstructions.FromFloatsOp | src/org/spiderland/Psh/VectorStackInstructions.java:76-88 | with fewer than dims floats nothing changes; otherwise the top dims floats become one vector, in stack order |
| VectorInstructions.ToFloatsOp | src/org/spiderland/Psh/VectorStackInstructions.java:100-111 | pops the top vector and pushes its components, component 0 first; without a vector nothing changes |
| VectorInstructions.FromThenToFloats | src/org/spiderland/Psh/VectorStackInstructions.java:76-111 | VectorFromFloats then VectorToFloats restores the machine when at least dims floats are present |
| VectorInstructions.ToThenFromFloats | src/org/spiderland/Psh/VectorStackInstructions.java:76-111 | VectorToFloats then VectorFromFloats restores the machine when the top vector has dims components |
| VectorInstructions.BinaryOp | src/org/spiderland/Psh/VectorStackInstructions.java:277-286 | below two vectors nothing changes; it faults when the top vector is shorter than the second; otherwise the top two are replaced by one result computed as (second from top) op (top), with no infinity |
| VectorInstructions.DotOp | src/org/spiderland/Psh/VectorStackInstructions.java:299-309 | below two vectors nothing changes; it faults when the top vector is shorter than the second; otherwise the top two are popped and their dot product, second from top first, is pushed on the float stack |
| VectorInstructions.ScalarOp | src/org/spiderland/Psh/VectorStackInstructions.java:255-264 | without a vector and a float nothing changes; otherwise both are popped and the combined vector is pushed |
| VectorInstructions.MagOp | src/org/spiderland/Psh/VectorStackInstructions.java:322-328 | without a vector nothing changes; otherwise the vector is popped and its magnitude pushed as a float |
| VectorInstructions.TernaryOp | src/org/spiderland/Psh/VectorStackInstructions.java:341-352 | without a vector, a float and an int nothing changes; an empty vector faults; otherwise the top vector is kept (read, not popped), one float and one int are consumed and the modified copy is pushed |
| VectorInstructions.Step | src/org/spiderland/Psh/VectorStackInstructions.java:675-687 | after each step the exec and code stacks are cleared |
| VectorInstructions.StepOfEmptying | src/org/spiderland/Psh/VectorStackInstructions.java:671-685 | when the entry leaves the float stack empty, the step's component is 0, the value the new array holds where nothing is popped |
| VectorInstructions.StepOfReplacement | src/org/spiderland/Psh/VectorStackInstructions.java:676-686 | when the entry replaces the pushed floats by g of them and changes nothing else, a step yields g of the pushed values and leaves the machine as it found it, with empty exec and code stacks |
| VectorInstructions.Loop | src/org/spiderland/Psh/VectorStackInstructions.java:675-687 | the loop collects one component per step and leaves the exec and code stacks empty |
| VectorInstructions.LoopComponents | src/org/spiderland/Psh/VectorStackInstructions.java:675-687 | component i of the collected vector is the float that step i takes from the machine left by the first i steps, and the loop ends in the machine left by all of them |
| VectorInstructions.LoopOfSteadySteps | src/org/spiderland/Psh/VectorStackInstructions.java:675-687 | when every step leaves the machine as it found it and yields g of its pushed values, the loop leaves the machine unchanged and collects g of every step, in order |
| VectorInstructions.LoopOfReplacement | src/org/spiderland/Psh/VectorStackInstructions.java:675-687 | with an entry that replaces the pushed floats by g of them, the loop over cleared exec and code stacks collects g of every step and changes nothing else |
| VectorInstructions.ZipOp | src/org/spiderland/Psh/VectorStackInstructions.java:662-692 | without two vectors and an exec entry nothing changes; it faults when the second vector is shorter than the top; otherwise the exec entry is consumed, the code stack is restored, and the pushed vector has the top vector's length (its components are stated by ZipCollects) |
| VectorInstructions.ZipCollects | src/org/spiderland/Psh/VectorStackInstructions.java:662-692 | when the guard holds and the second vector is long enough, component i of the pushed vector is what step i, pushing v1[i] then v2[i], takes from the machine the first i steps left; the machine is the one after the last step, with the caller's exec stack less the entry and its code stack put back |
| VectorInstructions.ZipOfEmptying | src/org/spiderland/Psh/VectorStackInstructions.java:671-690 | an entry that never leaves a float makes VectorZip push a vector of zeros as long as the top vector |
| VectorInstructions.ZipComponentwise | src/org/spiderland/Psh/VectorStackInstructions.java:662-692 | with an entry that replaces the two floats on top by g of them, VectorZip pushes g([v1[i], v2[i]]) as component i for every i, consumes the two vectors and the entry, and changes nothing else |
| VectorInstructions.ApplyOpInstr | src/org/spiderland/Psh/VectorStackInstructions.java:702-730 | guarded by two vectors and an exec entry; the exec entry is consumed, the code stack is restored, and the pushed vector has the top vector's length (its components are stated by ApplyCollects) |
| VectorInstructions.ApplyCollects | src/org/spiderland/Psh/VectorStackInstructions.java:702-730 | under the guard, component i of the pushed vector is what step i, pushing v1[i], takes from the machine the first i steps left; the machine is the one after the last step, with the caller's exec stack less the entry and its code stack put back |
| VectorInstructions.ApplyOfEmptying | src/org/spiderland/Psh/VectorStackInstructions.java:710-728 | an entry that never leaves a float makes VectorApply push a vector of zeros as long as the top vector |
| VectorInstructions.ApplyComponentwise | src/org/spiderland/Psh/VectorStackInstructions.java:702-730 | with an entry that replaces the float on top by g of it, VectorApply pushes g([v1[i]]) as component i for every i, consumes the top vector and the entry, and changes nothing else |
| VectorInstructions.LoopWithoutRun | src/org/spiderland/Psh/VectorStackInstructions.java:714-725 | when nothing runs the vector stack is untouched, each step's last float is its component and the floats below it stay on the float stack |
| VectorInstructions.ApplyLiteral | src/org/spiderland/Psh/VectorStackInstructions.java:708-729 | VectorApply with a literal gives the popped vector back unchanged, leaves the float stack as it was and consumes the literal |
| VectorInstructions.ZipLiteral | src/org/spiderland/Psh/VectorStackInstructions.java:668-691 | VectorZip with a literal over equal lengths leaves the second vector from the top as the result and the top vector's components on the float stack |
| VectorInstructions.BetweenOp | src/org/spiderland/Psh/VectorStackInstructions.java:741-766 | without two vectors and a float nothing changes; otherwise the two vectors and the float are popped and the componentwise interpolation is pushed (faulting when v2 is shorter than v1) |
| VectorInstructions.MemberOperand | src/org/spiderland/Psh/VectorStackInstructions.java:782-790 | with no int the current member is used; a popped negative int also selects the current member |
| VectorInstructions.MemberPointOp | src/org/spiderland/Psh/VectorStackInstructions.java:782-793 | fails exactly on an empty swarm; otherwise it consumes the int operand if there is one and pushes exactly one vector, the selected member's best or current point |
| VectorInstructions.ExecuteKeepsShape | src/org/spiderland/Psh/VectorStackInstructions.java:245-820 | no vector instruction breaks the dimensionality of the vector stack or the 32-bit range of the int stack |
| VectorInstructions.ZipKeepsShape | src/org/spiderland/Psh/VectorStackInstructions.java:668-691 | VectorZip keeps the shape invariant whatever the run does, as long as the run keeps it |
| VectorInstructions.ApplyKeepsShape | src/org/spiderland/Psh/VectorStackInstructions.java:708-729 | VectorApply keeps the shape invariant whatever the run does, as long as the run keeps it |
| VectorInstructions.ComponentOpsKeepShape | src/org/spiderland/Psh/VectorStackInstructions.java:22-112 | the component and float-conversion instructions keep the shape invariant |
| VectorInstructions.ArithmeticKeepsShape | src/org/spiderland/Psh/VectorStackInstructions.java:245-653 | the arithmetic instructions keep the shape invariant |
| VectorInstructions.MemberOpsKeepShape | src/org/spiderland/Psh/VectorStackInstructions.java:737-820 | VectorBetween, VectorBest and VectorCurrent keep the shape invariant |
| VectorInstructions.LoopKeepsShape | src/org/spiderland/Psh/VectorStackInstructions.java:675-687 | the zip/apply loop keeps the shape invariant step by step |
| VectorInstructions.SetThenGet | src/org/spiderland/Psh/VectorStackInstructions.java:26-65 | VectorSetComponent then VectorGetComponent with the same valid index reads back the float that was set |
| Population.NewProcess | src/optimisation/PopulationOptimisation.java:342-349 | a new member starts with best and current point equal to the start point, and both values equal to its error |
| Population.PositionIndex | src/optimisation/PopulationOptimisation.java:390-397 | the selected index is always in [0, n); a negative index selects the last member, a non-negative one i selects i mod n |
| Population.PositionIndexWraps | src/optimisation/PopulationOptimisation.java:390-397 | a valid index selects itself, and adding the swarm size selects the same member |
| Population.GetPosition | src/optimisation/PopulationOptimisation.java:390-403 | fails exactly on an empty swarm; otherwise returns the best or current point, as asked, of the member at PositionIndex |
| Population.BestIndex | src/optimisation/PopulationOptimisation.java:361-371 | Integer.MAX_VALUE exactly when no personal best is below +infinity; otherwise the first member with the strictly smallest personal best |
| Population.GetBest | src/optimisation/PopulationOptimisation.java:361-371 | the loop computes BestIndex |
| Population.BestIndexStep | src/optimisation/PopulationOptimisation.java:364-369 | one more iteration takes the new member exactly when it is below the running minimum |
| Population.CompareTo | src/optimisation/PopulationOptimisation.java:351-354 | orders members by Float.compare of their personal bests: 0 exactly on equal bests, negative exactly when strictly better (for numbers) |
| Population.InsertKeepsSorted | src/optimisation/PopulationOptimisation.java:377 | inserting by compareTo keeps a sorted sequence sorted |
| Population.SortByBest | src/optimisation/PopulationOptimisation.java:377 | the sort is a permutation of the members, ordered by compareTo |
| Population.Rank | src/optimisation/PopulationOptimisation.java:376-382 | the members are permuted into compareTo order, and the input stack is refilled with one best point per member, worst first, so that entry i is the best point of the member i places from the end and the best member's is on top |
| Swarm.Accept | src/optimisation/PopulationOptimisation.java:564-603 | an in-bounds, no-worse proposal becomes the personal best and pushes true; otherwise false and a copy of the best point are pushed and the best is kept; out of bounds pushes MAX and keeps the current value; popBestValue drops only to an in-bounds error below it |
| Swarm.WriteCell | src/optimisation/PopulationOptimisation.java:613-616 | faults exactly when a non-empty point does not fit the cell; otherwise the cell receives the point and every other cell and the shape are kept |
| Swarm.Record | src/optimisation/PopulationOptimisation.java:613-616 | a run without trajectories writes nothing; otherwise it writes the cell |
| Swarm.MoveMember | src/optimisation/PopulationOptimisation.java:532-616 | one member's move changes only that member, never worsens its personal best, never raises popBestValue, and records its current point |
| Swarm.NaNBestIsFinal | src/optimisation/PopulationOptimisation.java:577 | a member whose personal best is NaN never improves, since no value is `<=` NaN |
| Swarm.MoveMemberKeeps | src/optimisation/PopulationOptimisation.java:572-595 | a move keeps every personal best the error of its point, and popBestValue a number no greater than MAX or any personal best |
| Swarm.Sweep | src/optimisation/PopulationOptimisation.java:526-617 | the member loop keeps the swarm size, never worsens a personal best, never raises popBestValue, and records each member's current point in this move's cells |
| Swarm.SweepKeeps | src/optimisation/PopulationOptimisation.java:526-617 | the member loop keeps the consistency and popBestValue invariants |
| Swarm.Moves | src/optimisation/PopulationOptimisation.java:517-623 | over all moves personal bests never worsen, popBestValue never rises, every member's current point is recorded in the last move's cell, and cells outside the columns of the moves made are kept |
| Swarm.MovesTrajectory | src/optimisation/PopulationOptimisation.java:517-623 | for every move k of the loop, column k of the trajectory holds each member's current point after move k |
| Swarm.MovesKeep | src/optimisation/PopulationOptimisation.java:517-623 | the move loop keeps the consistency and popBestValue invariants |
| Swarm.StartMembers | src/optimisation/PopulationOptimisation.java:470-494 | one member per start point, each starting at its point with its error as personal best |
| Swarm.StartBestBounds | src/optimisation/PopulationOptimisation.java:485-487 | after the start loop popBestValue is a number no greater than MAX or any start error, and it is MAX or one of them |
| Swarm.NaNBestsPersist | src/optimisation/PopulationOptimisation.java:577-583 | a NaN personal best never goes away, so a swarm without one never had one |
| Swarm.Zeros | src/optimisation/PopulationOptimisation.java:437 | the new trajectory array has popSize rows of moves cells of dims zeros |
| Swarm.WriteStarts | src/optimisation/PopulationOptimisation.java:502-505 | succeeds exactly when every start point fits column 0 of its row; then each row's cell 0 holds its start point, and the shape and every other cell are kept |
| Swarm.StartSwarm | src/optimisation/PopulationOptimisation.java:444-505 | the starting swarm: one member per start point with popBestValue from the start errors; with recording it fails exactly when a non-empty start point has no row, no move cell or too few dimensions, and otherwise column 0 of the zero array holds the start points |
| Swarm.RunOnce | src/optimisation/PopulationOptimisation.java:444-632 | a run ends with one member per start point, consistent personal bests, popBestValue no greater than MAX or any personal best (and attained when no best is NaN), and a trajectory exactly when recording |
| Swarm.RunTrajectory | src/optimisation/PopulationOptimisation.java:437-623 | a recorded run's trajectory has popSize rows of moves cells of dims floats, and column k holds each member's current point after move k |
| Swarm.RunResult | src/optimisation/PopulationOptimisation.java:629-638 | a run's result exists exactly when the run completes, and is then its final popBestValue, a number no greater than MAX, with a trajectory exactly when recording |
| Swarm.RunResults | src/optimisation/PopulationOptimisation.java:431-442 | one result per start set, each successful score a number no greater than MAX; run 0 has a trajectory exactly when recording |
| Swarm.RunResultsAreRuns | src/optimisation/PopulationOptimisation.java:431-638 | result k exists exactly when run k completes (only run 0 recording), and then holds run k's final popBestValue; run 0's result holds its trajectory array |
| Swarm.Runs | src/optimisation/PopulationOptimisation.java:431-640 | one score per remaining run, each a number no greater than MAX, and run 0's trajectory as the problem's |
| Swarm.RunsInOrder | src/optimisation/PopulationOptimisation.java:431-640 | the runs from k succeed exactly when every result from k does; the scores are then those results in run order, and otherwise the fault is that of the first failing run |
| Swarm.RunsAreScores | src/optimisation/PopulationOptimisation.java:431-640 | when each successful result holds the matching score, all runs succeed exactly when every result does, and the scores are exactly those |
| Swarm.EvaluateProblem | src/optimisation/PopulationOptimisation.java:408-651 | with no runs the problem's error is NaN (0 / 0) |
| Swarm.ProblemErrorIsMeanOfRuns | src/optimisation/PopulationOptimisation.java:431-642 | a problem's error is the float mean of every run's final popBestValue, in run order, and its trajectory array is run 0's |
| Swarm.ProblemFailsWithARun | src/optimisation/PopulationOptimisation.java:431-640 | a problem has an error exactly when every one of its runs completes |
| Swarm.ProblemErrorBounds | src/optimisation/PopulationOptimisation.java:638-642 | when the run results are finite, at least lo, and no partial sum overflows, the float mean of the results lies in [lo, MAX] |
| Swarm.ProblemErrorInRange | src/optimisation/PopulationOptimisation.java:408-642 | when every run of a problem ends with a finite popBestValue of at least lo and no partial sum overflows, the problem's error is a float in [lo, MAX] |
| Swarm.Fitness | src/optimisation/PopulationOptimisation.java:247-252 | the fitness is NaN with no problems or with any NaN error |
| Swarm.SumWithNaN | src/optimisation/PopulationOptimisation.java:247-249 | a NaN anywhere makes the float sum NaN |
| Swarm.Combine | src/optimisation/PopulationOptimisation.java:240-252 | the problem loop succeeds exactly when every problem does, and then lists their errors in order with their mean as the fitness; otherwise the fault is one of a problem's |
| Swarm.EvaluateAll | src/optimisation/PopulationOptimisation.java:232-254 | one error per problem, and the fitness is their mean |
| Swarm.ErrorsArePerProblem | src/optimisation/PopulationOptimisation.java:240-254 | an individual is evaluated exactly when every problem is, and error n is problem n's error |
| Swarm.SizeAndMoves | src/optimisation/PopulationOptimisation.java:424-425 | an evolved swarm size gives floor(maxEvaluations / popSize) moves; a fixed one gives maxMoves; an evolved size of 0 or less fails |
| Swarm.DrawPopSize | src/optimisation/PopulationOptimisation.java:328-329 | fails exactly when maxPopSize - 1, in 32-bit arithmetic, is not positive; otherwise a swarm size in [1, maxPopSize - 1] |
| Swarm.MutatePopSize | src/optimisation/PopulationOptimisation.java:716-725 | the swarm size is redrawn exactly when evolving and the coin is below 0.05, and is kept otherwise |
| Swarm.RandomStart | src/optimisation/PopulationOptimisation.java:477-482 | a drawn start point has one coordinate per dimension |
| Swarm.RandomStartInBox | src/optimisation/PopulationOptimisation.java:478-481 | with draws in [0, 1) and finite bounds, every start coordinate is finite and within its dimension's bounds |
| Swarm.StartExact | src/optimisation/PopulationOptimisation.java:479-481 | when the width is finite, the start coordinate is u * width + lower exactly |
| Swarm.Seps | src/optimisation/PopulationOptimisation.java:802 | the differences of two arrays of one shape have that shape |
| Swarm.SumSquares | src/optimisation/PopulationOptimisation.java:800-804 | the sum of squares of finite differences is non-negative |
| Swarm.PhenotypicDistance | src/optimisation/PopulationOptimisation.java:783-812 | a null first array faults; when the first array has an empty dimension the second is never read and the distance is the root of a sum of no squares; otherwise a null second array faults with a null pointer and one smaller than the first's shape with an index fault, and these are the only failures |
| Swarm.DistanceIgnoresExcess | src/optimisation/PopulationOptimisation.java:783-812 | cells of the second array beyond the first's shape do not matter: the distance equals the distance to the second array cut down to the first's shape |
| Swarm.DistanceNonNegative | src/optimisation/PopulationOptimisation.java:783-812 | with a non-negative root, a finite distance is non-negative |
| Swarm.DistanceToItself | src/optimisation/PopulationOptimisation.java:783-812 | identical arrays of finite points are at distance 0 (given sqrt(0) = 0) |
| Swarm.DistanceSymmetric | src/optimisation/PopulationOptimisation.java:783-812 | the distance does not depend on the order of two arrays of the same shape |
| Swarm.DistanceOfNegated | src/optimisation/PopulationOptimisation.java:802-805 | negating every difference leaves the distance unchanged |
| Swarm.SameSpecials | src/optimisation/PopulationOptimisation.java:802 | negating the differences keeps where NaN and infinities occur |
| Individuals.Clone | src/optimisation/PopulationOptimiser.java:38-44 | a clone has the program, fitness, trajectory array and swarm size of the original, and no error list |
| Individuals.CloneIsStable | src/optimisation/PopulationOptimiser.java:38-44 | cloning a clone changes nothing, and a clone is at the same crowding distance as its original from anything |
| Individuals.ToString | src/optimisation/PopulationOptimiser.java:46-48 | the program's text, then " {p=", then a closing brace at the end |
| Individuals.ToStringShowsPopSize | src/optimisation/PopulationOptimiser.java:46-48 | the swarm size can be read back from the end of toString, whatever the program's text |
| Breeding.Splice | src/optimisation/PushGPWithMoreStandardEAs.java:156 | a splice changes the program size by the new subtree's size minus the old one's |
| Breeding.Crossover | src/optimisation/PushGPWithMoreStandardEAs.java:140-159 | returns the second parent when the first is empty, otherwise the first parent itself, modified in place exactly when the splice fits the budget; nothing else changes, and parents within budget give a child within budget |
| Breeding.TwoChildren | src/optimisation/PushGPWithMoreStandardEAs.java:162-191 | clones of both parents when either is empty; otherwise each child is a modified clone exactly when its own direction fits the budget and null otherwise; children of parents within budget are within budget |
| Breeding.TwoChildrenExchangeSubtrees | src/optimisation/PushGPWithMoreStandardEAs.java:178-188 | when both directions fit, the two children together have the points of the two parents |
| Breeding.FairRange | src/optimisation/PushGPWithMoreStandardEAs.java:204 | the fair-mutation range is an int at least 1, truncated toward zero from range * oldsize |
| Breeding.NewSubtreeSize | src/optimisation/PushGPWithMoreStandardEAs.java:203-208 | fair mutation gives a size of at least 1 and fails only when its nextInt bound wraps to a non-positive int; otherwise a size in [0, maxRandomCodeSize), failing for a non-positive bound |
| Breeding.FairWindowAroundOldSize | src/optimisation/PushGPWithMoreStandardEAs.java:203-205 | with a moderate range the fair window is never empty and the new size stays within range of the old one |
| Breeding.Mutation | src/optimisation/PushGPWithMoreStandardEAs.java:194-221 | always works on a clone; splices exactly when the new size fits the budget; a parent within budget gives a child within budget |
| Breeding.OptimiserMutation | src/optimisation/PopulationOptimisation.java:716-725 | the optimiser's mutation: the mutant above, with the swarm size redrawn as nextInt(maxPopSize - 1) + 1 exactly when sizes evolve and the coin is below 0.05 and kept otherwise; nothing else differs from the mutant, and a redraw with a non-positive bound fails |
| Breeding.ReplacementRule | src/optimisation/PushGPWithMoreStandardEAs.java:323-330 | the child is kept when its fitness is higher, the parent when it is lower, the coin decides a tie, and NaN keeps the parent |
| Breeding.ReplacementPrefersHigherFitness | src/optimisation/PushGPWithMoreStandardEAs.java:323-330 | the child is kept exactly when the parent's fitness is below it, or on an equal fitness with a true coin |
| Crowding.DrawParents | src/optimisation/PushGPWithMoreStandardEAs.java:260-263 | fails exactly when the pool is smaller than the set; otherwise the drawn indices and the remaining pool are together the old pool |
| Crowding.MutationOnlyOnZeroDraw | src/optimisation/PushGPWithMoreStandardEAs.java:266-269 | with non-negative percentages, mutation is chosen exactly on a draw of 0 with a positive mutation percentage |
| Crowding.BreedPair | src/optimisation/PushGPWithMoreStandardEAs.java:266-277 | a pair gets the optimiser's two mutants (each perhaps with a redrawn swarm size) or the two crossover children; a parent without a partner faults |
| Crowding.BreedPairs | src/optimisation/PushGPWithMoreStandardEAs.java:266-281 | one evaluated child per parent, so the set must be even; an odd remainder faults |
| Crowding.NullChildFails | src/optimisation/PushGPWithMoreStandardEAs.java:273-280 | a crossover that breaks the budget leaves a null child, and evaluating it faults |
| Crowding.Capped | src/optimisation/PushGPWithMoreStandardEAs.java:287-289 | an infinite distance becomes 1e99; any other is kept |
| Crowding.Entry | src/optimisation/PushGPWithMoreStandardEAs.java:286-289 | a matrix entry is never infinite, and exists exactly when the distance can be computed |
| Crowding.DistanceRow | src/optimisation/PushGPWithMoreStandardEAs.java:285-290 | a row has one finite-or-NaN entry per child, each the capped distance, and exists exactly when every entry does |
| Crowding.DistanceMatrix | src/optimisation/PushGPWithMoreStandardEAs.java:284-291 | the S by S matrix holds the capped distance of every parent and child and has no infinite entry |
| Crowding.Slot | src/optimisation/PushGPWithMoreStandardEAs.java:298-311 | a slot holds the parent or its matched child, possibly simplified; a higher-fitness child wins, a lower-fitness one loses, and nothing is simplified when the draw is not below the percentage |
| Crowding.PercentAboveOneAlwaysSimplifies | src/optimisation/PushGPWithMoreStandardEAs.java:307 | because nextDouble() < 1, a simplification percentage of 1 or more simplifies every slot |
| Crowding.Slots | src/optimisation/PushGPWithMoreStandardEAs.java:298-314 | one slot per parent, each filled from that parent and its matched child |
| Crowding.Replace | src/optimisation/PushGPWithMoreStandardEAs.java:284-314 | a set's matrix has no infinite entry, its matching is a permutation, and every slot comes from its parent or matched child |
| Crowding.OneGroup | src/optimisation/PushGPWithMoreStandardEAs.java:257-315 | one pass draws S indices of the population from the pool (the rest stays in the pool), needs an even S, and fills S slots as above |
| Crowding.DrawnFromPool | src/optimisation/PushGPWithMoreStandardEAs.java:260-263 | indices drawn from a pool of valid indices, and those left in it, are valid |
| Crowding.Groups | src/optimisation/PushGPWithMoreStandardEAs.java:256-316 | the passes draw every pool index exactly once and fill one slot per index; S = 0 never ends and a short final pool faults |
| Crowding.Crowding | src/optimisation/PushGPWithMoreStandardEAs.java:238-318 | a negative S faults, S = 0 never ends, and a population smaller than S faults; otherwise every population index is drawn into exactly one parent set, the next generation has one slot per index, each slot comes from its parent or matched child, and S is even |
| Crowding.Indices | src/optimisation/PushGPWithMoreStandardEAs.java:253-254 | the initial pool lists 0 .. popsize - 1 in order |
| Crowding.IndicesOnce | src/optimisation/PushGPWithMoreStandardEAs.java:253-254 | the pool holds every index below popsize exactly once and nothing else |
| Crowding.RemainderFails | src/optimisation/PushGPWithMoreStandardEAs.java:257-263 | when popsize is not a multiple of a positive S the last draw fails |
| Crowding.GroupsCoverMultiple | src/optimisation/PushGPWithMoreStandardEAs.java:256-316 | the indices drawn by complete passes are a multiple of S |
| StandardEA.EvaluateSummary | src/optimisation/PushGPWithMoreStandardEAs.java:50-71 | the crowding block before `super.Evaluate()`: the best is the first individual with the strictly lowest fitness below MAX, with its fitness, size and error list recorded (if none is below MAX, everything but the reset best fitness and the mean stays), and the mean is the float mean of the fitnesses |
| StandardEA.ReplacementKeepsTheWorse | src/optimisation/PushGPWithMoreStandardEAs.java:59-66 | when a child is better by Evaluate's measure (lower fitness) the replacement rule keeps the parent |
| StandardEA.FillSlot | src/optimisation/PushGPWithMoreStandardEAs.java:106-128 | the slot is a new individual or one of the current population; crossover without simplification yields the first winner (the second when the first is empty), modified in place; a simplified slot is a new simplification of an existing individual; individuals outside the current population are untouched |
| StandardEA.Vary | src/optimisation/PushGPWithMoreStandardEAs.java:106-121 | a slot is varied by the optimiser's mutation of a clone of the first winner, appended as a new individual, or by crossover of the two winners; a failing mutation is the only failure |
| StandardEA.FillSlotMutates | src/optimisation/PushGPWithMoreStandardEAs.java:106-128 | a mutated slot holds the optimiser's mutant of a clone of the first winner, appended to the heap, followed by its simplification when the draw simplifies; it fails exactly when the mutation does |
| StandardEA.FillSlots | src/optimisation/PushGPWithMoreStandardEAs.java:106-129 | every slot from n on is filled with a valid reference that is new or a member of the current population |
| StandardEA.Reproduce | src/optimisation/PushGPWithMoreStandardEAs.java:94-130 | slot 0 holds a fresh clone of the current best, possibly simplified, and every other slot is filled; an invalid best index faults |
| StandardEA.CrossoverSlotsAlias | src/optimisation/PushGPWithMoreStandardEAs.java:116-120 | a crossover slot holds the selected current-population individual itself, not a copy |
| Cec2005.BoxOf | src/optimisation/problems/OriginalCEC2005Problem.java:28-75 | every function 1..25 has a non-empty box, symmetric about 0 except 7 and 25, whose box is [Float.MIN_VALUE, MAX]; other numbers get the degenerate default |
| Cec2005.New | src/optimisation/problems/OriginalCEC2005Problem.java:20-76 | succeeds exactly for 1 <= n <= 25 (the optimum table is read first) with that optimum and box and the name "cecF" + n |
| Cec2005.NameShowsNumber | src/optimisation/problems/OriginalCEC2005Problem.java:21 | the function number can be read back from the name |
| Cec2005.Rescaled | src/optimisation/problems/OriginalCEC2005Problem.java:88-89 | rescaling maps a finite x to x * (upper - lower) + lower, and NaN to NaN |
| Cec2005.RescaledIntoBox | src/optimisation/problems/OriginalCEC2005Problem.java:88-89 | rescaling sends [0, 1] into the box |
| Cec2005.Evaluate | src/optimisation/problems/OriginalCEC2005Problem.java:84-99 | never infinite, NaN exactly when the function's value is, and equal to the function's value when that is not infinite |
| Cec2005.Point | src/optimisation/problems/OriginalCEC2005Problem.java:85-90 | the point has one coordinate per input |
| Cec2005.ErrorMeasuresFromOptimum | src/optimisation/problems/OriginalCEC2005Problem.java:101-103 | for moderate values the error is the exact difference from the optimum, and 0 exactly at the optimum |
| Cec2005.InBoxInclusive | src/optimisation/problems/OriginalCEC2005Problem.java:108-109 | a coordinate is inside exactly when lower <= x <= upper, and a NaN coordinate passes |
| Cec2005.WithinBounds | src/optimisation/problems/OriginalCEC2005Problem.java:106-112 | true exactly when the first dims coordinates are all inside the box; an input shorter than dims faults only when no earlier coordinate is outside |
| Cec2005.CheckFrom | src/optimisation/problems/OriginalCEC2005Problem.java:107-111 | the loop from coordinate i answers true exactly when the coordinates from i to dims are inside, faulting only on a missing coordinate reached before any outside one |
| Cec2005.PositiveOrthantOnly | src/optimisation/problems/OriginalCEC2005Problem.java:39-43 | for functions 7 and 25 a point with a non-positive coordinate is never within bounds |
| ModifiedCec2005.New | src/optimisation/problems/ModifiedOriginalCEC2005Problem.java:29-68 | per dimension a scale, bounds L * s + o and U * s + o, an offset and a flip, every array as long as the dimensionality; a negative dimensionality faults |
| ModifiedCec2005.ScaleInRange | src/optimisation/problems/ModifiedOriginalCEC2005Problem.java:37-40 | each scale lies in [lowerScale, upperScale) |
| ModifiedCec2005.OffsetInRange | src/optimisation/problems/ModifiedOriginalCEC2005Problem.java:50-56 | each offset lies in [lowerTranslate * range, upperTranslate * range) |
| ModifiedCec2005.StretchedBoxOrdered | src/optimisation/problems/ModifiedOriginalCEC2005Problem.java:44-61 | a positive scale keeps the stretched and shifted box ordered |
| ModifiedCec2005.TransformMapsBox | src/optimisation/problems/ModifiedOriginalCEC2005Problem.java:87 | over the reals (x - o) / s lies in the original box exactly when x lies in the new box, and it inverts x * s + o |
| ModifiedCec2005.Transformed | src/optimisation/problems/ModifiedOriginalCEC2005Problem.java:81-90 | each coordinate becomes (x - offset) / scale; it faults exactly when the input is longer than the flip, offset or scale array, or a set flip falls where a bound array has ended; for a problem whose arrays all have the dimensionality's length, as New builds them, exactly when the input is longer than the dimensionality |
| ModifiedCec2005.Evaluate | src/optimisation/problems/ModifiedOriginalCEC2005Problem.java:81-90 | the original function evaluated at the transformed point |
| ModifiedCec2005.EvaluateIgnoresFlips | src/optimisation/problems/ModifiedOriginalCEC2005Problem.java:84-87 | flips change nothing the evaluation returns: two evaluations that both succeed agree, and for a problem whose arrays all have the dimensionality's length, as New builds them, any flips of the same length give the same outcome |
| ModifiedCec2005.TransformExact | src/optimisation/problems/ModifiedOriginalCEC2005Problem.java:87 | a coordinate whose intermediates stay in float range is mapped to (x - o) / s exactly |
| ModifiedCec2005.GetError | src/optimisation/problems/ModifiedOriginalCEC2005Problem.java:112-114 | the original problem's error at the transformed point |
| ModifiedCec2005.WithinBounds | src/optimisation/problems/ModifiedOriginalCEC2005Problem.java:103-109 | true exactly when every input coordinate lies within its own dimension's bounds, inclusive; it faults exactly when the loop gets past every earlier coordinate to one whose bound array has ended |
| ModifiedCec2005.CheckFrom | src/optimisation/problems/ModifiedOriginalCEC2005Problem.java:104-108 | the loop from coordinate i answers true exactly when the remaining coordinates are inside their bounds, and faults exactly when it reaches a coordinate whose bound array has ended |
| ModifiedCec2005.LowerBound | src/optimisation/problems/ModifiedOriginalCEC2005Problem.java:93-95 | the bound exists exactly for a dimension in range, and it is that dimension's lower bound |
| ModifiedCec2005.UpperBound | src/optimisation/problems/ModifiedOriginalCEC2005Problem.java:98-100 | the bound exists exactly for a dimension in range, and it is that dimension's upper bound |

## Left out

- Parameter and file I/O. This covers `InitFromParameters`, the starts file and "defined" parsing, `loadProgram`, `main`, `Report`, the `PrintWriter` output and the `describe`/`verbose` reports. It is plumbing with no logic of its own. Fixed start points are inputs to `Swarm.RunOnce`.
- The COCO path (`EvaluateIndividualUsingCoco`, `CocoProblem`) wraps a native benchmark library whose code is not part of this model.
- `Timings` is a wall-clock benchmark with no logic to model.
- Several collaborators are parameters whose code is not part of this model:
  - the CEC 2005 test functions;
  - `Interpreter.Execute` and `StackFrame`;
  - `Program`, of which only its size and the sizes of the chosen subtrees are modelled;
  - `ReplaceSubtree`, postulated to change the size by the subtree difference;
  - `RandomCode` and `RandomAtom`;
  - `Autosimplify`;
  - tournament `Select`, whose winners are inputs;
  - `HungarianMatching`, assumed to return a permutation;
  - the `EvaluateIndividual` of a crowding child.
- IEEE-754 rounding inside the float range, signed zero and subnormal behaviour are not modelled: arithmetic is exact until it overflows. `Math.sqrt` is the `root` parameter, and double-precision sums are taken as exact.
- The random-vector instructions (`VectorRand`, `VectorRandWithLimits`, `VectorRandWithWidth`, `UnitVectorRand`) consist of random generation and float normalisation only.
- The `toString` methods of the stacks are debugging output only.
- Static configuration is explicit instead. `vectorStack._dims` is a parameter, and so are `VectorBest._pop` and `VectorCurrent._pop`, which become the swarm handed to `Execute`.
- The default psh EA (`super.Reproduce`, `super.Evaluate`) belongs to the Psh library, which is not part of this model. `super.ReproduceByMutation` is `PushGPWithMoreStandardEAs.ReproduceByMutation` (`Breeding.Mutation`), and the optimiser's override on top of it is `Breeding.OptimiserMutation`. `StandardEA.EvaluateSummary` models only the crowding block of `Evaluate`.
- `PushGPEnsemble` (a random program drawn per member) and the `_averageSize` statistic play no part in the modelled rules.
- `ReproductionNodeSelection` is a draw: the chosen nodes arrive as subtree sizes.
- The `crowding.S` parameter is given as an int. The `catch` that sets it to 2 on a missing parameter is a read failure, which is left to the caller.
- Crowding.Groups: an `S` of 0 with a non-empty pool loops forever in the source. The model returns `Diverges` instead.
- Breeding.FairWindowAroundOldSize: assumes a range small enough that `2 * range` does not wrap around in 32 bits, which the source does not check.
- Cec2005.ErrorMeasuresFromOptimum: holds only for optimum and function values within half of MAX, where the float subtraction cannot overflow.
- ModifiedCec2005.ScaleInRange: requires scale ranges within a quarter of MAX, so that the float arithmetic cannot overflow.
- ModifiedCec2005.OffsetInRange: requires offset ranges within a quarter of MAX, so that the float arithmetic cannot overflow.
- ModifiedCec2005.TransformMapsBox: is stated over the reals. The float transform is exact only where `ModifiedCec2005.TransformExact` applies.
- Swarm.RandomStartInBox: requires finite bounds whose difference is a finite float.
- Swarm.DistanceToItself: assumes `root(0) == 0` and finite points.
- Swarm.DistanceNonNegative: assumes a non-negative `root`.
- StandardEA.EvaluateSummary: `super.Evaluate()` runs after the crowding block in every mode (PushGPWithMoreStandardEAs.java:72), so the `Summary` is the state between the two. What the library's `Evaluate` then sets, including re-evaluating every individual, is not modelled.
- Float32.MeanWithinBounds: requires that no partial sum overflows.
- VectorInstructions.MagnitudeIsLength: assumes the `root` parameter is an exact square root and double-precision sums are exact; the source's `Math.sqrt` and double rounding are not modelled.
- Swarm.ProblemErrorInRange: assumes finite run results and sums that stay in float range; it does not bound an error whose partial sums overflow.
- VectorInstructions.DotProductExact: requires every product and partial sum to stay finite.
- ArrayStack.Push: does not model the 32-bit overflow of `_maxsize * 2` once the array has 2^30 slots or more; capacities are unbounded naturals.
- Swarm.MovesTrajectory: states each recorded cell through `CellHolds`, that is, its first coordinates up to the point's length hold the point, as the copy loop writes them. What a cell holds beyond a point shorter than `dims` is not stated.
- Swarm.RunTrajectory: states the recorded cells through `CellHolds` in the same way as Swarm.MovesTrajectory.
- Population.Rank: does not state that the sort is stable. `Arrays.sort` on objects is stable, and so is the insertion sort modelled here, but no member is about equal personal bests keeping their order, since `rank` is never called by the optimiser.

=== FILE: array_stack.dfy ===
/** The array-backed Push stacks `vectorStack` and `booleanStack`: an array `slots` whose
    first `size` entries are the live contents, bottom first. The array is a value here,
    each operation returns the updated stack. Slots at or above `size` are stale: the
    operations never read them and leave them alone unless a push writes one. The methods
    follow the Java loops and are proved to implement the `StackSpec` functions. */
module ArrayStack {
  import opened Common
  import S = StackSpec

  datatype Stack<T> = Stack(slots: seq<T>, size: nat) {
    /** A push always leaves room for the next one: the capacity doubles once it is reached. */
    predicate Valid() {
      size < |slots|
    }

    function Live(): seq<T>
      requires Valid()
    {
      slots[..size]
    }

    /** `peek(i)`: the entry at array index `i`, or nothing (Java `null`) out of range. */
    function Peek(i: int): (r: Option<T>)
      requires Valid()
      ensures r == S.Peek(Live(), i)
    {
      if 0 <= i < size then Some(slots[i]) else None
    }

    /** `top()` is `peek(size - 1)`. */
    function Top(): (r: Option<T>)
      requires Valid()
      ensures r == S.Top(Live())
    {
      Peek(size - 1)
    }
  }

  /** Same live contents, same capacity, and every stale slot kept. */
  ghost predicate SameStale<T>(a: Stack<T>, b: Stack<T>)
    requires a.size <= |a.slots| && b.size <= |b.slots|
  {
    |a.slots| == |b.slots| &&
    forall j :: a.size <= j < |a.slots| && b.size <= j ==> a.slots[j] == b.slots[j]
  }

  /** A new stack; `blank` is the array's default element (Java's `null` or `false`).
      The capacity the base class starts with is a parameter. */
  function Empty<T>(capacity: nat, blank: T): (st: Stack<T>)
    requires capacity > 0
    ensures st.Valid() && st.Live() == [] && |st.slots| == capacity
  {
    Stack(seq(capacity, _ => blank), 0)
  }

  /** `resize(n)`: a new array of `n` blank slots with the live prefix copied over. */
  method Resize<T>(st: Stack<T>, n: nat, blank: T) returns (r: Stack<T>)
    requires st.size <= |st.slots| && st.size <= n
    ensures r.size == st.size && |r.slots| == n
    ensures r.slots[..r.size] == st.slots[..st.size]
    ensures forall j :: st.size <= j < n ==> r.slots[j] == blank
  {
    var grown := seq(n, _ => blank);
    var i := 0;
    while i < st.size
      invariant 0 <= i <= st.size
      invariant |grown| == n
      invariant forall j :: 0 <= j < i ==> grown[j] == st.slots[j]
      invariant forall j :: i <= j < n ==> grown[j] == blank
    {
      grown := grown[i := st.slots[i]];
      i := i + 1;
    }
    r := Stack(grown, st.size);
  }

  /** `push(v)`: store at index `size`, then double the capacity once it is reached. */
  method Push<T>(st: Stack<T>, v: T, blank: T) returns (r: Stack<T>)
    requires st.Valid()
    ensures r.Valid()
    ensures r.Live() == S.Push(st.Live(), v)
    ensures st.size + 1 < |st.slots| ==> |r.slots| == |st.slots|
    ensures st.size + 1 == |st.slots| ==> |r.slots| == 2 * |st.slots|
  {
    r := Stack(st.slots[st.size := v], st.size + 1);
    assert r.slots[..r.size] == st.slots[..st.size] + [v];
    if r.size >= |r.slots| {
      r := Resize(r, 2 * |r.slots|, blank);
    }
  }

  /** `pop()`: the old top (nothing when empty) and the stack without it; the array is untouched. */
  method Pop<T>(st: Stack<T>) returns (r: Stack<T>, v: Option<T>)
    requires st.Valid()
    ensures r.Valid() && r.slots == st.slots
    ensures r.Live() == S.Pop(st.Live())
    ensures v == S.Top(st.Live())
  {
    v := None;
    r := st;
    if st.size > 0 {
      v := Some(st.slots[st.size - 1]);
      r := Stack(st.slots, st.size - 1);
    }
  }

  /** `dup()`: pushes the top again; no-op when empty. */
  method Dup<T>(st: Stack<T>, blank: T) returns (r: Stack<T>)
    requires st.Valid()
    ensures r.Valid()
    ensures r.Live() == S.Dup(st.Live())
  {
    r := st;
    if st.size > 0 {
      r := Push(st, st.slots[st.size - 1], blank);
    }
  }

  /** `swap()`: exchanges the top two in place; no-op below two. */
  method Swap<T>(st: Stack<T>) returns (r: Stack<T>)
    requires st.Valid()
    ensures r.Valid() && r.size == st.size && SameStale(r, st)
    ensures r.Live() == S.Swap(st.Live())
  {
    r := st;
    if st.size > 1 {
      var n := st.size;
      var a := st.slots;
      var tmp := a[n - 1];
      a := a[n - 1 := a[n - 2]];
      a := a[n - 2 := tmp];
      r := Stack(a, n);
      assert r.Live() == st.Live()[..n - 2] + [st.Live()[n - 1], st.Live()[n - 2]];
    }
  }

  /** `rot()`: the third from the top moves to the top; no-op below three. */
  method Rot<T>(st: Stack<T>) returns (r: Stack<T>)
    requires st.Valid()
    ensures r.Valid() && r.size == st.size && SameStale(r, st)
    ensures r.Live() == S.Rot(st.Live())
  {
    r := st;
    if st.size > 2 {
      var n := st.size;
      var a := st.slots;
      var tmp := a[n - 3];
      a := a[n - 3 := a[n - 2]];
      a := a[n - 2 := a[n - 1]];
      a := a[n - 1 := tmp];
      r := Stack(a, n);
      var s := st.Live();
      assert r.Live() == s[..n - 3] + [s[n - 2], s[n - 1], s[n - 3]];
    }
  }

  /** `shove(i)`: clamps the depth, shifts the entries above it up one slot and stores the old
      top there. */
  method Shove<T>(st: Stack<T>, i: int) returns (r: Stack<T>)
    requires st.Valid()
    ensures r.Valid() && r.size == st.size && SameStale(r, st)
    ensures r.Live() == S.Shove(st.Live(), i)
  {
    r := st;
    if st.size > 0 {
      var n := st.size;
      var depth := S.Clamp(i, n);
      var toShove := st.slots[n - 1];
      var k := n - depth - 1;
      var a := ShiftUp(st.slots, k, n);
      a := a[k := toShove];
      r := Stack(a, n);
      ShiftedUp(st.slots, a, n, k, i);
    }
  }

  /** `shove`'s loop: the entries in slots `k..n-2` move up one slot. */
  method ShiftUp<T>(slots: seq<T>, k: nat, n: nat) returns (a: seq<T>)
    requires k < n <= |slots|
    ensures |a| == |slots|
    ensures forall m :: 0 <= m <= k ==> a[m] == slots[m]
    ensures forall m :: k < m < n ==> a[m] == slots[m - 1]
    ensures forall m :: n <= m < |a| ==> a[m] == slots[m]
  {
    a := slots;
    var j := n - 1;
    while j > k
      invariant k <= j <= n - 1
      invariant |a| == |slots|
      invariant forall m :: 0 <= m <= j ==> a[m] == slots[m]
      invariant forall m :: j < m < n ==> a[m] == slots[m - 1]
      invariant forall m :: n <= m < |a| ==> a[m] == slots[m]
    {
      a := a[j := a[j - 1]];
      j := j - 1;
    }
  }

  /** The array after `shove`'s loop holds the live entries with the old top moved to slot `k`. */
  lemma ShiftedUp<T>(before: seq<T>, a: seq<T>, n: nat, k: nat, i: int)
    requires k < n <= |before| == |a| && k == S.Slot(i, n)
    requires forall m :: 0 <= m < k ==> a[m] == before[m]
    requires a[k] == before[n - 1]
    requires forall m :: k < m < n ==> a[m] == before[m - 1]
    ensures a[..n] == S.Shove(before[..n], i)
  {
    var s := before[..n];
    var want := s[..k] + [s[n - 1]] + s[k..n - 1];
    forall m | 0 <= m < n
      ensures a[m] == want[m]
    {
      if m > k {
        assert want[m] == s[k..n - 1][m - k - 1];
      }
    }
  }

  /** `yank(i)`: clamps the depth, shifts the entries above it down one slot and stores the
      yanked entry on top. */
  method Yank<T>(st: Stack<T>, i: int) returns (r: Stack<T>)
    requires st.Valid()
    ensures r.Valid() && r.size == st.size && SameStale(r, st)
    ensures r.Live() == S.Yank(st.Live(), i)
  {
    r := st;
    if st.size > 0 {
      var n := st.size;
      var depth := S.Clamp(i, n);
      var k := n - depth - 1;
      var toYank := st.slots[k];
      var a := ShiftDown(st.slots, k, n);
      a := a[n - 1 := toYank];
      r := Stack(a, n);
      ShiftedDown(st.slots, a, n, k, i);
    }
  }

  /** `yank`'s loop: the entries in slots `k+1..n-1` move down one slot. */
  method ShiftDown<T>(slots: seq<T>, k: nat, n: nat) returns (a: seq<T>)
    requires k < n <= |slots|
    ensures |a| == |slots|
    ensures forall m :: 0 <= m < k ==> a[m] == slots[m]
    ensures forall m :: k <= m < n - 1 ==> a[m] == slots[m + 1]
    ensures forall m :: n - 1 <= m < |a| ==> a[m] == slots[m]
  {
    a := slots;
    var j := k;
    while j < n - 1
      invariant k <= j <= n - 1
      invariant |a| == |slots|
      invariant forall m :: 0 <= m < k ==> a[m] == slots[m]
      invariant forall m :: k <= m < j ==> a[m] == slots[m + 1]
      invariant forall m :: j <= m < |a| ==> a[m] == slots[m]
    {
      a := a[j := a[j + 1]];
      j := j + 1;
    }
  }

  /** The array after `yank`'s loop holds the live entries with the one at slot `k` moved to
      the top. */
  lemma ShiftedDown<T>(before: seq<T>, a: seq<T>, n: nat, k: nat, i: int)
    requires k < n <= |before| == |a| && k == S.Slot(i, n)
    requires forall m :: 0 <= m < k ==> a[m] == before[m]
    requires forall m :: k <= m < n - 1 ==> a[m] == before[m + 1]
    requires a[n - 1] == before[k]
    ensures a[..n] == S.Yank(before[..n], i)
  {
    var s := before[..n];
    var want := s[..k] + s[k + 1..] + [s[k]];
    forall m | 0 <= m < n
      ensures a[m] == want[m]
    {
      if k <= m < n - 1 {
        assert want[m] == s[k + 1..][m - k];
      }
    }
  }

  /** `yankdup(i)`: clamps the depth and pushes a copy of the entry there. */
  method YankDup<T>(st: Stack<T>, i: int, blank: T) returns (r: Stack<T>)
    requires st.Valid()
    ensures r.Valid()
    ensures r.Live() == S.YankDup(st.Live(), i)
  {
    r := st;
    if st.size > 0 {
      var depth := S.Clamp(i, st.size);
      var picked := st.Peek(st.size - depth - 1);
      r := Push(st, picked.value, blank);
    }
  }
}

=== FILE: boolean_stack.dfy ===
/** `booleanStack`: the generic array stack over `bool`, with `false` both as the blank array
    element and as the answer of every read from an empty stack or an index out of range,
    plus value equality and hashing over the live contents. `push`, `dup`, `swap`, `rot` and
    `resize` are the same code as for vectors and are `ArrayStack`'s methods. */
module BooleanStack {
  import opened Common
  import opened Int32
  import S = StackSpec
  import A = ArrayStack

  type BoolStack = A.Stack<bool>

  /** `peek(i)`: the entry at array index `i`, `false` out of range. */
  function Peek(st: BoolStack, i: int): (b: bool)
    requires st.Valid()
    ensures b <==> S.Peek(st.Live(), i) == Some(true)
  {
    if 0 <= i < st.size then st.slots[i] else false
  }

  /** `top()`: the top entry, `false` when empty. */
  function Top(st: BoolStack): (b: bool)
    requires st.Valid()
    ensures b <==> S.Top(st.Live()) == Some(true)
  {
    if st.size > 0 then Peek(st, st.size - 1) else false
  }

  /** `pop()`: removes and returns the top; on an empty stack returns `false` and leaves the
      size at 0. */
  method Pop(st: BoolStack) returns (r: BoolStack, b: bool)
    requires st.Valid()
    ensures r.Valid() && r.slots == st.slots
    ensures r.Live() == S.Pop(st.Live())
    ensures b <==> S.Top(st.Live()) == Some(true)
    ensures st.size == 0 ==> r.size == 0 && !b
  {
    b := false;
    r := st;
    if st.size > 0 {
      b := st.slots[st.size - 1];
      r := A.Stack(st.slots, st.size - 1);
    }
  }

  /** `equals(obj)`: false for `null` (`None`), otherwise sizes and live entries compared one
      by one. */
  method Equals(st: BoolStack, other: Option<BoolStack>) returns (eq: bool)
    requires st.Valid()
    requires other.Some? ==> other.value.Valid()
    ensures eq <==> other.Some? && st.Live() == other.value.Live()
  {
    if other.None? {
      return false;
    }
    var o := other.value;
    if st.size != o.size {
      assert |st.Live()| != |o.Live()|;
      return false;
    }
    var i := 0;
    while i < st.size
      invariant 0 <= i <= st.size
      invariant st.slots[..i] == o.slots[..i]
    {
      if st.slots[i] != o.slots[i] {
        assert st.Live()[i] != o.Live()[i];
        return false;
      }
      assert st.slots[..i + 1] == st.slots[..i] + [st.slots[i]];
      assert o.slots[..i + 1] == o.slots[..i] + [o.slots[i]];
      i := i + 1;
    }
    return true;
  }

  /** The hash of a sequence of booleans: start at 7 and fold `41 * h + Boolean.hashCode(b)`
      in 32-bit arithmetic. */
  function HashOf(bs: seq<bool>): (h: int)
    ensures Is32(h)
  {
    if |bs| == 0 then 7 else Wrap(41 * HashOf(bs[..|bs| - 1]) + BoolHash(bs[|bs| - 1]))
  }

  /** `hashCode()`, the loop over the live entries. */
  method HashCode(st: BoolStack) returns (h: int)
    requires st.Valid()
    ensures Is32(h)
    ensures h == HashOf(st.Live())
  {
    h := 7;
    var i := 0;
    while i < st.size
      invariant 0 <= i <= st.size
      invariant h == HashOf(st.slots[..i])
    {
      assert st.slots[..i + 1][..i] == st.slots[..i];
      h := Wrap(41 * h + BoolHash(st.slots[i]));
      i := i + 1;
    }
    assert st.slots[..st.size] == st.Live();
  }
}

=== FILE: breeding.dfy ===
/** The variation operators of `PushGPWithMoreStandardEAs`: subtree crossover (one child or
    two), subtree mutation, simplification, and the crowding replacement rule.

    Programs are known only by their size. The node picked by `ReproductionNodeSelection`
    and the size of the subtree rooted there are supplied as draws, and `ReplaceSubtree` is
    taken to change the size by the size of the new subtree minus the size of the old one. */
module Breeding {
  import opened Common
  import opened Float32
  import opened Int32
  import opened Random
  import opened Individuals
  import Swarm

  /** `ReplaceSubtree`: the program after a subtree of `oldSub` points is replaced by one of
      `newSub` points. */
  function Splice(p: Program, oldSub: int, newSub: int): (q: Program)
    ensures q.size - p.size == newSub - oldSub
  {
    Program(p.size - oldSub + newSub)
  }

  /** The size test that guards every splice: the program after the splice has at most
      `maxPoints` points. */
  predicate FitsBudget(size: int, oldSub: int, newSub: int, maxPoints: int) {
    size + newSub - oldSub <= maxPoints
  }

  /** Sizes of the subtrees at the nodes picked in the first and in the second parent. */
  datatype CrossDraw = CrossDraw(aSub: int, bSub: int)

  /** Individuals by reference: the standard EA passes members of the current population to
      `ReproduceByCrossover`, which changes its first argument in place. */
  type Heap = seq<Individual>

  /** `ReproduceByCrossover(a, b)`: an empty first parent returns the second parent itself; an
      empty second parent returns the first; otherwise b's picked subtree replaces a's picked
      subtree inside `a` itself when the result fits the budget, and `a` is returned. No
      clone is made. */
  function Crossover(h: Heap, a: nat, b: nat, d: CrossDraw, maxPoints: int): (r: (Heap, nat))
    requires a < |h| && b < |h|
    ensures |r.0| == |h| && r.1 < |h|
    ensures r.1 == (if h[a].program.size <= 0 then b else a)
    ensures forall k :: 0 <= k < |h| && k != a ==> r.0[k] == h[k]
    ensures r.0[a] == h[a].(program := r.0[a].program)
    ensures h[a].program.size <= maxPoints && h[b].program.size <= maxPoints ==>
      r.0[r.1].program.size <= maxPoints
    ensures r.0[a] != h[a] <==>
      h[a].program.size > 0 && h[b].program.size > 0 && d.aSub != d.bSub &&
      FitsBudget(h[a].program.size, d.aSub, d.bSub, maxPoints)
  {
    var pa := h[a].program;
    var pb := h[b].program;
    if pa.size <= 0 then (h, b)
    else if pb.size <= 0 then (h, a)
    else if FitsBudget(pa.size, d.aSub, d.bSub, maxPoints) then
      (h[a := h[a].(program := Splice(pa, d.aSub, d.bSub))], a)
    else (h, a)
  }

  /** `ReproduceTwoChildrenByCrossover(a, b)`: clones of both parents when either is empty;
      otherwise each child is a clone of one parent with the other parent's picked subtree
      spliced in, and is `None` (Java's `null`) when that splice would break the budget. The
      parents are not changed. */
  function TwoChildren(a: Individual, b: Individual, d: CrossDraw, maxPoints: int)
    : (r: (Option<Individual>, Option<Individual>))
    ensures a.program.size <= 0 || b.program.size <= 0 ==> r == (Some(Clone(a)), Some(Clone(b)))
    ensures a.program.size > 0 && b.program.size > 0 ==>
      (r.0.Some? <==> FitsBudget(a.program.size, d.aSub, d.bSub, maxPoints)) &&
      (r.1.Some? <==> FitsBudget(b.program.size, d.bSub, d.aSub, maxPoints))
    ensures r.0.Some? ==> r.0.value == Clone(a).(program := r.0.value.program)
    ensures r.1.Some? ==> r.1.value == Clone(b).(program := r.1.value.program)
    ensures a.program.size <= maxPoints && b.program.size <= maxPoints ==>
      (r.0.Some? ==> r.0.value.program.size <= maxPoints) &&
      (r.1.Some? ==> r.1.value.program.size <= maxPoints)
  {
    if a.program.size <= 0 || b.program.size <= 0 then (Some(Clone(a)), Some(Clone(b)))
    else
      var first :=
        if FitsBudget(a.program.size, d.aSub, d.bSub, maxPoints)
        then Some(Clone(a).(program := Splice(a.program, d.aSub, d.bSub))) else None;
      var second :=
        if FitsBudget(b.program.size, d.bSub, d.aSub, maxPoints)
        then Some(Clone(b).(program := Splice(b.program, d.bSub, d.aSub))) else None;
      (first, second)
  }

  /** Children of a pair that both fit the budget are each other's complement: the points
      one child gains are the points the other loses. */
  lemma TwoChildrenExchangeSubtrees(a: Individual, b: Individual, d: CrossDraw, maxPoints: int)
    requires a.program.size > 0 && b.program.size > 0
    requires TwoChildren(a, b, d, maxPoints).0.Some? && TwoChildren(a, b, d, maxPoints).1.Some?
    ensures var (c0, c1) := TwoChildren(a, b, d, maxPoints);
      c0.value.program.size + c1.value.program.size == a.program.size + b.program.size
  {
  }

  // ---------------------------------------------------------------------------------------
  // Mutation

  /** `_useFairMutation`, `_fairMutationRange`, `_maxRandomCodeSize`, `_maxPointsInProgram`,
      and the optimiser's `evolvePopSize` and `maxPopSize`. */
  datatype MutationParams = MutationParams(fair: bool, fairRange: real, maxRandomCodeSize: int,
                                           maxPoints: int, evolvePopSize: bool, maxPopSize: int)

  /** The size of the subtree at the picked node, the raw draw of the size `nextInt` call,
      and the raw draws of the optimiser's swarm-size coin (`nextDouble`) and new size
      (`nextInt`). */
  datatype MutationDraw = MutationDraw(oldSub: int, raw: nat, coin: nat, sizeRaw: nat)

  /** `(int) Math.max(1, _fairMutationRange * oldsize)`: at least 1, truncated toward zero,
      saturating at `Integer.MAX_VALUE`. */
  function FairRange(fairRange: real, oldSub: int): (range: int)
    ensures 1 <= range <= MAX_INT
    ensures var x := fairRange * oldSub as real;
      (x < 1.0 ==> range == 1) && (1.0 <= x < MAX_INT as real ==> range as real <= x < range as real + 1.0)
  {
    var x := fairRange * oldSub as real;
    if x < 1.0 then 1
    else if x >= MAX_INT as real then MAX_INT
    else x.Floor
  }

  /** The size of the replacement subtree. Fair mutation draws it from a window of
      `2 * range` sizes centred on the old size and never goes below 1; otherwise it is drawn
      from [0, `_maxRandomCodeSize`). A window or maximum that is not positive makes
      `nextInt` throw; `2 * range` is an int product and wraps. */
  function NewSubtreeSize(m: MutationParams, d: MutationDraw): (r: Result<int>)
    ensures r.Err? ==> r.fault == IllegalArgument
    ensures m.fair ==> (r.Err? <==> Wrap(2 * FairRange(m.fairRange, d.oldSub)) <= 0)
    ensures m.fair && r.Ok? ==> r.value >= 1
    ensures !m.fair ==> (r.Err? <==> m.maxRandomCodeSize <= 0)
    ensures !m.fair && r.Ok? ==> 0 <= r.value < m.maxRandomCodeSize
  {
    if m.fair then
      var range := FairRange(m.fairRange, d.oldSub);
      var draw := NextInt(d.raw, Wrap(2 * range));
      if draw.Err? then Err(draw.fault)
      else
        var size := Wrap(Wrap(d.oldSub + draw.value) - range);
        Ok(if size > 1 then size else 1)
    else NextInt(d.raw, m.maxRandomCodeSize)
  }

  /** With a small enough range the fair window is never empty, and an old subtree that
      fits the window's lower half keeps the new size within `range` of it. */
  lemma FairWindowAroundOldSize(m: MutationParams, d: MutationDraw)
    requires m.fair && 0 <= d.oldSub <= 0x1000_0000 && FairRange(m.fairRange, d.oldSub) <= 0x1000_0000
    ensures NewSubtreeSize(m, d).Ok?
    ensures var range := FairRange(m.fairRange, d.oldSub);
      var s := NewSubtreeSize(m, d).value;
      s == 1 || d.oldSub - range <= s < d.oldSub + range
  {
  }

  /** `ReproduceByMutation(p)`: a clone of `p` whose picked subtree is replaced by a random
      one of the drawn size (a single atom for size 1), when the result fits the budget. The
      new subtree is taken to have the drawn size. */
  function Mutation(p: Individual, m: MutationParams, d: MutationDraw): (r: Result<Individual>)
    ensures r.Err? <==> NewSubtreeSize(m, d).Err?
    ensures r.Ok? ==> r.value == Clone(p).(program := r.value.program)
    ensures r.Ok? ==>
      var n := NewSubtreeSize(m, d).value;
      if FitsBudget(p.program.size, d.oldSub, n, m.maxPoints)
      then r.value.program.size == p.program.size - d.oldSub + n
      else r.value.program == p.program
    ensures r.Ok? && p.program.size <= m.maxPoints ==> r.value.program.size <= m.maxPoints
  {
    var n := NewSubtreeSize(m, d);
    if n.Err? then Err(n.fault)
    else
      var c := Clone(p);
      if FitsBudget(p.program.size, d.oldSub, n.value, m.maxPoints)
      then Ok(c.(program := Splice(c.program, d.oldSub, n.value)))
      else Ok(c)
  }

  /** The swarm-size coin of the optimiser's `ReproduceByMutation` comes up: the size is
      redrawn. */
  predicate RedrawsPopSize(m: MutationParams, d: MutationDraw) {
    m.evolvePopSize && NextDouble(d.coin) < 0.05
  }

  /** `ReproduceByMutation(p)` as the optimiser overrides it: the mutant above, whose swarm
      size is redrawn in [1, maxPopSize - 1] when sizes evolve and the coin is below 0.05. A
      bound `maxPopSize - 1` that is not positive makes the redraw fail. */
  function OptimiserMutation(p: Individual, m: MutationParams, d: MutationDraw): (r: Result<Individual>)
    ensures r.Err? <==>
      Mutation(p, m, d).Err? || (RedrawsPopSize(m, d) && Wrap(m.maxPopSize - 1) <= 0)
    ensures r.Ok? ==> r.value.(popSize := p.popSize) == Mutation(p, m, d).value
    ensures r.Ok? && !RedrawsPopSize(m, d) ==> r.value.popSize == p.popSize
    ensures r.Ok? && RedrawsPopSize(m, d) ==> 1 <= r.value.popSize <= Wrap(m.maxPopSize - 1)
    ensures r.Ok? && RedrawsPopSize(m, d) && d.sizeRaw < Wrap(m.maxPopSize - 1) ==>
      r.value.popSize == d.sizeRaw + 1
  {
    var c := Mutation(p, m, d);
    if c.Err? then c
    else
      var bound := Wrap(m.maxPopSize - 1);
      var draw := if bound > 0 then NextInt(d.sizeRaw, bound).value else 0;
      var size := Swarm.MutatePopSize(m.evolvePopSize, c.value.popSize, m.maxPopSize, NextDouble(d.coin), draw);
      if size.Err? then Err(size.fault) else Ok(c.value.(popSize := size.value))
  }

  /** `ReproduceBySimplification(a)`: `Autosimplify` (supplied) applied to a clone. */
  function Simplification(a: Individual, simplify: Individual -> Individual): Individual {
    simplify(Clone(a))
  }

  // ---------------------------------------------------------------------------------------
  // Replacement

  /** `replacementRule(pfitness, cfitness)`: the child replaces its parent when its fitness
      is higher, a coin decides a tie, and a NaN on either side keeps the parent. */
  function ReplacementRule(parentFitness: Flt, childFitness: Flt, coin: bool): (keepChild: bool)
    ensures Gt(childFitness, parentFitness) ==> keepChild
    ensures Lt(childFitness, parentFitness) ==> !keepChild
    ensures Eq(childFitness, parentFitness) ==> keepChild == coin
    ensures parentFitness.NaN? || childFitness.NaN? ==> !keepChild
  {
    if Gt(childFitness, parentFitness) then true
    else if Eq(childFitness, parentFitness) then coin
    else false
  }

  /** The rule keeps the child exactly when its fitness is at least the parent's, except on
      a lost tie; with non-NaN fitnesses this is the reverse of the order in which the
      evolution ranks individuals (lower fitness is better). */
  lemma ReplacementPrefersHigherFitness(pf: Flt, cf: Flt, coin: bool)
    requires !pf.NaN? && !cf.NaN?
    ensures ReplacementRule(pf, cf, coin) <==> Lt(pf, cf) || (pf == cf && coin)
  {
    Trichotomy(pf, cf);
  }
}

=== FILE: cec2005.dfy ===
/** `OriginalCEC2005Problem`: one of the 25 CEC 2005 benchmark functions with its search box
    and known optimum. The benchmark functions themselves are not part of this model; each
    problem carries its function as a parameter. */
module Cec2005 {
  import opened Common
  import opened Float32
  import opened Decimal

  /** `(float) Math.PI`. */
  const PI_F: real := 13176795.0 / 4194304.0

  /** The optimum of each function, `optima[n - 1]` for function `n`. */
  const OPTIMA: seq<real> := [
    -450.0, -450.0, -450.0, -450.0, -310.0, 390.0, -180.0, -140.0, -330.0, -330.0,
    90.0, -460.0, -130.0, -300.0, 120.0, 120.0, 120.0, 10.0, 10.0, 10.0,
    360.0, 360.0, 360.0, 260.0, 260.0]

  /** A benchmark function applied to a point in double precision; its result converted to
      float. */
  type TestFunction = seq<Flt> -> Flt

  datatype Problem = Problem(
    number: int,
    dims: int,
    lower: real,
    upper: real,
    optimum: real,
    name: string,
    f: TestFunction)

  /** The constructor's `switch`: `(lower, upper)`, the same in every dimension. Every
      function has a non-empty box, symmetric about 0 except for functions 7 and 25, whose
      lower limit is the smallest positive float. The `default` branch gives an empty box. */
  function BoxOf(n: int): (box: (real, real))
    ensures 1 <= n <= 25 ==> box.0 < box.1
    ensures 1 <= n <= 25 && n != 7 && n != 25 ==> box.0 == -box.1
    ensures n == 7 || n == 25 ==> box == (MIN_POSITIVE, MAX)
    ensures !(1 <= n <= 25) ==> box == (100.0, 100.0)
  {
    if 1 <= n <= 6 || n == 14 then (-100.0, 100.0)
    else if n == 7 || n == 25 then (MIN_POSITIVE, MAX)
    else if n == 8 then (-32.0, 32.0)
    else if n == 9 || n == 10 || n == 13 || 15 <= n <= 24 then (-5.0, 5.0)
    else if n == 11 then (-0.5, 0.5)
    else if n == 12 then (-PI_F, PI_F)
    else (100.0, 100.0)
  }

  /** `new OriginalCEC2005Problem(n, dims)`. The optimum is read from the 25-entry table
      before the `switch`, so a function number outside 1..25 fails there and the `default`
      box is never used. */
  function New(n: int, dims: int, f: TestFunction): (r: Result<Problem>)
    ensures r.Ok? <==> 1 <= n <= 25
    ensures r.Err? ==> r.fault == IndexOutOfBounds
    ensures r.Ok? ==>
      r.value.number == n && r.value.dims == dims &&
      r.value.optimum == OPTIMA[n - 1] && r.value.lower < r.value.upper &&
      r.value.name == "cecF" + IntToDecimal(n)
  {
    if !(1 <= n <= 25) then Err(IndexOutOfBounds)
    else
      var (lower, upper) := BoxOf(n);
      Ok(Problem(n, dims, lower, upper, OPTIMA[n - 1], "cecF" + IntToDecimal(n), f))
  }

  /** The name of a problem reads back as its function number. */
  lemma NameShowsNumber(n: int, dims: int, f: TestFunction)
    requires New(n, dims, f).Ok?
    ensures var name := New(n, dims, f).value.name;
      name[..4] == "cecF" && ParseInt(name[4..]) == Some(n)
  {
    var name := New(n, dims, f).value.name;
    assert name[4..] == IntToDecimal(n);
    IntToDecimalRoundTrip(n);
  }

  /** `getLowerBound(dim)` and `getUpperBound(dim)` ignore `dim`. */
  function LowerBound(p: Problem, dim: int): real {
    p.lower
  }

  function UpperBound(p: Problem, dim: int): real {
    p.upper
  }

  /** `x * (upper - lower) + lower` in double precision: the affine map of [0, 1] onto the
      box. The float difference `upper - lower` is exact for every table entry except
      functions 7 and 25, where `Float.MAX_VALUE - Float.MIN_VALUE` rounds to `MAX`; the
      model keeps the real difference, as it does for all rounding inside the float range. */
  function Rescaled(x: Flt, lower: real, upper: real): (y: Flt)
    ensures x.Fin? ==> y == Fin(x.v * (upper - lower) + lower)
    ensures x.NaN? ==> y.NaN?
  {
    var range := upper - lower;
    if x.Fin? then Fin(x.v * (upper - lower) + lower)
    else if x.NaN? then NaN
    else if range > 0.0 then x
    else if range < 0.0 then Neg(x)
    else NaN
  }

  /** Rescaling sends [0, 1] onto the box. */
  lemma RescaledIntoBox(v: real, lower: real, upper: real)
    requires 0.0 <= v <= 1.0 && lower <= upper
    ensures Rescaled(Fin(v), lower, upper).Fin?
    ensures lower <= Rescaled(Fin(v), lower, upper).v <= upper
  {
    ScaledBetween(v, upper - lower, v * (upper - lower));
  }

  /** `evaluate(inputs, rescale)`: the benchmark function at the (rescaled) point, with an
      infinite result replaced by `MAX_VALUE` or `1 - MAX_VALUE`. */
  function Evaluate(p: Problem, inputs: seq<Flt>, rescale: bool): (y: Flt)
    ensures !y.IsInfinite()
    ensures y.NaN? <==> p.f(Point(p, inputs, rescale)).NaN?
    ensures !p.f(Point(p, inputs, rescale)).IsInfinite() ==> y == p.f(Point(p, inputs, rescale))
  {
    ClampInf(p.f(Point(p, inputs, rescale)))
  }

  /** The point handed to the benchmark function. */
  function Point(p: Problem, inputs: seq<Flt>, rescale: bool): (x: seq<Flt>)
    ensures |x| == |inputs|
  {
    if rescale then seq(|inputs|, i requires 0 <= i < |inputs| => Rescaled(inputs[i], LowerBound(p, i), UpperBound(p, i)))
    else inputs
  }

  /** `getError(inputs, rescale)`: the value above the known optimum, in float arithmetic. */
  function GetError(p: Problem, inputs: seq<Flt>, rescale: bool): Flt {
    Sub(Evaluate(p, inputs, rescale), Fin(p.optimum))
  }

  /** The error is 0 exactly where the function attains its optimum, and is the finite
      distance above it elsewhere (for values that cannot overflow). */
  lemma ErrorMeasuresFromOptimum(p: Problem, inputs: seq<Flt>, rescale: bool)
    requires -MAX / 2.0 <= p.optimum <= MAX / 2.0
    requires p.f(Point(p, inputs, rescale)).Fin?
    requires var y := p.f(Point(p, inputs, rescale)).v; -MAX / 2.0 <= y <= MAX / 2.0
    ensures var y := p.f(Point(p, inputs, rescale)).v;
      GetError(p, inputs, rescale) == Fin(y - p.optimum) &&
      (GetError(p, inputs, rescale) == Fin(0.0) <==> y == p.optimum)
  {
  }

  /** One coordinate is inside the box: neither below `lower` nor above `upper`. A NaN
      coordinate compares false both ways and so counts as inside. */
  predicate InBox(x: Flt, lower: Flt, upper: Flt) {
    !Lt(x, lower) && !Gt(x, upper)
  }

  lemma InBoxInclusive(v: real, lower: real, upper: real)
    ensures InBox(Fin(v), Fin(lower), Fin(upper)) <==> lower <= v <= upper
    ensures InBox(NaN, Fin(lower), Fin(upper))
  {
  }

  /** `isWithinBounds(inputs)`: checks the first `dims` coordinates in order and answers
      `false` at the first one outside the box; an array shorter than `dims` whose
      coordinates are all inside fails when the loop reads past its end. */
  function WithinBounds(p: Problem, inputs: seq<Flt>): (r: Result<bool>)
    ensures r == Ok(true) <==>
      p.dims <= |inputs| && forall i :: 0 <= i < p.dims ==> InBox(inputs[i], Fin(p.lower), Fin(p.upper))
    ensures r.Err? <==>
      p.dims > |inputs| && forall i :: 0 <= i < |inputs| ==> InBox(inputs[i], Fin(p.lower), Fin(p.upper))
    ensures r.Err? ==> r.fault == IndexOutOfBounds
  {
    CheckFrom(inputs, 0, p.dims, Fin(p.lower), Fin(p.upper))
  }

  function CheckFrom(inputs: seq<Flt>, i: nat, dims: int, lower: Flt, upper: Flt): (r: Result<bool>)
    requires i <= |inputs|
    ensures r == Ok(true) <==>
      dims <= |inputs| && forall k :: i <= k < dims ==> InBox(inputs[k], lower, upper)
    ensures r.Err? <==>
      dims > |inputs| && forall k :: i <= k < |inputs| ==> InBox(inputs[k], lower, upper)
    ensures r.Err? ==> r.fault == IndexOutOfBounds
    decreases dims - i
  {
    if i >= dims then Ok(true)
    else if i >= |inputs| then Err(IndexOutOfBounds)
    else if !InBox(inputs[i], lower, upper) then Ok(false)
    else CheckFrom(inputs, i + 1, dims, lower, upper)
  }

  /** For functions 7 and 25 the lower limit is positive, so a point with a coordinate at or
      below 0 among the first `dims` is outside the box. */
  lemma PositiveOrthantOnly(p: Problem, inputs: seq<Flt>, i: nat)
    requires p.lower == MIN_POSITIVE && i < p.dims && i < |inputs| && inputs[i].Fin? && inputs[i].v <= 0.0
    ensures WithinBounds(p, inputs) == Ok(false)
  {
    assert MIN_POSITIVE > 0.0;
    assert !InBox(inputs[i], Fin(p.lower), Fin(p.upper));
    var r := WithinBounds(p, inputs);
    assert r != Ok(true);
    assert !r.Err?;
    assert r.value != true;
  }
}

=== FILE: common.dfy ===
/** Option and Result types shared by the whole model: `None` stands for a Java `null`
    return, `Err` for an exception the Java code would throw. */
module Common {

  datatype Option<+T> = None | Some(value: T) {
    function GetOr(default: T): T {
      match this
      case Some(v) => v
      case None => default
    }
  }

  /** Exceptions the modelled Java code can raise on some inputs. */
  datatype Fault =
    | NullPointer            // a null reference is dereferenced
    | IllegalArgument        // Random.nextInt called with a bound that is not positive
    | IndexOutOfBounds       // an array index outside its array
    | DivideByZero           // an int `%` or `Math.floorDiv` by zero
    | NegativeArraySize      // an array allocated with a negative length
    | Diverges               // a loop that never terminates

  datatype Result<+T> = Ok(value: T) | Err(fault: Fault)
}

=== FILE: crowding.dfy ===
/** `ReproduceWithCrowding`: the population is split at random into parent sets of `S`
    individuals; each pair of parents yields two children (two mutants, or the two children
    of a crossover), which are evaluated; children are matched one-to-one to parents by the
    Hungarian method on the crowding distance; and each parent competes with its matched
    child for the parent's slot in the next generation. */
module Crowding {
  import opened Common
  import opened Float32
  import opened Int32
  import opened Random
  import opened Swarm
  import opened Individuals
  import opened Breeding

  /** The distance that stands in for an infinite one before matching. */
  const SENTINEL: real := 1000000000000000000000000000000000000000000000000000000000000000000000000000000000000000000000000000.0

  /** `crowding.S`, the operator percentages and the mutation settings. */
  datatype Params = Params(
    S: int,
    mutationPercent: real,
    crossoverPercent: real,
    simplificationPercent: real,
    mutation: MutationParams)

  /** Raw draws, indexed by parent set and by position in the set: the index drawn from the
      pool, the operator draw of a pair, the node picks of mutation and crossover, the coin
      of a tied replacement and the simplification draw. */
  datatype Draws = Draws(
    pick: (nat, nat) -> nat,
    operator: (nat, nat) -> nat,
    mutation: (nat, nat) -> MutationDraw,
    crossover: (nat, nat) -> CrossDraw,
    coin: (nat, nat) -> bool,
    simplify: (nat, nat) -> nat)

  /** Code outside this model: `EvaluateIndividual`, `Autosimplify`, `HungarianMatching`
      and `Math.sqrt`. */
  datatype Oracles = Oracles(
    evaluate: Individual -> Individual,
    simplify: Individual -> Individual,
    matcher: seq<seq<Dist>> -> seq<nat>,
    root: real -> real)

  /** What one pass of the `while` loop did. */
  datatype Group = Group(
    picked: seq<nat>,
    parents: seq<Individual>,
    children: seq<Individual>,
    distances: seq<seq<Dist>>,
    matches: seq<nat>,
    slots: seq<Individual>)

  /** A matching that assigns every one of `n` parents a different one of `n` children. */
  predicate IsPermutation(m: seq<nat>, n: nat) {
    |m| == n &&
    (forall i :: 0 <= i < n ==> m[i] < n) &&
    (forall i, j :: 0 <= i < j < n ==> m[i] != m[j])
  }

  /** The matcher is assumed to return an assignment of the rows of a square matrix. */
  ghost predicate MatcherAssigns(matcher: seq<seq<Dist>> -> seq<nat>) {
    forall dm :: IsPermutation(matcher(dm), |dm|)
  }

  // ---------------------------------------------------------------------------------------
  // Parent sets

  /** Draws `count` indices one at a time with `indexPool.remove(nextInt(indexPool.size()))`.
      The draw after the pool runs dry asks `nextInt` for a number below 0 and throws. */
  function DrawParents(pool: seq<nat>, count: nat, pick: nat -> nat, drawn: nat)
    : (r: Result<(seq<nat>, seq<nat>)>)
    ensures r.Err? <==> |pool| < count
    ensures r.Err? ==> r.fault == IllegalArgument
    ensures r.Ok? ==>
      |r.value.0| == count && |r.value.1| == |pool| - count &&
      multiset(r.value.0) + multiset(r.value.1) == multiset(pool)
    decreases count
  {
    if count == 0 then Ok(([], pool))
    else
      var j := NextInt(pick(drawn), |pool|);
      if j.Err? then Err(j.fault)
      else
        var k := j.value;
        var rest := pool[..k] + pool[k + 1..];
        assert pool == pool[..k] + [pool[k]] + pool[k + 1..];
        assert multiset(pool) == multiset{pool[k]} + multiset(rest);
        var tail := DrawParents(rest, count - 1, pick, drawn + 1);
        if tail.Err? then tail
        else
          assert multiset([pool[k]] + tail.value.0) == multiset{pool[k]} + multiset(tail.value.0);
          Ok(([pool[k]] + tail.value.0, tail.value.1))
  }

  // ---------------------------------------------------------------------------------------
  // Children

  /** `method < _mutationPercent / (_crossoverPercent + _mutationPercent)` in float
      arithmetic, where `method` is the whole number `nextInt(100)` returned. */
  predicate ChoosesMutation(draw: int, p: Params) {
    Lt(Fin(draw as real), Div(Fin(p.mutationPercent), Add(Fin(p.crossoverPercent), Fin(p.mutationPercent))))
  }

  /** With non-negative percentages the ratio is at most 1, so a whole-number draw in
      [0, 100) selects mutation only when it is 0 (and the mutation percentage is not 0),
      and crossover on every other draw. */
  lemma MutationOnlyOnZeroDraw(draw: int, p: Params)
    requires 0 <= draw < 100
    requires 0.0 <= p.mutationPercent <= 100.0 && 0.0 <= p.crossoverPercent <= 100.0
    requires p.mutationPercent + p.crossoverPercent > 0.0
    ensures ChoosesMutation(draw, p) <==> draw == 0 && p.mutationPercent > 0.0
  {
    var sum := p.crossoverPercent + p.mutationPercent;
    assert Add(Fin(p.crossoverPercent), Fin(p.mutationPercent)) == Fin(sum);
    var ratio := p.mutationPercent / sum;
    assert 0.0 <= ratio <= 1.0 by {
      assert p.mutationPercent <= sum;
      QuotientBounds(p.mutationPercent, sum, 0.0, 1.0);
    }
    assert Div(Fin(p.mutationPercent), Fin(sum)) == Fin(ratio);
    assert ratio > 0.0 <==> p.mutationPercent > 0.0;
  }

  /** The two children of the pair at positions `i` and `i + 1`, before evaluation: two
      mutants (each perhaps with a redrawn swarm size), or the two children of a crossover. The first mutant is made before the
      second parent is read, so an odd-sized set fails only after it; a `null` crossover
      child fails when it is evaluated. */
  function BreedPair(parents: seq<Individual>, g: nat, i: nat, p: Params, d: Draws)
    : (r: Result<(Individual, Individual)>)
    requires i < |parents|
    ensures i + 1 == |parents| ==> r.Err?
    ensures r.Ok? ==>
      if ChoosesMutation(NextInt(d.operator(g, i), 100).value, p) then
        Ok(r.value.0) == OptimiserMutation(parents[i], p.mutation, d.mutation(g, i)) &&
        Ok(r.value.1) == OptimiserMutation(parents[i + 1], p.mutation, d.mutation(g, i + 1))
      else
        var xs := TwoChildren(parents[i], parents[i + 1], d.crossover(g, i), p.mutation.maxPoints);
        xs == (Some(r.value.0), Some(r.value.1))
  {
    var draw := NextInt(d.operator(g, i), 100).value;
    if ChoosesMutation(draw, p) then
      var c0 := OptimiserMutation(parents[i], p.mutation, d.mutation(g, i));
      if c0.Err? then Err(c0.fault)
      else if i + 1 == |parents| then Err(IndexOutOfBounds)
      else
        var c1 := OptimiserMutation(parents[i + 1], p.mutation, d.mutation(g, i + 1));
        if c1.Err? then Err(c1.fault) else Ok((c0.value, c1.value))
    else if i + 1 == |parents| then Err(IndexOutOfBounds)
    else
      var xs := TwoChildren(parents[i], parents[i + 1], d.crossover(g, i), p.mutation.maxPoints);
      if xs.0.None? || xs.1.None? then Err(NullPointer) else Ok((xs.0.value, xs.1.value))
  }

  /** The evaluated children of the parent set from position `i` on, pair by pair. */
  function BreedPairs(parents: seq<Individual>, g: nat, i: nat, p: Params, d: Draws, o: Oracles)
    : (r: Result<seq<Individual>>)
    requires i <= |parents|
    ensures r.Ok? ==> |r.value| == |parents| - i && (|parents| - i) % 2 == 0
    ensures (|parents| - i) % 2 == 1 ==> r.Err?
    decreases |parents| - i
  {
    if i == |parents| then Ok([])
    else
      var pair := BreedPair(parents, g, i, p, d);
      if pair.Err? then Err(pair.fault)
      else
        var rest := BreedPairs(parents, g, i + 2, p, d, o);
        assert (|parents| - i) % 2 == (|parents| - (i + 2)) % 2;
        if rest.Err? then rest
        else Ok([o.evaluate(pair.value.0), o.evaluate(pair.value.1)] + rest.value)
  }

  /** A crossover that would break the budget in either direction leaves a `null` child, and
      the set's breeding fails when that child is evaluated. */
  lemma NullChildFails(parents: seq<Individual>, g: nat, p: Params, d: Draws, o: Oracles)
    requires |parents| >= 2
    requires !ChoosesMutation(NextInt(d.operator(g, 0), 100).value, p)
    requires parents[0].program.size > 0 && parents[1].program.size > 0
    requires !FitsBudget(parents[0].program.size, d.crossover(g, 0).aSub, d.crossover(g, 0).bSub,
                         p.mutation.maxPoints)
    ensures BreedPairs(parents, g, 0, p, d, o) == Err(NullPointer)
  {
    assert BreedPair(parents, g, 0, p, d) == Err(NullPointer);
  }

  // ---------------------------------------------------------------------------------------
  // Distances

  /** An infinite distance is replaced by `SENTINEL`; any other is kept. */
  function Capped(x: Dist): (y: Dist)
    ensures !y.Infinite?
    ensures x.Infinite? ==> y == Finite(SENTINEL)
    ensures !x.Infinite? ==> y == x
  {
    if x.Infinite? then Finite(SENTINEL) else x
  }

  /** `phenotypicDistance(parent, child)` as it enters the matrix. */
  function Entry(parent: Individual, child: Individual, root: real -> real): (r: Result<Dist>)
    ensures r.Ok? ==> !r.value.Infinite?
    ensures r.Ok? <==> PhenotypicDistance(parent.trajectories, child.trajectories, root).Ok?
  {
    var x := PhenotypicDistance(parent.trajectories, child.trajectories, root);
    if x.Err? then Err(x.fault) else Ok(Capped(x.value))
  }

  function DistanceRow(parent: Individual, children: seq<Individual>, root: real -> real)
    : (r: Result<seq<Dist>>)
    ensures r.Ok? <==> forall j :: 0 <= j < |children| ==> Entry(parent, children[j], root).Ok?
    ensures r.Ok? ==> |r.value| == |children|
    ensures r.Ok? ==> forall j :: 0 <= j < |children| ==> !r.value[j].Infinite?
    ensures r.Ok? ==> forall j :: 0 <= j < |children| ==> Ok(r.value[j]) == Entry(parent, children[j], root)
    decreases |children|
  {
    if |children| == 0 then Ok([])
    else
      var x := Entry(parent, children[0], root);
      var rest := DistanceRow(parent, children[1..], root);
      assert forall j :: 1 <= j < |children| ==> children[j] == children[1..][j - 1];
      if x.Err? then Err(x.fault)
      else if rest.Err? then rest
      else Ok([x.value] + rest.value)
  }

  /** `distance[i][j] = phenotypicDistance(parent[i], child[j])`, with infinite entries
      replaced by `SENTINEL`; the first failing entry in row order fails the whole. */
  function DistanceMatrix(parents: seq<Individual>, children: seq<Individual>, root: real -> real)
    : (r: Result<seq<seq<Dist>>>)
    ensures r.Ok? <==> forall i, j :: 0 <= i < |parents| && 0 <= j < |children| ==>
      Entry(parents[i], children[j], root).Ok?
    ensures r.Ok? ==> |r.value| == |parents|
    ensures r.Ok? ==> forall i :: 0 <= i < |parents| ==> |r.value[i]| == |children|
    ensures r.Ok? ==> NoInfinite(r.value)
    ensures r.Ok? ==> forall i, j :: 0 <= i < |parents| && 0 <= j < |children| ==>
      Ok(r.value[i][j]) == Entry(parents[i], children[j], root)
    decreases |parents|
  {
    if |parents| == 0 then Ok([])
    else
      var row := DistanceRow(parents[0], children, root);
      var rest := DistanceMatrix(parents[1..], children, root);
      assert forall i :: 1 <= i < |parents| ==> parents[i] == parents[1..][i - 1];
      if row.Err? then Err(row.fault)
      else if rest.Err? then rest
      else Ok([row.value] + rest.value)
  }

  // ---------------------------------------------------------------------------------------
  // Replacement

  /** The individual written to a slot: the matched child if the replacement rule keeps it,
      otherwise the parent; then simplified when `nextDouble()` falls below the
      simplification percentage itself (not divided by 100). */
  function Slot(parent: Individual, child: Individual, coin: bool, u: real, p: Params,
                simplify: Individual -> Individual): (s: Individual)
    ensures s in {parent, child, Simplification(parent, simplify), Simplification(child, simplify)}
    ensures Gt(child.fitness, parent.fitness) ==> s in {child, Simplification(child, simplify)}
    ensures Lt(child.fitness, parent.fitness) ==> s in {parent, Simplification(parent, simplify)}
    ensures u >= p.simplificationPercent ==> s in {parent, child}
  {
    var kept := if ReplacementRule(parent.fitness, child.fitness, coin) then child else parent;
    if u < p.simplificationPercent then Simplification(kept, simplify) else kept
  }

  /** Because the draw lies in [0, 1), any simplification percentage of 1 or more simplifies
      every slot. */
  lemma PercentAboveOneAlwaysSimplifies(parent: Individual, child: Individual, coin: bool, raw: nat,
                                        p: Params, simplify: Individual -> Individual)
    requires p.simplificationPercent >= 1.0
    ensures Slot(parent, child, coin, NextDouble(raw), p, simplify) ==
      Simplification(if ReplacementRule(parent.fitness, child.fitness, coin) then child else parent, simplify)
  {
  }

  function Slots(parents: seq<Individual>, children: seq<Individual>, matches: seq<nat>, g: nat,
                 p: Params, d: Draws, o: Oracles): (slots: seq<Individual>)
    requires IsPermutation(matches, |parents|) && |children| == |parents|
    ensures |slots| == |parents|
    ensures forall i :: 0 <= i < |parents| ==>
      slots[i] == Slot(parents[i], children[matches[i]], d.coin(g, i), NextDouble(d.simplify(g, i)), p, o.simplify)
  {
    seq(|parents|, i requires 0 <= i < |parents| =>
      Slot(parents[i], children[matches[i]], d.coin(g, i), NextDouble(d.simplify(g, i)), p, o.simplify))
  }

  // ---------------------------------------------------------------------------------------
  // The loop

  /** No entry of the matrix is infinite. */
  predicate NoInfinite(dm: seq<seq<Dist>>) {
    forall i, j :: 0 <= i < |dm| && 0 <= j < |dm[i]| ==> !dm[i][j].Infinite?
  }

  /** Slot `i` of the set holds its parent or the parent's matched child, possibly simplified. */
  ghost predicate SlotFrom(grp: Group, i: nat, o: Oracles)
    requires i < |grp.slots| && i < |grp.parents| && i < |grp.matches| && grp.matches[i] < |grp.children|
  {
    grp.slots[i] in {grp.parents[i], grp.children[grp.matches[i]],
                     Simplification(grp.parents[i], o.simplify),
                     Simplification(grp.children[grp.matches[i]], o.simplify)}
  }

  /** A pass of the loop as it must have gone: `S` parents drawn from the population, `S`
      evaluated children, the capped distance matrix, the matcher's one-to-one assignment,
      and every slot filled by a parent or its matched child, possibly simplified. */
  ghost predicate GroupHolds(pop: seq<Individual>, grp: Group, S: nat, o: Oracles) {
    |grp.picked| == S && |grp.parents| == S && |grp.children| == S && |grp.slots| == S &&
    (forall i :: 0 <= i < S ==> grp.picked[i] < |pop| && grp.parents[i] == pop[grp.picked[i]]) &&
    |grp.distances| == S && NoInfinite(grp.distances) &&
    grp.matches == o.matcher(grp.distances) &&
    IsPermutation(grp.matches, S) &&
    (forall i :: 0 <= i < S ==> SlotFrom(grp, i, o))
  }

  function AllPicked(gs: seq<Group>): seq<nat> {
    if |gs| == 0 then [] else gs[0].picked + AllPicked(gs[1..])
  }

  /** The next generation, slot by slot in the order `k` advances. */
  function NextGeneration(gs: seq<Group>): seq<Individual> {
    if |gs| == 0 then [] else gs[0].slots + NextGeneration(gs[1..])
  }

  /** The parents and the evaluated children of a set are measured, matched and replaced. */
  function Replace(picked: seq<nat>, parents: seq<Individual>, children: seq<Individual>, g: nat,
                   p: Params, d: Draws, o: Oracles): (r: Result<Group>)
    requires |children| == |parents|
    requires MatcherAssigns(o.matcher)
    ensures r.Ok? ==> r.value.picked == picked && r.value.parents == parents && r.value.children == children
    ensures r.Ok? ==> |r.value.distances| == |parents|
    ensures r.Ok? ==> NoInfinite(r.value.distances)
    ensures r.Ok? ==> r.value.matches == o.matcher(r.value.distances) && IsPermutation(r.value.matches, |parents|)
    ensures r.Ok? ==> |r.value.slots| == |parents|
    ensures r.Ok? ==> forall i :: 0 <= i < |parents| ==> SlotFrom(r.value, i, o)
  {
    var distances := DistanceMatrix(parents, children, o.root);
    if distances.Err? then Err(distances.fault)
    else
      var dm := distances.value;
      var matches := o.matcher(dm);
      assert IsPermutation(matches, |dm|);
      Ok(Group(picked, parents, children, dm, matches, Slots(parents, children, matches, g, p, d, o)))
  }

  /** One pass of the `while` loop: draws the parent set `g` from the pool and breeds,
      measures, matches and replaces; also returns what is left of the pool. */
  function OneGroup(pop: seq<Individual>, pool: seq<nat>, g: nat, S: nat, p: Params, d: Draws, o: Oracles)
    : (r: Result<(Group, seq<nat>)>)
    requires forall k :: 0 <= k < |pool| ==> pool[k] < |pop|
    requires MatcherAssigns(o.matcher)
    ensures |pool| < S ==> r == Err(IllegalArgument)
    ensures r.Ok? ==> GroupHolds(pop, r.value.0, S, o)
    ensures r.Ok? ==> multiset(r.value.0.picked) + multiset(r.value.1) == multiset(pool)
    ensures r.Ok? ==> |r.value.1| == |pool| - S
    ensures r.Ok? ==> forall k :: 0 <= k < |r.value.1| ==> r.value.1[k] < |pop|
    ensures r.Ok? && S > 0 ==> S % 2 == 0
  {
    var drawn := DrawParents(pool, S, k => d.pick(g, k), 0);
    if drawn.Err? then Err(drawn.fault)
    else
      var (picked, rest) := drawn.value;
      DrawnFromPool(pool, picked, rest, |pop|);
      var parents := seq(S, i requires 0 <= i < S => pop[picked[i]]);
      var children := BreedPairs(parents, g, 0, p, d, o);
      if children.Err? then Err(children.fault)
      else
        var grp := Replace(picked, parents, children.value, g, p, d, o);
        if grp.Err? then Err(grp.fault)
        else
          SetHolds(pop, grp.value, S, o);
          Ok((grp.value, rest))
  }

  /** Indices drawn from a pool of valid indices are valid. */
  lemma DrawnFromPool(pool: seq<nat>, picked: seq<nat>, rest: seq<nat>, n: nat)
    requires forall k :: 0 <= k < |pool| ==> pool[k] < n
    requires multiset(picked) + multiset(rest) == multiset(pool)
    ensures forall k :: 0 <= k < |picked| ==> picked[k] < n
    ensures forall k :: 0 <= k < |rest| ==> rest[k] < n
  {
    forall k | 0 <= k < |picked|
      ensures picked[k] < n
    {
      assert picked[k] in multiset(pool);
    }
    forall k | 0 <= k < |rest|
      ensures rest[k] < n
    {
      assert rest[k] in multiset(pool);
    }
  }

  /** A set built by `Replace` from `S` drawn parents and their `S` children meets
      `GroupHolds`. */
  lemma SetHolds(pop: seq<Individual>, grp: Group, S: nat, o: Oracles)
    requires |grp.picked| == S && |grp.parents| == S && |grp.children| == S
    requires forall i :: 0 <= i < S ==> grp.picked[i] < |pop| && grp.parents[i] == pop[grp.picked[i]]
    requires |grp.distances| == S && NoInfinite(grp.distances)
    requires grp.matches == o.matcher(grp.distances) && IsPermutation(grp.matches, S)
    requires |grp.slots| == S
    requires forall i :: 0 <= i < S ==> SlotFrom(grp, i, o)
    ensures GroupHolds(pop, grp, S, o)
  {
  }

  /** One pass of the `while` loop per parent set, until the pool is empty. An `S` of 0
      draws nothing, so the pool never shrinks and the loop never ends (the matcher is
      taken to accept the empty matrix). */
  function Groups(pop: seq<Individual>, pool: seq<nat>, g: nat, S: nat, p: Params, d: Draws, o: Oracles)
    : (r: Result<seq<Group>>)
    requires forall k :: 0 <= k < |pool| ==> pool[k] < |pop|
    requires MatcherAssigns(o.matcher)
    ensures S == 0 && |pool| > 0 ==> r == Err(Diverges)
    ensures 0 < |pool| < S ==> r == Err(IllegalArgument)
    ensures r.Ok? ==> multiset(AllPicked(r.value)) == multiset(pool)
    ensures r.Ok? ==> |NextGeneration(r.value)| == |pool|
    ensures r.Ok? ==> forall n :: 0 <= n < |r.value| ==> GroupHolds(pop, r.value[n], S, o)
    ensures r.Ok? && |pool| > 0 ==> S > 0 && S % 2 == 0
    decreases |pool|
  {
    if |pool| == 0 then Ok([])
    else if S == 0 then Err(Diverges)
    else
      var one := OneGroup(pop, pool, g, S, p, d, o);
      if one.Err? then Err(one.fault)
      else
        var (grp, rest) := one.value;
        var later := Groups(pop, rest, g + 1, S, p, d, o);
        if later.Err? then later
        else
          GroupsCons(pop, grp, later.value, pool, rest, S, o);
          Ok([grp] + later.value)
  }

  /** Putting a finished set in front of the later ones keeps the loop's facts. */
  lemma GroupsCons(pop: seq<Individual>, grp: Group, later: seq<Group>, pool: seq<nat>, rest: seq<nat>,
                   S: nat, o: Oracles)
    requires GroupHolds(pop, grp, S, o)
    requires multiset(grp.picked) + multiset(rest) == multiset(pool)
    requires multiset(AllPicked(later)) == multiset(rest)
    requires |NextGeneration(later)| == |rest| == |pool| - S
    requires forall n :: 0 <= n < |later| ==> GroupHolds(pop, later[n], S, o)
    ensures multiset(AllPicked([grp] + later)) == multiset(pool)
    ensures |NextGeneration([grp] + later)| == |pool|
    ensures forall n :: 0 <= n < |later| + 1 ==> GroupHolds(pop, ([grp] + later)[n], S, o)
  {
    var gs := [grp] + later;
    assert gs[1..] == later;
    assert AllPicked(gs) == grp.picked + AllPicked(later);
    assert NextGeneration(gs) == grp.slots + NextGeneration(later);
    forall n | 0 <= n < |gs|
      ensures GroupHolds(pop, gs[n], S, o)
    {
      if n > 0 {
        assert gs[n] == later[n - 1];
      }
    }
  }

  /** `ReproduceWithCrowding()` on the current population: the parent sets in the order they
      were drawn, whose slots, concatenated, are the next population. The arrays of size `S`
      cannot be allocated for a negative `S`. */
  function Crowding(pop: seq<Individual>, p: Params, d: Draws, o: Oracles): (r: Result<seq<Group>>)
    requires MatcherAssigns(o.matcher)
    ensures p.S < 0 ==> r == Err(NegativeArraySize)
    ensures p.S == 0 && |pop| > 0 ==> r == Err(Diverges)
    ensures 0 < |pop| < p.S ==> r == Err(IllegalArgument)
    ensures r.Ok? ==> |NextGeneration(r.value)| == |pop|
    ensures r.Ok? ==> forall n :: 0 <= n < |r.value| ==> GroupHolds(pop, r.value[n], p.S, o)
    ensures r.Ok? && |pop| > 0 ==> p.S > 0 && p.S % 2 == 0
    ensures r.Ok? ==> multiset(AllPicked(r.value)) == multiset(Indices(|pop|))
    ensures r.Ok? ==> forall k :: 0 <= k < |pop| ==> multiset(AllPicked(r.value))[k] == 1
    ensures r.Ok? ==> forall k :: k in multiset(AllPicked(r.value)) ==> k < |pop|
  {
    if p.S < 0 then Err(NegativeArraySize)
    else
      IndicesOnce(|pop|);
      Groups(pop, Indices(|pop|), 0, p.S, p, d, o)
  }

  /** `IntStream.rangeClosed(0, popsize - 1)`: the indices in increasing order. */
  function Indices(n: nat): (s: seq<nat>)
    ensures |s| == n && forall k :: 0 <= k < n ==> s[k] == k
  {
    seq(n, k requires 0 <= k < n => k)
  }

  lemma {:induction false} IndicesOnce(n: nat)
    ensures forall k :: 0 <= k < n ==> multiset(Indices(n))[k] == 1
    ensures forall k :: k in multiset(Indices(n)) ==> k < n
  {
    if n > 0 {
      IndicesOnce(n - 1);
      assert Indices(n) == Indices(n - 1) + [n - 1];
    }
  }

  /** A population whose size is not a multiple of a positive `S` cannot be bred: the last
      parent set runs the pool dry, unless an earlier set failed first. */
  lemma RemainderFails(pop: seq<Individual>, p: Params, d: Draws, o: Oracles)
    requires MatcherAssigns(o.matcher)
    requires p.S > 0 && |pop| % p.S != 0
    ensures Crowding(pop, p, d, o).Err?
  {
    var r := Crowding(pop, p, d, o);
    if r.Ok? {
      assert |AllPicked(r.value)| == |pop| by {
        assert |multiset(AllPicked(r.value))| == |multiset(Indices(|pop|))|;
      }
      GroupsCoverMultiple(r.value, pop, p.S, o);
    }
  }

  lemma {:induction false} GroupsCoverMultiple(gs: seq<Group>, pop: seq<Individual>, S: nat, o: Oracles)
    requires S > 0
    requires forall n :: 0 <= n < |gs| ==> GroupHolds(pop, gs[n], S, o)
    ensures |AllPicked(gs)| % S == 0
  {
    if |gs| > 0 {
      GroupsCoverMultiple(gs[1..], pop, S, o);
      assert GroupHolds(pop, gs[0], S, o);
      ModShift(|AllPicked(gs[1..])|, S);
    }
  }
}

=== FILE: decimal.dfy ===
/** Decimal printing of Java ints, as string concatenation performs it, and its inverse. */
module Decimal {
  import opened Common

  function DigitChar(d: nat): (c: char)
    requires d < 10
    ensures IsDigit(c) && DigitValue(c) == d
  {
    ('0' as int + d) as char
  }

  predicate IsDigit(c: char) {
    '0' <= c <= '9'
  }

  function DigitValue(c: char): nat
    requires IsDigit(c)
  {
    (c as int) - ('0' as int)
  }

  /** Decimal digits of a natural number, without leading zeros. */
  function NatToDecimal(n: nat): (s: string)
    ensures |s| >= 1
    ensures AllDigits(s)
    ensures |s| > 1 ==> s[0] != '0'
    decreases n
  {
    if n < 10 then [DigitChar(n)] else NatToDecimal(n / 10) + [DigitChar(n % 10)]
  }

  /** `Integer.toString(n)`: a minus sign for negative numbers, then the digits. */
  function IntToDecimal(n: int): (s: string)
    ensures |s| >= 1
    ensures n < 0 <==> s[0] == '-'
  {
    if n < 0 then "-" + NatToDecimal(-n) else NatToDecimal(n)
  }

  /** The value of a string of decimal digits. */
  function ParseNat(s: string): nat
    requires AllDigits(s)
  {
    if |s| == 0 then 0 else ParseNat(s[..|s| - 1]) * 10 + DigitValue(s[|s| - 1])
  }

  /** Reads back what `IntToDecimal` writes: an optional minus sign and at least one digit. */
  function ParseInt(s: string): Option<int> {
    if |s| > 1 && s[0] == '-' && AllDigits(s[1..]) then
      var v: int := 0 - ParseNat(s[1..]) as int;
      Some(v)
    else if |s| > 0 && AllDigits(s) then Some(ParseNat(s))
    else None
  }

  predicate AllDigits(s: string) {
    forall i :: 0 <= i < |s| ==> IsDigit(s[i])
  }

  lemma {:induction false} NatToDecimalRoundTrip(n: nat)
    ensures ParseNat(NatToDecimal(n)) == n
    decreases n
  {
    if n >= 10 {
      NatToDecimalRoundTrip(n / 10);
      var s := NatToDecimal(n);
      assert s[..|s| - 1] == NatToDecimal(n / 10);
    }
  }

  /** Printing an int and reading it back gives the int again. */
  lemma IntToDecimalRoundTrip(n: int)
    ensures ParseInt(IntToDecimal(n)) == Some(n)
  {
    var s := IntToDecimal(n);
    if n < 0 {
      NatToDecimalRoundTrip(-n);
      assert s[1..] == NatToDecimal(-n);
    } else {
      NatToDecimalRoundTrip(n);
      assert IsDigit(s[0]);
    }
  }
}

=== FILE: float32.dfy ===
/** Java `float` values and the few IEEE-754 rules the modelled code depends on.

    A value is finite (`Fin`), an infinity or NaN. Arithmetic on finite operands is exact
    real arithmetic followed by the overflow decision of round-to-nearest: a result at least
    2^128 - 2^103 in magnitude becomes an infinity, one between `MAX` and that boundary
    saturates to `MAX`. Rounding inside the finite range and the sign of zero are not modelled. */
module Float32 {

  /** `Float.MAX_VALUE` = (2 - 2^-23) * 2^127. */
  const MAX: real := 340282346638528859811704183484516925440.0

  /** Smallest magnitude that rounds to infinity: 2^128 - 2^103, half an ulp above `MAX`. */
  const OVERFLOW: real := 340282356779733661637539395458142568448.0

  /** Spacing of floats in the top binade, 2^104. */
  const TOP_ULP: real := 20282409603651670423947251286016.0

  /** `Float.MIN_VALUE` = 2^-149, the smallest positive float. */
  const MIN_POSITIVE: real := 1.0 / 713623846352979940529142984724747568191373312.0

  /** The value of the Java expression `1.0f - Float.MAX_VALUE`. The subtraction is done in
      single precision, and 1 is far below half an ulp of `MAX`, so the result is exactly
      `-MAX` (see `NegClampIsNearestFloat`). */
  const NEG_CLAMP: real := -MAX

  datatype Flt = Fin(v: real) | PosInf | NegInf | NaN {
    predicate IsInfinite() { PosInf? || NegInf? }
  }

  /** -MAX and the next float above it are the only candidates for rounding 1 - MAX, and
      1 - MAX lies within half an ulp of -MAX. */
  lemma NegClampIsNearestFloat()
    ensures (1.0 - MAX) - NEG_CLAMP < TOP_ULP / 2.0
    ensures (NEG_CLAMP + TOP_ULP) - (1.0 - MAX) > TOP_ULP / 2.0
    ensures OVERFLOW == MAX + TOP_ULP / 2.0
  {
  }

  /** Rounds an exact result to a float (overflow only). */
  function Round(r: real): (f: Flt)
    ensures !f.NaN?
    ensures f.Fin? ==> -MAX <= f.v <= MAX
    ensures -MAX <= r <= MAX ==> f == Fin(r)
    ensures f.PosInf? <==> r >= OVERFLOW
    ensures f.NegInf? <==> r <= -OVERFLOW
  {
    if r >= OVERFLOW then PosInf
    else if r <= -OVERFLOW then NegInf
    else if r > MAX then Fin(MAX)
    else if r < -MAX then Fin(-MAX)
    else Fin(r)
  }

  function Neg(a: Flt): Flt {
    match a
    case Fin(x) => Fin(-x)
    case PosInf => NegInf
    case NegInf => PosInf
    case NaN => NaN
  }

  /** +1 or -1: the sign of a non-NaN value, zero counted as positive. */
  function Sign(a: Flt): int {
    if a.NegInf? || (a.Fin? && a.v < 0.0) then -1 else 1
  }

  function Inf(sign: int): Flt {
    if sign < 0 then NegInf else PosInf
  }

  function Add(a: Flt, b: Flt): Flt {
    if a.NaN? || b.NaN? then NaN
    else if (a.PosInf? && b.NegInf?) || (a.NegInf? && b.PosInf?) then NaN
    else if a.PosInf? || b.PosInf? then PosInf
    else if a.NegInf? || b.NegInf? then NegInf
    else Round(a.v + b.v)
  }

  function Sub(a: Flt, b: Flt): Flt {
    Add(a, Neg(b))
  }

  function Mul(a: Flt, b: Flt): Flt {
    if a.NaN? || b.NaN? then NaN
    else if a.IsInfinite() || b.IsInfinite() then
      if a == Fin(0.0) || b == Fin(0.0) then NaN else Inf(Sign(a) * Sign(b))
    else Round(a.v * b.v)
  }

  function Div(a: Flt, b: Flt): Flt {
    if a.NaN? || b.NaN? then NaN
    else if a.IsInfinite() && b.IsInfinite() then NaN
    else if a.IsInfinite() then Inf(Sign(a) * Sign(b))
    else if b.IsInfinite() then Fin(0.0)
    else if b.v == 0.0 then (if a.v == 0.0 then NaN else Inf(Sign(a)))
    else Round(a.v / b.v)
  }

  /** Java's `<` on floats: false whenever an operand is NaN. */
  predicate Lt(a: Flt, b: Flt) {
    if a.NaN? || b.NaN? then false
    else if a.NegInf? then !b.NegInf?
    else if a.PosInf? then false
    else if b.PosInf? then true
    else if b.NegInf? then false
    else a.v < b.v
  }

  /** Java's `==` on floats: NaN equals nothing, not even itself. */
  predicate Eq(a: Flt, b: Flt) {
    !a.NaN? && a == b
  }

  predicate Le(a: Flt, b: Flt) {
    Lt(a, b) || Eq(a, b)
  }

  predicate Gt(a: Flt, b: Flt) {
    Lt(b, a)
  }

  /** On non-NaN values exactly one of `<`, `==`, `>` holds; with a NaN none does. */
  lemma {:induction false} Trichotomy(a: Flt, b: Flt)
    ensures !a.NaN? && !b.NaN? ==>
      (Lt(a, b) && !Eq(a, b) && !Gt(a, b)) ||
      (!Lt(a, b) && Eq(a, b) && !Gt(a, b)) ||
      (!Lt(a, b) && !Eq(a, b) && Gt(a, b))
    ensures a.NaN? || b.NaN? ==> !Lt(a, b) && !Eq(a, b) && !Gt(a, b)
  {
  }

  lemma LtTransitive(a: Flt, b: Flt, c: Flt)
    requires Lt(a, b) && Lt(b, c)
    ensures Lt(a, c)
  {
  }

  lemma LeLtTransitive(a: Flt, b: Flt, c: Flt)
    requires Le(a, b) && Lt(b, c)
    ensures Lt(a, c)
  {
  }

  lemma LtLeTransitive(a: Flt, b: Flt, c: Flt)
    requires Lt(a, b) && Le(b, c)
    ensures Lt(a, c)
  {
  }

  lemma LeTransitive(a: Flt, b: Flt, c: Flt)
    requires Le(a, b) && Le(b, c)
    ensures Le(a, c)
  {
  }

  /** `Sub(b, a)` is the negation of `Sub(a, b)`: rounding is symmetric about zero. */
  lemma SubAntisymmetric(a: Flt, b: Flt)
    ensures Sub(b, a) == Neg(Sub(a, b))
  {
    if a.Fin? && b.Fin? {
      assert Sub(a, b) == Round(a.v - b.v);
      assert Sub(b, a) == Round(b.v - a.v);
    }
  }

  /** The selection loop `best = -1; v = bound; for (i ...) if (xs[i] < v) { v = xs[i]; best = i; }`:
      the first index holding the strictly smallest value below `bound`, or -1 when no value
      is below `bound`. NaN never wins a comparison. */
  function FirstMin(xs: seq<Flt>, bound: Flt): (best: int)
    ensures best == -1 <==> forall i :: 0 <= i < |xs| ==> !Lt(xs[i], bound)
    ensures best != -1 ==>
      0 <= best < |xs| && Lt(xs[best], bound) &&
      (forall i :: 0 <= i < |xs| ==> !Lt(xs[i], xs[best])) &&
      (forall i :: 0 <= i < best ==> !Le(xs[i], xs[best]))
  {
    if |xs| == 0 then -1
    else
      var init := xs[..|xs| - 1];
      var b := FirstMin(init, bound);
      var v := xs[|xs| - 1];
      var running := if b == -1 then bound else init[b];
      if Lt(v, running) then
        FirstMinStep(init, bound, b, v);
        |xs| - 1
      else b
  }

  /** A value below the running minimum is below the bound and below every earlier value. */
  lemma FirstMinStep(init: seq<Flt>, bound: Flt, b: int, v: Flt)
    requires b == -1 ==> forall i :: 0 <= i < |init| ==> !Lt(init[i], bound)
    requires b != -1 ==>
      (0 <= b < |init| && Lt(init[b], bound) &&
       forall i :: 0 <= i < |init| ==> !Lt(init[i], init[b]))
    requires Lt(v, if b == -1 then bound else init[b])
    ensures Lt(v, bound)
    ensures forall i :: 0 <= i < |init| ==> !Lt(init[i], v) && !Le(init[i], v)
  {
    var running := if b == -1 then bound else init[b];
    forall i | 0 <= i < |init|
      ensures !Lt(init[i], v) && !Le(init[i], v)
    {
      if Le(init[i], v) {
        LeLtTransitive(init[i], v, running);
      }
    }
    if b != -1 {
      LtTransitive(v, running, bound);
    }
  }

  /** `Float.compare`: a total order in which NaN is above every other value and equal to
      itself. (Java also orders -0 below +0; the model has a single zero.) */
  function Compare(a: Flt, b: Flt): (c: int)
    ensures -1 <= c <= 1
    ensures c == 0 <==> a == b
    ensures !a.NaN? && !b.NaN? ==> (c < 0 <==> Lt(a, b)) && (c > 0 <==> Lt(b, a))
    ensures a.NaN? && !b.NaN? ==> c > 0
    ensures !a.NaN? && b.NaN? ==> c < 0
  {
    if a.NaN? && b.NaN? then 0
    else if a.NaN? then 1
    else if b.NaN? then -1
    else if Lt(a, b) then -1
    else if Lt(b, a) then 1
    else 0
  }

  /** `Float.compare` is antisymmetric and transitive, so sorting by it is well defined. */
  lemma CompareIsTotalOrder(a: Flt, b: Flt, c: Flt)
    ensures Compare(a, b) == -Compare(b, a)
    ensures Compare(a, b) <= 0 && Compare(b, c) <= 0 ==> Compare(a, c) <= 0
  {
  }

  /** The sanitiser applied by the additive vector instructions and by
      `OriginalCEC2005Problem.evaluate`: +inf becomes `MAX`, -inf becomes `NEG_CLAMP`,
      NaN passes through. */
  function ClampInf(f: Flt): (g: Flt)
    ensures !g.IsInfinite()
    ensures g.NaN? <==> f.NaN?
    ensures f.PosInf? ==> g == Fin(MAX)
    ensures f.NegInf? ==> g == Fin(NEG_CLAMP)
    ensures !f.IsInfinite() ==> g == f
  {
    match f
    case PosInf => Fin(MAX)
    case NegInf => Fin(NEG_CLAMP)
    case _ => f
  }

  /** The sanitiser of the multiplicative vector instructions: as `ClampInf`, and NaN becomes 0. */
  function ClampAll(f: Flt): (g: Flt)
    ensures g.Fin?
    ensures f.NaN? ==> g == Fin(0.0)
    ensures f.Fin? ==> g == f
    ensures f.PosInf? ==> g == Fin(MAX)
    ensures f.NegInf? ==> g == Fin(NEG_CLAMP)
  {
    var g := ClampInf(f);
    if g.NaN? then Fin(0.0) else g
  }

  /** A float accumulator `s = 0; for (x : xs) s += x;`. */
  function Sum(xs: seq<Flt>): Flt {
    if |xs| == 0 then Fin(0.0) else Add(Sum(xs[..|xs| - 1]), xs[|xs| - 1])
  }

  /** `Sum(xs) / xs.size()`, as the averaging loops of the optimiser compute it. */
  function Mean(xs: seq<Flt>): (m: Flt)
    ensures |xs| == 0 ==> m.NaN?
  {
    Div(Sum(xs), Fin(|xs| as real))
  }

  /** The exact real sum, the reference for `Sum`. */
  function RealSum(xs: seq<real>): real {
    if |xs| == 0 then 0.0 else RealSum(xs[..|xs| - 1]) + xs[|xs| - 1]
  }

  function Fins(xs: seq<real>): (fs: seq<Flt>)
    ensures |fs| == |xs|
    ensures forall i :: 0 <= i < |xs| ==> fs[i] == Fin(xs[i])
  {
    seq(|xs|, i requires 0 <= i < |xs| => Fin(xs[i]))
  }

  predicate Bounded(xs: seq<real>, lo: real, hi: real) {
    forall i :: 0 <= i < |xs| ==> lo <= xs[i] <= hi
  }

  lemma {:induction false} RealSumBounds(xs: seq<real>, lo: real, hi: real)
    requires Bounded(xs, lo, hi)
    ensures |xs| as real * lo <= RealSum(xs) <= |xs| as real * hi
  {
    if |xs| > 0 {
      var init := xs[..|xs| - 1];
      assert Bounded(init, lo, hi);
      RealSumBounds(init, lo, hi);
      StepProduct(|init|, lo);
      StepProduct(|init|, hi);
    }
  }

  lemma StepProduct(k: nat, x: real)
    ensures (k + 1) as real * x == k as real * x + x
  {
  }

  /** No partial sum of the accumulator leaves the finite range. */
  predicate PartialSumsFinite(xs: seq<real>) {
    forall k :: 0 <= k <= |xs| ==> -MAX <= RealSum(xs[..k]) <= MAX
  }

  /** While the partial sums stay representable the float accumulator is exact. */
  lemma {:induction false} SumIsExact(xs: seq<real>)
    requires PartialSumsFinite(xs)
    ensures Sum(Fins(xs)) == Fin(RealSum(xs))
  {
    if |xs| > 0 {
      var init := xs[..|xs| - 1];
      assert Fins(xs)[..|xs| - 1] == Fins(init);
      assert PartialSumsFinite(init) by {
        forall k | 0 <= k <= |init|
          ensures -MAX <= RealSum(init[..k]) <= MAX
        {
          assert init[..k] == xs[..k];
        }
      }
      SumIsExact(init);
      assert xs[..|xs|] == xs;
    }
  }

  /** The average of finite values within [lo, hi] is finite and within [lo, hi], provided no
      partial sum overflows. */
  lemma MeanWithinBounds(xs: seq<real>, lo: real, hi: real)
    requires |xs| > 0
    requires -MAX <= lo <= hi <= MAX
    requires Bounded(xs, lo, hi)
    requires PartialSumsFinite(xs)
    ensures Mean(Fins(xs)).Fin?
    ensures lo <= Mean(Fins(xs)).v <= hi
  {
    SumIsExact(xs);
    RealSumBounds(xs, lo, hi);
    QuotientBounds(RealSum(xs), |xs| as real, lo, hi);
  }

  lemma QuotientBounds(s: real, n: real, lo: real, hi: real)
    requires n > 0.0
    requires n * lo <= s <= n * hi
    ensures lo <= s / n <= hi
  {
  }

  lemma NonNegProduct(a: real, b: real)
    requires a >= 0.0 && b >= 0.0
    ensures a * b >= 0.0
  {
  }

  /** `p = f * d` with `0 <= f <= 1` lies between 0 and `d`. */
  lemma ScaledBetween(f: real, d: real, p: real)
    requires 0.0 <= f <= 1.0 && p == f * d
    ensures d >= 0.0 ==> 0.0 <= p <= d
    ensures d <= 0.0 ==> d <= p <= 0.0
    ensures f == 0.0 ==> p == 0.0
    ensures f == 1.0 ==> p == d
  {
    if d >= 0.0 {
      NonNegProduct(1.0 - f, d);
      NonNegProduct(f, d);
      assert d - p == (1.0 - f) * d;
    } else {
      NonNegProduct(1.0 - f, -d);
      NonNegProduct(f, -d);
      assert p - d == (1.0 - f) * -d;
      assert -p == f * -d;
    }
  }
}

=== FILE: individuals.dfy ===
/** `PopulationOptimiser`, the evolved individual: a Push program with its fitness, the
    errors it made on each problem, the swarm size it asks for, and the trajectories its
    last evaluation recorded (used by the crowding distance). */
module Individuals {
  import opened Common
  import opened Float32
  import opened Swarm
  import opened Decimal

  /** A Push program, known only by its number of points (`programsize()`). Its contents
      belong to the interpreter and are not part of this model. */
  datatype Program = Program(size: int)

  datatype Individual = Individual(
    program: Program,
    fitness: Flt,
    errors: Option<seq<Flt>>,
    trajectories: Option<Grid>,
    popSize: int)

  /** `clone()`: a new individual around the same program (whose copy the program class
      makes) with the fitness, the trajectories and the swarm size of the original; the
      error list is not carried over. The trajectory array is shared rather than copied,
      which the model cannot distinguish from a copy because a recorded array is never
      written again. */
  function Clone(x: Individual): (c: Individual)
    ensures c.program == x.program
    ensures c.fitness == x.fitness
    ensures c.trajectories == x.trajectories
    ensures c.popSize == x.popSize
    ensures c.errors.None?
  {
    x.(errors := None)
  }

  /** Cloning a clone gives the same individual again, and a clone sits at the same crowding
      distance from anything as its original. */
  lemma CloneIsStable(x: Individual, y: Individual, root: real -> real)
    ensures Clone(Clone(x)) == Clone(x)
    ensures PhenotypicDistance(Clone(x).trajectories, y.trajectories, root) ==
            PhenotypicDistance(x.trajectories, y.trajectories, root)
    ensures PhenotypicDistance(y.trajectories, Clone(x).trajectories, root) ==
            PhenotypicDistance(y.trajectories, x.trajectories, root)
  {
  }

  // ---------------------------------------------------------------------------------------
  // toString

  /** `toString()`: the program's own text (supplied by the caller) followed by ` {p=N}`,
      where N is the swarm size. */
  function ToString(programText: string, x: Individual): (s: string)
    ensures |s| > |programText| + 5
    ensures s[..|programText|] == programText
    ensures s[|programText|..|programText| + 4] == " {p="
    ensures s[|s| - 1] == '}'
  {
    programText + " {p=" + IntToDecimal(x.popSize) + "}"
  }

  /** The suffix `toString()` appends, read back: ` {p=`, a number, `}`. */
  function ParsePopSizeSuffix(s: string): Option<int> {
    if |s| >= 5 && s[..4] == " {p=" && s[|s| - 1] == '}' then ParseInt(s[4..|s| - 1]) else None
  }

  /** The swarm size can be read back from the end of `toString()`, whatever the program's
      text is. */
  lemma ToStringShowsPopSize(programText: string, x: Individual)
    ensures ParsePopSizeSuffix(ToString(programText, x)[|programText|..]) == Some(x.popSize)
  {
    var s := ToString(programText, x)[|programText|..];
    assert s == " {p=" + IntToDecimal(x.popSize) + "}";
    assert s[4..|s| - 1] == IntToDecimal(x.popSize);
    IntToDecimalRoundTrip(x.popSize);
  }
}

=== FILE: int32.dfy ===
/** Java `int` arithmetic: 32-bit two's complement wrap-around and the truncating `%`. */
module Int32 {

  const MIN_INT: int := -0x8000_0000
  const MAX_INT: int := 0x7fff_ffff
  const MODULUS: int := 0x1_0000_0000

  predicate Is32(x: int) {
    MIN_INT <= x <= MAX_INT
  }

  /** The Java `int` holding the low 32 bits of `x`. */
  function Wrap(x: int): (r: int)
    ensures Is32(r)
    ensures (x - r) % MODULUS == 0
    ensures Is32(x) ==> r == x
  {
    (x - MIN_INT) % MODULUS + MIN_INT
  }

  /** Java's unary minus: `-Integer.MIN_VALUE` overflows back to `Integer.MIN_VALUE`. */
  function Neg(x: int): (r: int)
    requires Is32(x)
    ensures Is32(r)
    ensures x != MIN_INT ==> r == -x && (x < 0 ==> r > 0)
    ensures x == MIN_INT ==> r == MIN_INT
  {
    Wrap(-x)
  }

  /** Java's `a % b`: the remainder of division truncated toward zero, so it takes the sign
      of `a`. Dafny's own `%` is Euclidean and never negative. */
  function Rem(a: int, b: int): (r: int)
    requires b != 0
    ensures -Abs(b) < r < Abs(b)
    ensures r != 0 ==> (r < 0 <==> a < 0)
    ensures a - r == Quot(a, b) * Abs(b)
  {
    if a >= 0 then a % Abs(b) else -((-a) % Abs(b))
  }

  /** The quotient truncated toward zero, up to the sign of `b`. */
  function Quot(a: int, b: int): int
    requires b != 0
  {
    if a >= 0 then a / Abs(b) else -((-a) / Abs(b))
  }

  function Abs(x: int): int {
    if x < 0 then -x else x
  }

  /** `Boolean.hashCode()`. */
  function BoolHash(b: bool): int {
    if b then 1231 else 1237
  }

  /** `2^k`. */
  function Pow2(k: nat): (r: nat)
    ensures r >= 1
  {
    if k == 0 then 1 else 2 * Pow2(k - 1)
  }

  /** `n` is 1, 2, 4, 8, ... */
  predicate IsPowerOfTwo(n: nat)
    decreases n
  {
    n == 1 || (n > 1 && n % 2 == 0 && IsPowerOfTwo(n / 2))
  }

  /** `Integer.MIN_VALUE % n` is 0 exactly for the powers of two up to `2^31`: for every
      other positive `n` it is negative. */
  lemma MinIntRemZero(n: int)
    requires n > 0
    ensures Rem(MIN_INT, n) <= 0
    ensures Rem(MIN_INT, n) == 0 <==> IsPowerOfTwo(n) && n <= Pow2(31)
  {
    Pow2Of31();
    var top := Pow2(31);
    assert Rem(MIN_INT, n) == -(top % n);
    if IsPowerOfTwo(n) && n <= top {
      var q := PowerOfTwoDivides(n, 31);
      ModUnique(top, n, q, 0);
    }
    if top % n == 0 {
      DividesOnlyPowers(31, n);
    }
  }

  /** Only powers of two no larger than `2^j` divide it. */
  lemma DividesOnlyPowers(j: nat, n: int)
    requires n > 0 && Pow2(j) % n == 0
    ensures IsPowerOfTwo(n) && n <= Pow2(j)
  {
    var top := Pow2(j);
    var q := top / n;
    assert top == q * n by {
      assert top == n * (top / n) + top % n;
    }
    DividesPowerOfTwo(j, n, q);
    PositiveFactor(q, n);
    MulAtLeast(q, n);
  }

  lemma Pow2Of31()
    ensures Pow2(31) == 0x8000_0000
  {
    assert Pow2(1) == 2;
    Pow2Add(1, 1);
    assert Pow2(2) == 4;
    Pow2Add(2, 1);
    assert Pow2(3) == 8;
    Pow2Add(3, 3);
    assert Pow2(6) == 64;
    Pow2Add(6, 6);
    assert Pow2(12) == 4096;
    Pow2Add(12, 3);
    assert Pow2(15) == 0x8000;
    Pow2Add(15, 15);
    assert Pow2(30) == 0x4000_0000;
    Pow2Add(30, 1);
  }

  lemma {:induction false} Pow2Add(a: nat, b: nat)
    ensures Pow2(a + b) == Pow2(a) * Pow2(b)
    decreases a
  {
    if a > 0 {
      Pow2Add(a - 1, b);
      assert Pow2(a + b) == 2 * Pow2(a - 1 + b);
    }
  }

  /** A power of two no larger than `2^j` divides it. */
  lemma {:induction false} PowerOfTwoDivides(n: nat, j: nat) returns (q: nat)
    requires IsPowerOfTwo(n) && n <= Pow2(j)
    ensures Pow2(j) == q * n
    decreases n
  {
    if n == 1 {
      q := Pow2(j);
    } else {
      assert j > 0;
      var q' := PowerOfTwoDivides(n / 2, j - 1);
      q := q';
      assert Pow2(j) == 2 * (q' * (n / 2)) == q' * (2 * (n / 2));
    }
  }

  /** Every divisor of `2^j` is a power of two. */
  lemma {:induction false} DividesPowerOfTwo(j: nat, n: int, q: int)
    requires n >= 1 && Pow2(j) == q * n
    ensures IsPowerOfTwo(n)
    decreases j
  {
    PositiveFactor(q, n);
    if j == 0 {
      if n > 1 {
        MulAtLeast(q, n);
      }
    } else if n % 2 == 0 {
      var m := n / 2;
      HalveProduct(Pow2(j - 1), q, m);
      DividesPowerOfTwo(j - 1, m, q);
    } else {
      ModUnique(Pow2(j), 2, Pow2(j - 1), 0);
      if q % 2 == 1 {
        OddProduct(q, n);
      }
      var p := q / 2;
      HalveProduct(Pow2(j - 1), n, p);
      DividesPowerOfTwo(j - 1, n, p);
    }
  }

  lemma PositiveFactor(q: int, n: int)
    requires n >= 1
    ensures q * n >= 1 ==> q >= 1
  {
    if q <= 0 {
      NonPositiveProduct(q, n);
    }
  }

  lemma NonPositiveProduct(q: int, n: int)
    requires q <= 0 && n >= 1
    ensures q * n <= 0
  {
    assert (-q) * n >= 0;
  }

  lemma HalveProduct(x: int, q: int, m: int)
    requires 2 * x == q * (2 * m)
    ensures x == q * m
  {
    assert q * (2 * m) == 2 * (q * m);
  }

  lemma OddProduct(q: int, n: int)
    requires q % 2 == 1 && n % 2 == 1
    ensures (q * n) % 2 == 1
  {
    var a, b := q / 2, n / 2;
    assert q * n == (2 * a + 1) * (2 * b + 1);
    assert (2 * a + 1) * (2 * b + 1) == 2 * (2 * a * b + a + b) + 1;
    ModUnique(q * n, 2, 2 * a * b + a + b, 1);
  }

  lemma MulAtLeast(k: int, n: int)
    requires k >= 1 && n > 0
    ensures k * n >= n
  {
    assert k * n == (k - 1) * n + n;
    assert (k - 1) * n >= 0;
  }

  /** Euclidean division is unique: a representation `q * n + r` with `0 <= r < n` gives the
      remainder. */
  lemma ModUnique(x: int, n: int, q: int, r: int)
    requires n > 0 && 0 <= r < n && x == q * n + r
    ensures x % n == r
  {
    var q0 := x / n;
    var r0 := x % n;
    assert x == q0 * n + r0;
    assert (q - q0) * n == r0 - r by {
      assert q * n - q0 * n == (q - q0) * n;
    }
    if q > q0 {
      MulAtLeast(q - q0, n);
    } else if q < q0 {
      MulAtLeast(q0 - q, n);
    }
  }

  lemma ModShift(i: int, n: int)
    requires i >= 0 && n > 0
    ensures (i + n) % n == i % n
  {
    assert i + n == (i / n + 1) * n + i % n by {
      assert (i / n + 1) * n == (i / n) * n + n;
    }
    ModUnique(i + n, n, i / n + 1, i % n);
  }
}

=== FILE: machine.dfy ===
/** The part of the Push interpreter the vector instructions and the swarm touch: the
    vector, float, int and boolean stacks, the exec and code stacks and the input stack.
    Every stack is listed bottom first, so the top is the last element. */
module Machine {
  import opened Float32
  import opened Int32

  /** A search point, a Java `float[]`. */
  type Vec = seq<Flt>

  /** What the exec stack can hold. Only a `Prog` or an `Instr` is run by the interpreter
      when a higher-order vector instruction applies it; anything else (a literal) is not. */
  datatype Code = Prog(id: nat) | Instr(id: nat) | Literal(id: nat)

  /** Entries of the input stack: the bounds, a member index, or a point. */
  datatype Item = FloatItem(f: Flt) | IntItem(n: int) | VecItem(v: Vec)

  datatype Machine = Machine(
    vecs: seq<Vec>,
    floats: seq<Flt>,
    ints: seq<int>,
    bools: seq<bool>,
    exec: seq<Code>,
    code: seq<Code>,
    inputs: seq<Item>)
  {
    /** Java ints are 32 bits wide. */
    predicate IntsAre32() {
      forall i :: 0 <= i < |ints| ==> Is32(ints[i])
    }

    /** Every vector has the configured dimensionality. */
    predicate Shaped(dims: nat) {
      forall i :: 0 <= i < |vecs| ==> |vecs[i]| == dims
    }
  }

  function Last<T>(s: seq<T>): T
    requires |s| > 0
  {
    s[|s| - 1]
  }

  function DropLast<T>(s: seq<T>): (r: seq<T>)
    requires |s| > 0
    ensures |r| == |s| - 1
  {
    s[..|s| - 1]
  }
}

=== FILE: modified_cec2005.dfy ===
/** `ModifiedOriginalCEC2005Problem`: a CEC 2005 function whose box is stretched by a random
    factor and shifted by a random offset in each dimension. Points are mapped back onto the
    original box before the original function is evaluated. */
module ModifiedCec2005 {
  import opened Common
  import opened Float32
  import opened Random
  import opened Cec2005

  datatype Modified = Modified(
    original: Problem,
    lowerBounds: seq<Flt>,
    upperBounds: seq<Flt>,
    offsets: seq<Flt>,
    scales: seq<Flt>,
    flips: seq<bool>)

  /** The constructor's `lowerScale`, `upperScale`, `lowerTranslate`, `upperTranslate`. */
  datatype Ranges = Ranges(lowerScale: real, upperScale: real, lowerTranslate: real, upperTranslate: real)

  /** The ranges of the two-argument constructor. */
  const DEFAULT_RANGES: Ranges := Ranges(0.5, 2.0, -0.5, 0.5)

  /** `rnd.nextFloat() * (upperScale - lowerScale) + lowerScale`. */
  function Scale(raw: nat, r: Ranges): Flt {
    Add(Mul(Fin(NextFloat(raw)), Sub(Fin(r.upperScale), Fin(r.lowerScale))), Fin(r.lowerScale))
  }

  /** `rnd.nextFloat() * (upperTranslate * range - lowerTranslate * range) + lowerTranslate * range`. */
  function Offset(raw: nat, range: Flt, r: Ranges): Flt {
    Add(Mul(Fin(NextFloat(raw)), Sub(Mul(Fin(r.upperTranslate), range), Mul(Fin(r.lowerTranslate), range))),
        Mul(Fin(r.lowerTranslate), range))
  }

  /** `new ModifiedOriginalCEC2005Problem(original, rnd, ...)`: per dimension a scale, the
      original bounds times that scale, an offset proportional to the original range, the
      bounds shifted by it, and a flip. All scales are drawn first, then all offsets, then
      all flips. A negative dimensionality cannot be allocated. */
  function New(original: Problem, r: Ranges, scaleDraw: nat -> nat, offsetDraw: nat -> nat,
               flip: nat -> bool): (m: Result<Modified>)
    ensures m.Err? <==> original.dims < 0
    ensures m.Err? ==> m.fault == NegativeArraySize
    ensures m.Ok? ==> m.value.original == original
    ensures m.Ok? ==> Valid(m.value)
    ensures m.Ok? ==>
      var n := original.dims;
      |m.value.scales| == |m.value.offsets| == |m.value.flips| == n &&
      |m.value.lowerBounds| == |m.value.upperBounds| == n &&
      forall i :: 0 <= i < n ==>
        m.value.scales[i] == Scale(scaleDraw(i), r) &&
        m.value.offsets[i] == Offset(offsetDraw(i), Sub(Fin(original.upper), Fin(original.lower)), r) &&
        m.value.lowerBounds[i] == Add(Mul(Fin(original.lower), m.value.scales[i]), m.value.offsets[i]) &&
        m.value.upperBounds[i] == Add(Mul(Fin(original.upper), m.value.scales[i]), m.value.offsets[i])
  {
    if original.dims < 0 then Err(NegativeArraySize)
    else
      var n := original.dims;
      var range := Sub(Fin(original.upper), Fin(original.lower));
      var scales := seq(n, i requires 0 <= i < n => Scale(scaleDraw(i), r));
      var offsets := seq(n, i requires 0 <= i < n => Offset(offsetDraw(i), range, r));
      var lower := seq(n, i requires 0 <= i < n => Add(Mul(Fin(original.lower), scales[i]), offsets[i]));
      var upper := seq(n, i requires 0 <= i < n => Add(Mul(Fin(original.upper), scales[i]), offsets[i]));
      var flips := seq(n, i requires 0 <= i < n => flip(i));
      Ok(Modified(original, lower, upper, offsets, scales, flips))
  }

  /** `0 <= u * d < d` for a fraction `u` in [0, 1) and a positive `d`. */
  lemma FractionBelow(u: real, d: real)
    requires 0.0 <= u < 1.0 && d > 0.0
    ensures 0.0 <= u * d < d
  {
    NonNegProduct(u, d);
    assert d - u * d == (1.0 - u) * d;
    assert (1.0 - u) * d > 0.0;
  }

  /** With moderate ranges (no overflow), each scale lies in [lowerScale, upperScale). */
  lemma ScaleInRange(raw: nat, r: Ranges)
    requires -MAX / 4.0 <= r.lowerScale < r.upperScale <= MAX / 4.0
    ensures Scale(raw, r).Fin?
    ensures r.lowerScale <= Scale(raw, r).v < r.upperScale
  {
    assert Sub(Fin(r.upperScale), Fin(r.lowerScale)) == Fin(r.upperScale - r.lowerScale);
    ShiftedFraction(NextFloat(raw), r.lowerScale, r.upperScale - r.lowerScale);
  }

  /** With a positive range and moderate translate fractions (no overflow), each offset lies
      in [lowerTranslate * range, upperTranslate * range). */
  lemma OffsetInRange(raw: nat, range: real, r: Ranges)
    requires range > 0.0 && r.lowerTranslate < r.upperTranslate
    requires -MAX / 4.0 <= r.lowerTranslate * range && r.upperTranslate * range <= MAX / 4.0
    ensures Offset(raw, Fin(range), r).Fin?
    ensures r.lowerTranslate * range <= Offset(raw, Fin(range), r).v < r.upperTranslate * range
  {
    var lo := r.lowerTranslate * range;
    var hi := r.upperTranslate * range;
    assert hi - lo == (r.upperTranslate - r.lowerTranslate) * range;
    var a := r.upperTranslate - r.lowerTranslate;
    assert a * range > 0.0;
    assert lo < hi;
    assert Mul(Fin(r.upperTranslate), Fin(range)) == Fin(hi);
    assert Mul(Fin(r.lowerTranslate), Fin(range)) == Fin(lo);
    assert Sub(Fin(hi), Fin(lo)) == Fin(hi - lo);
    ShiftedFraction(NextFloat(raw), lo, hi - lo);
  }

  /** `u * d + lo` in float arithmetic lies in [lo, lo + d) for a fraction `u` in [0, 1). */
  lemma ShiftedFraction(u: real, lo: real, d: real)
    requires 0.0 <= u < 1.0 && d > 0.0 && -MAX / 4.0 <= lo && lo + d <= MAX / 4.0
    ensures Add(Mul(Fin(u), Fin(d)), Fin(lo)).Fin?
    ensures lo <= Add(Mul(Fin(u), Fin(d)), Fin(lo)).v < lo + d
  {
    FractionBelow(u, d);
    RoundedShift(Fin(u), lo, d, u * d);
  }

  lemma RoundedShift(u: Flt, lo: real, d: real, p: real)
    requires u.Fin? && p == u.v * d && 0.0 <= p < d
    requires -MAX / 4.0 <= lo && lo + d <= MAX / 4.0
    ensures Add(Mul(u, Fin(d)), Fin(lo)) == Fin(p + lo)
  {
    assert Mul(u, Fin(d)) == Round(p);
    assert Round(p) == Fin(p);
  }

  /** The stretched and shifted box is ordered like the original one when the scale is
      positive. */
  lemma StretchedBoxOrdered(lower: real, upper: real, s: real, o: real)
    requires lower <= upper && s > 0.0
    ensures lower * s + o <= upper * s + o
  {
    NonNegProduct(upper - lower, s);
    assert upper * s - lower * s == (upper - lower) * s;
  }

  /** Over the reals, `(x - o) / s` maps the new box onto the original box exactly, and
      undoes `y * s + o`. */
  lemma TransformMapsBox(x: real, lower: real, upper: real, s: real, o: real)
    requires s > 0.0
    ensures lower * s + o <= x <= upper * s + o <==> lower <= (x - o) / s <= upper
    ensures ((x * s + o) - o) / s == x
  {
    var y := (x - o) / s;
    assert x == y * s + o;
    ScaleMonotone(lower, y, s);
    ScaleMonotone(y, upper, s);
    assert (x * s + o) - o == x * s;
  }

  /** Multiplying by a positive factor keeps the order, in both directions. */
  lemma ScaleMonotone(a: real, b: real, s: real)
    requires s > 0.0
    ensures a <= b <==> a * s <= b * s
  {
    if a <= b {
      NonNegProduct(b - a, s);
      assert b * s - a * s == (b - a) * s;
    } else {
      assert (a - b) * s > 0.0;
      assert a * s - b * s == (a - b) * s;
    }
  }

  /** What the constructor builds: every per-dimension array has one entry per dimension. */
  predicate Valid(m: Modified) {
    var n := m.original.dims;
    |m.lowerBounds| == n && |m.upperBounds| == n && |m.offsets| == n && |m.scales| == n && |m.flips| == n
  }

  /** The point handed to the original function: `(inputs[i] - offsets[i]) / scales[i]`.
      Each step first reads `flips[i]`; when it is set, the step also reads `lowerBounds[i]`
      and `upperBounds[i]` for a value that is then overwritten. An input longer than the
      arrays reads past them. */
  function Transformed(m: Modified, inputs: seq<Flt>): (r: Result<seq<Flt>>)
    ensures r.Err? <==> (|inputs| > |m.flips| || |inputs| > |m.offsets| || |inputs| > |m.scales| ||
                         exists i :: Known(m) <= i < |inputs| && m.flips[i])
    ensures r.Err? ==> r.fault == IndexOutOfBounds
    ensures r.Ok? ==> |r.value| == |inputs|
    ensures r.Ok? ==>
      forall i :: 0 <= i < |inputs| ==> r.value[i] == Div(Sub(inputs[i], m.offsets[i]), m.scales[i])
    ensures Valid(m) ==> (r.Err? <==> |inputs| > m.original.dims)
  {
    if |inputs| > |m.flips| || |inputs| > |m.offsets| || |inputs| > |m.scales| then Err(IndexOutOfBounds)
    else if exists i :: Known(m) <= i < |inputs| && m.flips[i] then Err(IndexOutOfBounds)
    else Ok(seq(|inputs|, i requires 0 <= i < |inputs| => Div(Sub(inputs[i], m.offsets[i]), m.scales[i])))
  }

  /** `evaluate(inputs, rescale)`: the original function at the transformed point. */
  function Evaluate(m: Modified, inputs: seq<Flt>, rescale: bool): (r: Result<Flt>)
    ensures r.Err? <==> Transformed(m, inputs).Err?
    ensures r.Ok? ==> r.value == Cec2005.Evaluate(m.original, Transformed(m, inputs).value, rescale)
  {
    var x := Transformed(m, inputs);
    if x.Err? then Err(x.fault) else Ok(Cec2005.Evaluate(m.original, x.value, rescale))
  }

  /** The flips decide nothing but whether the bounds are read: any two flips that both let
      the evaluation through give the same value, and on a problem the constructor built any
      flips of the right length give the same outcome. */
  lemma EvaluateIgnoresFlips(m: Modified, flips: seq<bool>, inputs: seq<Flt>, rescale: bool)
    ensures Evaluate(m.(flips := flips), inputs, rescale).Ok? && Evaluate(m, inputs, rescale).Ok? ==>
      Evaluate(m.(flips := flips), inputs, rescale) == Evaluate(m, inputs, rescale)
    ensures Valid(m) && |flips| == |m.flips| ==>
      Evaluate(m.(flips := flips), inputs, rescale) == Evaluate(m, inputs, rescale)
  {
    var m' := m.(flips := flips);
    if Transformed(m, inputs).Ok? && Transformed(m', inputs).Ok? {
      assert Transformed(m', inputs).value == Transformed(m, inputs).value;
    }
    if Valid(m) && |flips| == |m.flips| {
      assert Valid(m');
    }
  }

  /** A finite coordinate whose shifted value and quotient stay in float range is mapped
      exactly as over the reals. */
  lemma TransformExact(x: real, o: real, s: real)
    requires s > 0.0 && -MAX <= x - o <= MAX && -MAX <= (x - o) / s <= MAX
    ensures Div(Sub(Fin(x), Fin(o)), Fin(s)) == Fin((x - o) / s)
  {
    assert Sub(Fin(x), Fin(o)) == Round(x - o);
  }

  /** `getError(inputs, rescale)`: the value above the original optimum. */
  function GetError(m: Modified, inputs: seq<Flt>, rescale: bool): (r: Result<Flt>)
    ensures r.Err? <==> Transformed(m, inputs).Err?
    ensures r.Ok? ==> r.value == Cec2005.GetError(m.original, Transformed(m, inputs).value, rescale)
  {
    var y := Evaluate(m, inputs, rescale);
    if y.Err? then y else Ok(Sub(y.value, Fin(m.original.optimum)))
  }

  /** `isWithinBounds(inputs)`: every coordinate of the input, in order, against the bounds
      of its own dimension, inclusive (NaN counts as inside); an input longer than the
      bounds whose coordinates so far are inside fails reading past them. */
  function WithinBounds(m: Modified, inputs: seq<Flt>): (r: Result<bool>)
    ensures r == Ok(true) <==>
      |inputs| <= |m.lowerBounds| && |inputs| <= |m.upperBounds| &&
      forall i :: 0 <= i < |inputs| ==> InBox(inputs[i], m.lowerBounds[i], m.upperBounds[i])
    ensures r.Err? <==> ReadsPastBounds(m, inputs, 0)
    ensures r.Err? ==> r.fault == IndexOutOfBounds
    ensures r.Err? ==> |inputs| > |m.lowerBounds| || |inputs| > |m.upperBounds|
  {
    CheckFrom(m, inputs, 0)
  }

  /** The number of dimensions whose two bounds both exist. */
  function Known(m: Modified): nat {
    if |m.lowerBounds| <= |m.upperBounds| then |m.lowerBounds| else |m.upperBounds|
  }

  /** The scan from coordinate `i` reaches a missing bound: the input is longer than the
      known dimensions, every coordinate from `i` below them is inside, and the first
      coordinate past them needs the missing bound (its lower bound, or, when only the upper
      one is missing, its upper bound because it is not below the lower one). */
  predicate ReadsPastBounds(m: Modified, inputs: seq<Flt>, i: nat) {
    var n := Known(m);
    |inputs| > n &&
    (forall k :: i <= k < n ==> InBox(inputs[k], m.lowerBounds[k], m.upperBounds[k])) &&
    (|m.lowerBounds| <= |m.upperBounds| || !Lt(inputs[n], m.lowerBounds[n]))
  }

  function CheckFrom(m: Modified, inputs: seq<Flt>, i: nat): (r: Result<bool>)
    requires i <= |inputs| && i <= |m.lowerBounds| && i <= |m.upperBounds|
    ensures r == Ok(true) <==>
      |inputs| <= |m.lowerBounds| && |inputs| <= |m.upperBounds| &&
      forall k :: i <= k < |inputs| ==> InBox(inputs[k], m.lowerBounds[k], m.upperBounds[k])
    ensures r.Err? <==> ReadsPastBounds(m, inputs, i)
    ensures r.Err? ==> r.fault == IndexOutOfBounds
    ensures r.Err? ==> |inputs| > |m.lowerBounds| || |inputs| > |m.upperBounds|
    decreases |inputs| - i
  {
    if i == |inputs| then Ok(true)
    else if i >= |m.lowerBounds| then Err(IndexOutOfBounds)
    else if Lt(inputs[i], m.lowerBounds[i]) then Ok(false)
    else if i >= |m.upperBounds| then Err(IndexOutOfBounds)
    else if Gt(inputs[i], m.upperBounds[i]) then Ok(false)
    else CheckFrom(m, inputs, i + 1)
  }

  /** `getLowerBound(dim)` and `getUpperBound(dim)`: the bounds of one dimension. */
  function LowerBound(m: Modified, dim: int): (r: Result<Flt>)
    ensures r.Ok? <==> 0 <= dim < |m.lowerBounds|
    ensures r.Ok? ==> r.value == m.lowerBounds[dim]
  {
    if 0 <= dim < |m.lowerBounds| then Ok(m.lowerBounds[dim]) else Err(IndexOutOfBounds)
  }

  function UpperBound(m: Modified, dim: int): (r: Result<Flt>)
    ensures r.Ok? <==> 0 <= dim < |m.upperBounds|
    ensures r.Ok? ==> r.value == m.upperBounds[dim]
  {
    if 0 <= dim < |m.upperBounds| then Ok(m.upperBounds[dim]) else Err(IndexOutOfBounds)
  }
}

=== FILE: population.dfy ===
/** The swarm of `PopulationOptimisation`: its members (`Process`), the choice of the best
    member, the ordering of members by personal best, and the resolution of a member index
    used by `VectorBest` and `VectorCurrent`. */
module Population {
  import opened Common
  import opened Float32
  import opened Int32
  import opened Machine

  /** A swarm member: personal best and current point with their objective values, and the
      member's own interpreter stacks. */
  datatype Process = Process(
    bestPoint: Vec,
    currentPoint: Vec,
    bestValue: Flt,
    currentValue: Flt,
    frame: Machine)

  /** A new member starts with both points equal to its start point and both values equal to
      the start point's value. */
  function NewProcess(point: Vec, value: Flt, frame: Machine): (p: Process)
    ensures p.bestPoint == p.currentPoint == point
    ensures p.bestValue == p.currentValue == value
  {
    Process(point, point, value, value, frame)
  }

  /** Index chosen by `getPosition(i, _)` in a swarm of `n` members: a negative `i` (which
      integer overflow can produce) selects the last member, any other `i` wraps modulo `n`. */
  function PositionIndex(i: int, n: nat): (pos: int)
    requires Is32(i) && n > 0
    ensures 0 <= pos < n
    ensures i < 0 ==> pos == n - 1
    ensures i >= 0 ==> pos == i % n
  {
    if i < 0 then n - 1 else Rem(i, n)
  }

  /** A valid index selects itself, and adding the swarm size selects the same member. */
  lemma PositionIndexWraps(i: int, n: nat)
    requires Is32(i) && Is32(i + n) && n > 0 && i >= 0
    ensures i < n ==> PositionIndex(i, n) == i
    ensures PositionIndex(i + n, n) == PositionIndex(i, n)
  {
    assert Abs(n) == n;
    assert PositionIndex(i, n) == i % n;
    assert PositionIndex(i + n, n) == (i + n) % n;
    if i < n {
      ModUnique(i, n, 0, i);
    }
    ModShift(i, n);
  }

  function Point(m: Process, best: bool): Vec {
    if best then m.bestPoint else m.currentPoint
  }

  /** `getPosition(i, best)`: the personal best or the current point of the selected member.
      An empty swarm makes the Java code fail. */
  function GetPosition(members: seq<Process>, i: int, best: bool): (r: Result<Vec>)
    requires Is32(i)
    ensures r.Err? <==> |members| == 0
    ensures r.Ok? ==> r.value == Point(members[PositionIndex(i, |members|)], best)
  {
    if |members| == 0 then
      if i < 0 then Err(IndexOutOfBounds) else Err(DivideByZero)
    else
      Ok(Point(members[PositionIndex(i, |members|)], best))
  }

  /** The personal bests of the members, in order. */
  function BestValues(members: seq<Process>): (vs: seq<Flt>)
    ensures |vs| == |members|
    ensures forall p :: 0 <= p < |members| ==> vs[p] == members[p].bestValue
  {
    seq(|members|, p requires 0 <= p < |members| => members[p].bestValue)
  }

  /** `getBest()`: the first member whose personal best is strictly smallest, comparing
      with `<` from +infinity, or `Integer.MAX_VALUE` when no personal best is below
      +infinity (in particular for an empty swarm). */
  function BestIndex(members: seq<Process>): (best: int)
    requires |members| <= MAX_INT
    ensures best == MAX_INT <==>
      forall p :: 0 <= p < |members| ==> !Lt(members[p].bestValue, PosInf)
    ensures best != MAX_INT ==>
      0 <= best < |members| &&
      Lt(members[best].bestValue, PosInf) &&
      (forall p :: 0 <= p < |members| ==> !Lt(members[p].bestValue, members[best].bestValue)) &&
      (forall p :: 0 <= p < best ==> !Le(members[p].bestValue, members[best].bestValue))
  {
    var b := FirstMin(BestValues(members), PosInf);
    if b == -1 then MAX_INT else b
  }

  /** `getBest()`, the loop over the members. */
  method GetBest(members: seq<Process>) returns (best: int)
    requires |members| <= MAX_INT
    ensures best == BestIndex(members)
  {
    var bestValue := PosInf;
    best := MAX_INT;
    var p := 0;
    while p < |members|
      invariant 0 <= p <= |members|
      invariant best == BestIndex(members[..p])
      invariant bestValue == if best == MAX_INT then PosInf else members[best].bestValue
    {
      BestIndexStep(members, p);
      if Lt(members[p].bestValue, bestValue) {
        bestValue := members[p].bestValue;
        best := p;
      }
      p := p + 1;
    }
    assert members[..p] == members;
  }

  /** One more iteration of `getBest()`'s loop: member `p` takes over exactly when its
      personal best is below the running minimum. */
  lemma BestIndexStep(members: seq<Process>, p: nat)
    requires p < |members| <= MAX_INT
    ensures var b := BestIndex(members[..p]);
      var running := if b == MAX_INT then PosInf else members[b].bestValue;
      BestIndex(members[..p + 1]) == if Lt(members[p].bestValue, running) then p else b
  {
    var xs := BestValues(members[..p + 1]);
    assert xs[..p] == BestValues(members[..p]);
  }

  /** `Process.compareTo`: `Float.compare` on the personal bests. */
  function CompareTo(a: Process, b: Process): (c: int)
    ensures c == -Compare(b.bestValue, a.bestValue)
    ensures c == 0 <==> a.bestValue == b.bestValue
    ensures !a.bestValue.NaN? && !b.bestValue.NaN? ==> (c < 0 <==> Lt(a.bestValue, b.bestValue))
  {
    CompareIsTotalOrder(a.bestValue, b.bestValue, b.bestValue);
    Compare(a.bestValue, b.bestValue)
  }

  /** Ordered by `compareTo`, best first. */
  ghost predicate SortedByBest(s: seq<Process>) {
    forall i, j :: 0 <= i < j < |s| ==> CompareTo(s[i], s[j]) <= 0
  }

  function InsertByBest(x: Process, s: seq<Process>): (r: seq<Process>)
    ensures |r| == |s| + 1
    ensures multiset(r) == multiset(s) + multiset{x}
  {
    if |s| == 0 then [x]
    else if CompareTo(x, s[0]) <= 0 then [x] + s
    else
      assert s == [s[0]] + s[1..];
      [s[0]] + InsertByBest(x, s[1..])
  }

  /** Inserting into a sorted sequence keeps it sorted. */
  lemma {:induction false} InsertKeepsSorted(x: Process, s: seq<Process>)
    requires SortedByBest(s)
    ensures SortedByBest(InsertByBest(x, s))
  {
    if |s| == 0 {
    } else if CompareTo(x, s[0]) <= 0 {
      forall j | 0 <= j < |s|
        ensures CompareTo(x, s[j]) <= 0
      {
        if j > 0 {
          CompareIsTotalOrder(x.bestValue, s[0].bestValue, s[j].bestValue);
        }
      }
      ConsKeepsSorted(x, s);
    } else {
      var tail := s[1..];
      assert SortedByBest(tail) by {
        forall i, j | 0 <= i < j < |tail|
          ensures CompareTo(tail[i], tail[j]) <= 0
        {
          assert tail[i] == s[i + 1] && tail[j] == s[j + 1];
        }
      }
      InsertKeepsSorted(x, tail);
      var rest := InsertByBest(x, tail);
      forall j | 0 <= j < |rest|
        ensures CompareTo(s[0], rest[j]) <= 0
      {
        HeadBelowInserted(x, s, rest, j);
      }
      ConsKeepsSorted(s[0], rest);
    }
  }

  /** An element no worse than every element of a sorted sequence can go in front of it. */
  lemma ConsKeepsSorted(x: Process, s: seq<Process>)
    requires SortedByBest(s)
    requires forall j :: 0 <= j < |s| ==> CompareTo(x, s[j]) <= 0
    ensures SortedByBest([x] + s)
  {
    var r := [x] + s;
    forall i, j | 0 <= i < j < |r|
      ensures CompareTo(r[i], r[j]) <= 0
    {
      if i == 0 {
        assert r[j] == s[j - 1];
      } else {
        assert r[i] == s[i - 1] && r[j] == s[j - 1];
      }
    }
  }

  lemma HeadBelowInserted(x: Process, s: seq<Process>, rest: seq<Process>, j: int)
    requires SortedByBest(s) && |s| > 0 && CompareTo(x, s[0]) > 0
    requires multiset(rest) == multiset(s[1..]) + multiset{x}
    requires 0 <= j < |rest|
    ensures CompareTo(s[0], rest[j]) <= 0
  {
    assert rest[j] in multiset(rest);
    if rest[j] != x {
      assert rest[j] in multiset(s[1..]);
      var k :| 0 <= k < |s[1..]| && s[1..][k] == rest[j];
      assert s[k + 1] == rest[j];
    }
  }

  /** `Arrays.sort(population)`: the members in non-decreasing order of personal best. */
  function SortByBest(s: seq<Process>): (r: seq<Process>)
    ensures multiset(r) == multiset(s) && |r| == |s|
    ensures SortedByBest(r)
  {
    if |s| == 0 then []
    else
      assert s == [s[0]] + s[1..];
      InsertKeepsSorted(s[0], SortByBest(s[1..]));
      InsertByBest(s[0], SortByBest(s[1..]))
  }

  /** `rank(population, ip)`: sorts the members and refills the input stack with their
      personal bests pushed from the worst to the best, so that the best member's point ends
      on top. The optimiser declares `rank` but never calls it. `Arrays.sort` is stable and so
      is `SortByBest` (an element goes before the equal ones after it), but no contract here
      states stability. */
  function Rank(members: seq<Process>): (r: (seq<Process>, seq<Item>))
    ensures multiset(r.0) == multiset(members) && SortedByBest(r.0) && |r.0| == |members|
    ensures |r.1| == |members|
    ensures forall i :: 0 <= i < |r.1| ==> r.1[i] == VecItem(r.0[|members| - 1 - i].bestPoint)
    ensures |members| > 0 ==> Last(r.1) == VecItem(r.0[0].bestPoint)
  {
    var sorted := SortByBest(members);
    (sorted, WorstFirst(sorted))
  }

  /** The personal best points of `sorted` as input items, from the last member to the first. */
  function WorstFirst(sorted: seq<Process>): (items: seq<Item>)
    ensures |items| == |sorted|
    ensures forall i :: 0 <= i < |items| ==> items[i] == VecItem(sorted[|sorted| - 1 - i].bestPoint)
  {
    seq(|sorted|, i requires 0 <= i < |sorted| => VecItem(sorted[|sorted| - 1 - i].bestPoint))
  }
}

=== FILE: random.dfy ===
/** `java.util.Random` as the breeding code uses it. A draw is supplied by the caller as an
    arbitrary natural number `raw`; each method maps it onto its own range exactly as the
    generator's output is distributed: `nextInt(bound)` on [0, bound), `nextFloat()` on the
    multiples of 2^-24 in [0, 1), `nextDouble()` on the multiples of 2^-53 in [0, 1). */
module Random {
  import opened Common

  const FLOAT_STEPS: nat := 0x100_0000
  const DOUBLE_STEPS: nat := 0x20_0000_0000_0000

  /** `nextInt(bound)`: a bound that is not positive is rejected. */
  function NextInt(raw: nat, bound: int): (r: Result<int>)
    ensures r.Err? <==> bound <= 0
    ensures r.Err? ==> r.fault == IllegalArgument
    ensures r.Ok? ==> 0 <= r.value < bound
    ensures r.Ok? && raw < bound ==> r.value == raw
  {
    if bound <= 0 then Err(IllegalArgument) else Ok(raw % bound)
  }

  function NextFloat(raw: nat): (x: real)
    ensures 0.0 <= x < 1.0
    ensures raw < FLOAT_STEPS ==> x * FLOAT_STEPS as real == raw as real
  {
    Unit(raw, FLOAT_STEPS)
  }

  function NextDouble(raw: nat): (x: real)
    ensures 0.0 <= x < 1.0
    ensures raw < DOUBLE_STEPS ==> x * DOUBLE_STEPS as real == raw as real
  {
    Unit(raw, DOUBLE_STEPS)
  }

  function Unit(raw: nat, steps: nat): (x: real)
    requires steps > 0
    ensures 0.0 <= x < 1.0
    ensures raw < steps ==> x * steps as real == raw as real
  {
    var k := raw % steps;
    FractionOfSteps(k as real, steps as real);
    (k as real) / (steps as real)
  }

  lemma FractionOfSteps(k: real, n: real)
    requires 0.0 <= k < n
    ensures 0.0 <= k / n < 1.0
    ensures (k / n) * n == k
  {
    var q := k / n;
    assert q * n == k;
  }
}

=== FILE: stack_spec.dfy ===
/** The Push stack discipline on the live contents of a stack, listed bottom first (the top
    is the last element). Depth `d` names the element `d` places below the top, which a
    stack of size `n` stores at index `n - 1 - d`. Every operation is a no-op when the stack
    holds too few elements. `ArrayStack` proves that the array representation implements
    these functions. */
module StackSpec {
  import opened Common

  function Push<T>(s: seq<T>, v: T): (r: seq<T>)
    ensures |r| == |s| + 1 && r[..|s|] == s && r[|s|] == v
  {
    s + [v]
  }

  function Top<T>(s: seq<T>): (r: Option<T>)
    ensures r.None? <==> |s| == 0
    ensures r.Some? ==> r.value == s[|s| - 1]
  {
    if |s| > 0 then Some(s[|s| - 1]) else None
  }

  /** Removes the top; an empty stack stays empty. */
  function Pop<T>(s: seq<T>): (r: seq<T>)
    ensures |s| == 0 ==> r == s
    ensures |s| > 0 ==> |r| == |s| - 1 && r == s[..|s| - 1]
  {
    if |s| > 0 then s[..|s| - 1] else s
  }

  /** Element at array index `i` (counted from the bottom), absent when out of range. */
  function Peek<T>(s: seq<T>, i: int): (r: Option<T>)
    ensures r.Some? <==> 0 <= i < |s|
    ensures r.Some? ==> r.value == s[i]
  {
    if 0 <= i < |s| then Some(s[i]) else None
  }

  /** Pushes a second copy of the top. */
  function Dup<T>(s: seq<T>): (r: seq<T>)
    ensures |s| == 0 ==> r == s
    ensures |s| > 0 ==> |r| == |s| + 1 && r[..|s|] == s && r[|s|] == s[|s| - 1]
  {
    if |s| > 0 then s + [s[|s| - 1]] else s
  }

  /** Exchanges the top two elements. */
  function Swap<T>(s: seq<T>): (r: seq<T>)
    ensures |r| == |s|
    ensures |s| < 2 ==> r == s
    ensures |s| >= 2 ==>
      r[..|s| - 2] == s[..|s| - 2] && r[|s| - 1] == s[|s| - 2] && r[|s| - 2] == s[|s| - 1]
  {
    if |s| > 1 then s[..|s| - 2] + [s[|s| - 1], s[|s| - 2]] else s
  }

  /** Moves the third element from the top to the top; the top two move down one place. */
  function Rot<T>(s: seq<T>): (r: seq<T>)
    ensures |r| == |s|
    ensures |s| < 3 ==> r == s
    ensures |s| >= 3 ==>
      r[..|s| - 3] == s[..|s| - 3] && r[|s| - 1] == s[|s| - 3] &&
      r[|s| - 2] == s[|s| - 1] && r[|s| - 3] == s[|s| - 2]
  {
    if |s| > 2 then s[..|s| - 3] + [s[|s| - 2], s[|s| - 1], s[|s| - 3]] else s
  }

  /** Forces a depth into [0, n - 1]. */
  function Clamp(i: int, n: int): (d: int)
    requires n > 0
    ensures 0 <= d < n
    ensures 0 <= i < n ==> d == i
    ensures i < 0 ==> d == 0
    ensures i >= n ==> d == n - 1
  {
    if i < 0 then 0 else if i > n - 1 then n - 1 else i
  }

  /** Array index of depth `i` after clamping. */
  function Slot(i: int, n: int): (k: int)
    requires n > 0
    ensures 0 <= k < n
  {
    n - Clamp(i, n) - 1
  }

  /** Moves the top element down to depth `i` (clamped). */
  function Shove<T>(s: seq<T>, i: int): seq<T> {
    if |s| > 0 then
      var k := Slot(i, |s|);
      s[..k] + [s[|s| - 1]] + s[k..|s| - 1]
    else s
  }

  /** Moves the element at depth `i` (clamped) to the top. */
  function Yank<T>(s: seq<T>, i: int): seq<T> {
    if |s| > 0 then
      var k := Slot(i, |s|);
      s[..k] + s[k + 1..] + [s[k]]
    else s
  }

  /** Pushes a copy of the element at depth `i` (clamped). */
  function YankDup<T>(s: seq<T>, i: int): seq<T> {
    if |s| > 0 then s + [s[Slot(i, |s|)]] else s
  }

  /** `push(v)` then `pop()` gives back `v` and the original stack. */
  lemma PushThenPop<T>(s: seq<T>, v: T)
    ensures Top(Push(s, v)) == Some(v)
    ensures Pop(Push(s, v)) == s
  {
  }

  /** Pushes `vs` one after another. */
  function PushAll<T>(s: seq<T>, vs: seq<T>): seq<T>
    decreases |vs|
  {
    if |vs| == 0 then s else PushAll(Push(s, vs[0]), vs[1..])
  }

  /** The values `n` successive pops return, in the order they are returned. */
  function PopValues<T>(s: seq<T>, n: nat): seq<T>
    requires n <= |s|
  {
    if n == 0 then [] else [s[|s| - 1]] + PopValues(Pop(s), n - 1)
  }

  function Reverse<T>(s: seq<T>): (r: seq<T>)
    ensures |r| == |s|
  {
    if |s| == 0 then [] else Reverse(s[1..]) + [s[0]]
  }

  lemma {:induction false} PushAllAppends<T>(s: seq<T>, vs: seq<T>)
    ensures PushAll(s, vs) == s + vs
    decreases |vs|
  {
    if |vs| > 0 {
      PushAllAppends(Push(s, vs[0]), vs[1..]);
      assert s + [vs[0]] + vs[1..] == s + vs;
    }
  }

  lemma {:induction false} PopValuesOfAppend<T>(s: seq<T>, vs: seq<T>)
    ensures PopValues(s + vs, |vs|) == Reverse(vs)
  {
    if |vs| > 0 {
      var init := vs[..|vs| - 1];
      assert Pop(s + vs) == s + init;
      PopValuesOfAppend(s, init);
      ReverseOfSnoc(init, vs[|vs| - 1]);
      assert init + [vs[|vs| - 1]] == vs;
    }
  }

  lemma {:induction false} ReverseOfSnoc<T>(s: seq<T>, x: T)
    ensures Reverse(s + [x]) == [x] + Reverse(s)
  {
    if |s| > 0 {
      assert (s + [x])[1..] == s[1..] + [x];
      ReverseOfSnoc(s[1..], x);
    }
  }

  /** LIFO: after pushing `vs`, popping returns them in reverse order and the size counts
      pushes minus pops. */
  lemma Lifo<T>(s: seq<T>, vs: seq<T>)
    ensures |PushAll(s, vs)| == |s| + |vs|
    ensures PopValues(PushAll(s, vs), |vs|) == Reverse(vs)
  {
    PushAllAppends(s, vs);
    PopValuesOfAppend(s, vs);
  }

  /** `shove(i)` keeps the size and the elements and puts the old top at depth `i` (clamped);
      the elements below that depth do not move. */
  lemma ShoveProperties<T>(s: seq<T>, i: int)
    requires |s| > 0
    ensures |Shove(s, i)| == |s|
    ensures multiset(Shove(s, i)) == multiset(s)
    ensures Shove(s, i)[Slot(i, |s|)] == s[|s| - 1]
    ensures Shove(s, i)[..Slot(i, |s|)] == s[..Slot(i, |s|)]
  {
    var k := Slot(i, |s|);
    var top := s[|s| - 1];
    calc {
      multiset(Shove(s, i));
      multiset(s[..k]) + multiset([top]) + multiset(s[k..|s| - 1]);
      { assert s[..|s| - 1] == s[..k] + s[k..|s| - 1]; }
      multiset(s[..|s| - 1]) + multiset([top]);
      { assert s == s[..|s| - 1] + [top]; }
      multiset(s);
    }
  }

  /** `yank(i)` keeps the size and the elements and brings the element at depth `i`
      (clamped) to the top. */
  lemma YankProperties<T>(s: seq<T>, i: int)
    requires |s| > 0
    ensures |Yank(s, i)| == |s|
    ensures multiset(Yank(s, i)) == multiset(s)
    ensures Yank(s, i)[|s| - 1] == s[Slot(i, |s|)]
    ensures Yank(s, i)[..Slot(i, |s|)] == s[..Slot(i, |s|)]
  {
    var k := Slot(i, |s|);
    calc {
      multiset(Yank(s, i));
      multiset(s[..k]) + multiset(s[k + 1..]) + multiset([s[k]]);
      multiset(s[..k]) + multiset([s[k]]) + multiset(s[k + 1..]);
      { assert s == s[..k] + [s[k]] + s[k + 1..]; }
      multiset(s);
    }
  }

  /** `yank(i)` undoes `shove(i)`. */
  lemma YankUndoesShove<T>(s: seq<T>, i: int)
    ensures Yank(Shove(s, i), i) == s
  {
    if |s| > 0 {
      var k := Slot(i, |s|);
      var t := Shove(s, i);
      assert |t| == |s|;
      assert t[..k] == s[..k];
      assert t[k] == s[|s| - 1];
      assert t[k + 1..] == s[k..|s| - 1];
      assert s == s[..k] + s[k..|s| - 1] + [s[|s| - 1]];
    }
  }

  /** `shove(i)` undoes `yank(i)`. */
  lemma ShoveUndoesYank<T>(s: seq<T>, i: int)
    ensures Shove(Yank(s, i), i) == s
  {
    if |s| > 0 {
      var k := Slot(i, |s|);
      var t := Yank(s, i);
      assert |t| == |s|;
      assert t[..k] == s[..k];
      assert t[|s| - 1] == s[k];
      assert t[k..|s| - 1] == s[k + 1..];
      assert s == s[..k] + [s[k]] + s[k + 1..];
    }
  }

  /** `yankdup(i)` grows the stack by one, leaves the old contents in place and pushes a copy
      of the element at depth `i` (clamped). */
  lemma YankDupProperties<T>(s: seq<T>, i: int)
    requires |s| > 0
    ensures |YankDup(s, i)| == |s| + 1
    ensures YankDup(s, i)[..|s|] == s
    ensures YankDup(s, i)[|s|] == s[Slot(i, |s|)]
  {
  }

  /** Three rotations restore the stack. */
  lemma RotOrderThree<T>(s: seq<T>)
    ensures Rot(Rot(Rot(s))) == s
  {
    if |s| >= 3 {
      var n := |s|;
      var r1 := Rot(s);
      var r2 := Rot(r1);
      var r3 := Rot(r2);
      assert r3[..n - 3] == s[..n - 3] by {
        assert r2[..n - 3] == r1[..n - 3] == s[..n - 3];
      }
      assert r3[n - 3] == s[n - 3] && r3[n - 2] == s[n - 2] && r3[n - 1] == s[n - 1];
      assert r3 == r3[..n - 3] + [r3[n - 3], r3[n - 2], r3[n - 1]];
      assert s == s[..n - 3] + [s[n - 3], s[n - 2], s[n - 1]];
    }
  }

  /** Two swaps restore the stack. */
  lemma SwapInvolutive<T>(s: seq<T>)
    ensures Swap(Swap(s)) == s
  {
    if |s| >= 2 {
      var n := |s|;
      var t := Swap(Swap(s));
      assert t == t[..n - 2] + [t[n - 2], t[n - 1]];
      assert s == s[..n - 2] + [s[n - 2], s[n - 1]];
    }
  }
}

=== FILE: standard_ea.dfy ===
/** The "standard" generational EA of `PushGPWithMoreStandardEAs.Reproduce` and the best
    selection `Evaluate` performs for crowding before it hands over to the library's own
    `Evaluate`.

    Individuals are handled by reference (`Breeding.Heap`): `ReproduceByCrossover` changes
    the member of the current population it was given, and the next population may hold the
    same member in several slots. */
module StandardEA {
  import opened Common
  import opened Float32
  import opened Int32
  import opened Random
  import opened Individuals
  import opened Breeding

  // ---------------------------------------------------------------------------------------
  // Evaluate (crowding, after generation 0)

  /** The fields the crowding block of `Evaluate` sets: the best index, fitness, program
      size and error list, and the population's mean fitness. This is the state between the
      block and the library's `Evaluate`, which always runs after it and is not part of this
      model. */
  datatype Summary = Summary(best: int, bestFitness: Flt, bestSize: int, bestErrors: Option<seq<Flt>>, mean: Flt)

  function Fitnesses(pop: seq<Individual>): (fs: seq<Flt>)
    ensures |fs| == |pop| && forall n :: 0 <= n < |pop| ==> fs[n] == pop[n].fitness
  {
    seq(|pop|, n requires 0 <= n < |pop| => pop[n].fitness)
  }

  /** The crowding block of `Evaluate`: the best individual is the first with the strictly
      lowest fitness below `Float.MAX_VALUE`, and its size and error list are recorded; if
      there is none, the previous best index, size and errors stay (the best fitness is
      still reset to `MAX_VALUE`). The mean is the float sum of the fitnesses divided by the
      population size. */
  function EvaluateSummary(pop: seq<Individual>, prev: Summary): (s: Summary)
    ensures s.mean == Mean(Fitnesses(pop))
    ensures (forall n :: 0 <= n < |pop| ==> !Lt(pop[n].fitness, Fin(MAX))) ==>
      s == prev.(bestFitness := Fin(MAX), mean := s.mean)
    ensures s.best != prev.best ==>
      0 <= s.best < |pop| && s.bestFitness == pop[s.best].fitness &&
      s.bestSize == pop[s.best].program.size && Lt(s.bestFitness, Fin(MAX))
    ensures (exists n :: 0 <= n < |pop| && Lt(pop[n].fitness, Fin(MAX))) ==>
      0 <= s.best < |pop| && s.bestFitness == pop[s.best].fitness && Lt(s.bestFitness, Fin(MAX)) &&
      s.bestSize == pop[s.best].program.size && s.bestErrors == pop[s.best].errors &&
      (forall n :: 0 <= n < |pop| ==> !Lt(pop[n].fitness, pop[s.best].fitness)) &&
      (forall n :: 0 <= n < s.best ==> !Le(pop[n].fitness, pop[s.best].fitness))
  {
    var fs := Fitnesses(pop);
    var b := FirstMin(fs, Fin(MAX));
    var mean := Mean(fs);
    if b == -1 then prev.(bestFitness := Fin(MAX), mean := mean)
    else Summary(b, pop[b].fitness, pop[b].program.size, pop[b].errors, mean)
  }

  /** The two halves of crowding disagree about which fitness is better: `Evaluate` ranks
      the lower fitness best, while the replacement rule keeps the higher one. A child that
      `Evaluate` would pick over its parent loses its slot to the parent. */
  lemma ReplacementKeepsTheWorse(parent: Individual, child: Individual, prev: Summary, coin: bool)
    requires Lt(child.fitness, parent.fitness) && Lt(parent.fitness, Fin(MAX))
    ensures EvaluateSummary([parent, child], prev).best == 1
    ensures !ReplacementRule(parent.fitness, child.fitness, coin)
  {
    LtTransitive(child.fitness, parent.fitness, Fin(MAX));
    assert Lt(child.fitness, Fin(MAX));
  }

  // ---------------------------------------------------------------------------------------
  // Reproduce ("standard")

  /** `_crossoverPercent`, `_mutationPercent`, `_simplificationPercent` and the mutation
      settings. */
  datatype Params = Params(crossoverPercent: real, mutationPercent: real, simplificationPercent: real,
                           mutation: MutationParams)

  /** Raw draws: the elite's simplification draw, and per slot the operator draw, the two
      tournament winners (positions in the current population, reduced modulo its size),
      the node picks and the simplification draw. Tournament selection itself is not part
      of this model. */
  datatype Draws = Draws(
    eliteSimplify: nat,
    operator: nat -> nat,
    first: nat -> nat,
    second: nat -> nat,
    mutation: nat -> MutationDraw,
    crossover: nat -> CrossDraw,
    simplify: nat -> nat)

  /** `nextFloat() < _simplificationPercent / 100f`. */
  predicate Simplifies(raw: nat, p: Params) {
    Lt(Fin(NextFloat(raw)), Div(Fin(p.simplificationPercent), Fin(100.0)))
  }

  /** `method < _mutationPercent / psum` with `method = nextFloat()`. */
  predicate ChoosesMutation(raw: nat, p: Params) {
    Lt(Fin(NextFloat(raw)), Div(Fin(p.mutationPercent), Add(Fin(p.crossoverPercent), Fin(p.mutationPercent))))
  }

  /** References into the heap. */
  predicate Valid(h: Heap, refs: seq<nat>) {
    forall k :: 0 <= k < |refs| ==> refs[k] < |h|
  }

  /** `after` extends `before`, and an individual already there can only have had its program
      changed. */
  predicate Evolves(before: Heap, after: Heap) {
    |after| >= |before| &&
    forall k :: 0 <= k < |before| ==> after[k] == before[k].(program := after[k].program)
  }

  lemma EvolvesTransitive(a: Heap, b: Heap, c: Heap)
    requires Evolves(a, b) && Evolves(b, c)
    ensures Evolves(a, c)
  {
    forall k | 0 <= k < |a|
      ensures c[k] == a[k].(program := c[k].program)
    {
      assert b[k] == a[k].(program := b[k].program);
    }
  }

  /** The variation step of slot `n`, before simplification. */
  function Vary(h: Heap, cur: seq<nat>, n: nat, p: Params, d: Draws): (r: Result<(Heap, nat)>)
    requires |cur| > 0 && Valid(h, cur)
    ensures r.Ok? ==> Evolves(h, r.value.0) && r.value.1 < |r.value.0|
    ensures r.Ok? ==> r.value.1 >= |h| || r.value.1 in cur
    ensures r.Ok? && r.value.1 >= |h| ==> r.value.1 == |r.value.0| - 1
    ensures r.Ok? ==> forall k :: 0 <= k < |h| && k !in cur ==> r.value.0[k] == h[k]
    ensures !ChoosesMutation(d.operator(n), p) ==>
      r == Ok(Crossover(h, cur[d.first(n) % |cur|], cur[d.second(n) % |cur|], d.crossover(n),
                        p.mutation.maxPoints))
  {
    if ChoosesMutation(d.operator(n), p) then
      var parent := h[cur[d.first(n) % |cur|]];
      var m := OptimiserMutation(Clone(parent), p.mutation, d.mutation(n));
      if m.Err? then Err(m.fault) else Ok((h + [m.value], |h|))
    else
      Ok(Crossover(h, cur[d.first(n) % |cur|], cur[d.second(n) % |cur|], d.crossover(n),
                   p.mutation.maxPoints))
  }

  /** Slot `n`: a mutant of a clone of the first winner (perhaps with a redrawn swarm
      size), or the first winner itself after crossover with the second (the second winner
      when the first is empty); then perhaps a simplified clone. New individuals go at the
      end of the heap. */
  function FillSlot(h: Heap, cur: seq<nat>, n: nat, p: Params, d: Draws,
                    simplify: Individual -> Individual): (r: Result<(Heap, nat)>)
    requires |cur| > 0 && Valid(h, cur)
    ensures r.Ok? ==> Evolves(h, r.value.0) && r.value.1 < |r.value.0|
    ensures r.Ok? ==> r.value.1 >= |h| || r.value.1 in cur
    ensures r.Ok? && r.value.1 >= |h| ==> r.value.1 == |r.value.0| - 1
    ensures r.Ok? && !ChoosesMutation(d.operator(n), p) && !Simplifies(d.simplify(n), p) ==>
      var a := cur[d.first(n) % |cur|];
      var b := cur[d.second(n) % |cur|];
      r.value.1 == (if h[a].program.size <= 0 then b else a) && |r.value.0| == |h|
    ensures r.Ok? ==> forall k :: 0 <= k < |h| && k !in cur ==> r.value.0[k] == h[k]
    ensures r.Ok? && Simplifies(d.simplify(n), p) ==>
      r.value.1 == |r.value.0| - 1 &&
      exists k :: 0 <= k < |r.value.0| - 1 && r.value.0[r.value.1] == Simplification(r.value.0[k], simplify)
  {
    var made := Vary(h, cur, n, p, d);
    if made.Err? then made
    else
      var (h1, x) := made.value;
      if Simplifies(d.simplify(n), p) then
        var s := Simplification(h1[x], simplify);
        AppendKeeps(h, h1, s);
        assert (h1 + [s])[x] == h1[x];
        Ok((h1 + [s], |h1|))
      else Ok((h1, x))
  }

  /** A slot that chooses mutation holds the optimiser's mutant of a clone of the first
      winner, appended to the heap (then perhaps followed by its simplified clone); it fails
      exactly when that mutation fails. */
  lemma FillSlotMutates(h: Heap, cur: seq<nat>, n: nat, p: Params, d: Draws,
                        simplify: Individual -> Individual)
    requires |cur| > 0 && Valid(h, cur)
    requires ChoosesMutation(d.operator(n), p)
    ensures var r := FillSlot(h, cur, n, p, d, simplify);
      var mutant := OptimiserMutation(Clone(h[cur[d.first(n) % |cur|]]), p.mutation, d.mutation(n));
      (r.Err? <==> mutant.Err?) &&
      (r.Ok? && !Simplifies(d.simplify(n), p) ==> r.value == (h + [mutant.value], |h|)) &&
      (r.Ok? && Simplifies(d.simplify(n), p) ==>
        r.value == (h + [mutant.value] + [Simplification(mutant.value, simplify)], |h| + 1))
  {
    var r := FillSlot(h, cur, n, p, d, simplify);
    var mutant := OptimiserMutation(Clone(h[cur[d.first(n) % |cur|]]), p.mutation, d.mutation(n));
    var v := Vary(h, cur, n, p, d);
    assert r.Err? <==> v.Err?;
    if v.Ok? {
      var h1 := h + [mutant.value];
      assert v.value == (h1, |h|);
      if Simplifies(d.simplify(n), p) {
        var s := Simplification(h1[|h|], simplify);
        assert r.value == (h1 + [s], |h1|);
      } else {
        assert r.value == (h1, |h|);
      }
    }
  }

  /** Appending to an evolved heap keeps it evolved and keeps its old part. */
  lemma AppendKeeps(h: Heap, h1: Heap, s: Individual)
    requires Evolves(h, h1)
    ensures Evolves(h, h1 + [s]) && (h1 + [s])[..|h1|] == h1
    ensures forall k :: 0 <= k < |h1| ==> (h1 + [s])[k] == h1[k]
  {
  }

  /** Slots `n` .. `size - 1`, filled in order. */
  function FillSlots(h: Heap, cur: seq<nat>, n: nat, p: Params, d: Draws,
                     simplify: Individual -> Individual): (r: Result<(Heap, seq<nat>)>)
    requires 0 < n <= |cur| && Valid(h, cur)
    ensures r.Ok? ==> Evolves(h, r.value.0) && |r.value.1| == |cur| - n && Valid(r.value.0, r.value.1)
    ensures r.Ok? ==> forall k :: 0 <= k < |r.value.1| ==> r.value.1[k] >= |h| || r.value.1[k] in cur
    ensures r.Ok? ==> forall k :: 0 <= k < |h| && k !in cur ==> r.value.0[k] == h[k]
    decreases |cur| - n
  {
    if n == |cur| then Ok((h, []))
    else
      var one := FillSlot(h, cur, n, p, d, simplify);
      if one.Err? then Err(one.fault)
      else
        var (h1, x) := one.value;
        assert Valid(h1, cur);
        var rest := FillSlots(h1, cur, n + 1, p, d, simplify);
        if rest.Err? then rest
        else
          var (h2, xs) := rest.value;
          EvolvesTransitive(h, h1, h2);
          Ok((h2, [x] + xs))
  }

  /** The standard branch of `Reproduce()`: slot 0 of the next population receives a clone of
      the best individual (perhaps simplified); every other slot is filled by `FillSlot`. A
      best index outside the population fails. The members of the current population may
      have had their programs changed in place. */
  function Reproduce(h: Heap, cur: seq<nat>, best: int, p: Params, d: Draws,
                     simplify: Individual -> Individual): (r: Result<(Heap, seq<nat>)>)
    requires Valid(h, cur)
    ensures !(0 <= best < |cur|) ==> r == Err(IndexOutOfBounds)
    ensures r.Ok? ==> |r.value.1| == |cur| && Valid(r.value.0, r.value.1) && Evolves(h, r.value.0)
    ensures r.Ok? ==> r.value.1[0] == |h|
    ensures r.Ok? ==> r.value.0[|h|] in {Clone(h[cur[best]]), Simplification(h[cur[best]], simplify)}
    ensures r.Ok? ==> forall k :: 1 <= k < |cur| ==> r.value.1[k] > |h| || r.value.1[k] in cur
  {
    if !(0 <= best < |cur|) then Err(IndexOutOfBounds)
    else
      var elite := Clone(h[cur[best]]);
      var elite' := if Simplifies(d.eliteSimplify, p) then Simplification(elite, simplify) else elite;
      assert Simplification(elite, simplify) == Simplification(h[cur[best]], simplify);
      var h1 := h + [elite'];
      assert Valid(h1, cur);
      var rest := FillSlots(h1, cur, 1, p, d, simplify);
      if rest.Err? then Err(rest.fault)
      else
        var (h2, xs) := rest.value;
        assert |h| !in cur;
        assert h2[|h|] == elite';
        Ok((h2, [|h|] + xs))
  }

  /** Crossover hands back a member of the current population itself, so two slots whose
      crossovers share an unsimplified non-empty first winner hold the very same
      individual. */
  lemma CrossoverSlotsAlias(h: Heap, cur: seq<nat>, n: nat, p: Params, d: Draws,
                            simplify: Individual -> Individual)
    requires |cur| > 0 && Valid(h, cur)
    requires !ChoosesMutation(d.operator(n), p) && !Simplifies(d.simplify(n), p)
    requires h[cur[d.first(n) % |cur|]].program.size > 0
    ensures FillSlot(h, cur, n, p, d, simplify) ==
      Ok((Crossover(h, cur[d.first(n) % |cur|], cur[d.second(n) % |cur|], d.crossover(n),
                    p.mutation.maxPoints).0, cur[d.first(n) % |cur|]))
  {
  }
}

=== FILE: swarm.dfy ===
/** The evaluation of a population-based optimiser (`PopulationOptimisation.evaluate`): start
    a swarm, let the evolved program propose a new point for every member in every move,
    accept or reject each proposal, track the best value found, and average the results over
    runs and problems into a fitness. The objective and the program run are parameters. */
module Swarm {
  import opened Common
  import opened Float32
  import opened Int32
  import opened Machine
  import opened Population

  /** What evaluation sees of a `Problem`: its dimensionality, the per-dimension bounds,
      the bounds test and the error of a point. */
  datatype Objective = Objective(
    dims: nat,
    lowerAt: nat -> Flt,
    upperAt: nat -> Flt,
    inBounds: Vec -> bool,
    error: Vec -> Flt)

  /** The interpreter running the optimiser's program during run `run` and move `move` for
      member `p`, with the member's stacks switched in. It sees the whole swarm, as
      `VectorBest` and `VectorCurrent` do. */
  type Runner = (nat, int, seq<Process>, nat, Machine) -> Machine

  /** `float[popSize][moves][dims]`: the points each member visited, one row per move. */
  type Traj = seq<seq<Vec>>

  /** The state of one run: the members, `popBestValue`, and the trajectory array when the
      run records one. */
  datatype SwarmState = SwarmState(members: seq<Process>, popBest: Flt, traj: Option<Traj>)

  /** The input stack a program starts from: the bounds of dimension 0 only. */
  function BoundsInputs(obj: Objective): seq<Item> {
    [FloatItem(obj.lowerAt(0)), FloatItem(obj.upperAt(0))]
  }

  // ---------------------------------------------------------------------------------------
  // One member's move

  /** A proposal is accepted as the new personal best when it is within bounds and its
      error is `<=` the personal best's (so never after a NaN personal best). */
  predicate Improves(obj: Objective, ind: Process, cur: Vec) {
    obj.inBounds(cur) && Le(obj.error(cur), ind.bestValue)
  }

  /** The acceptance rule applied after the program proposed `cur` (left on the member's
      stacks `m`): the member's current point becomes `cur`; an improving proposal becomes the
      personal best; a non-improving or out-of-bounds one puts a copy of the personal best on
      the vector stack. The float stack receives the proposal's error, or `MAX` when it is
      out of bounds, and the boolean stack whether the proposal improved. */
  function Accept(obj: Objective, ind: Process, m: Machine, cur: Vec, popBest: Flt): (r: (Process, Flt))
    ensures r.0.currentPoint == cur
    ensures r.0.frame.bools == m.bools + [Improves(obj, ind, cur)]
    ensures r.0.frame.floats == m.floats + [if obj.inBounds(cur) then obj.error(cur) else Fin(MAX)]
    ensures r.0.frame.vecs == if Improves(obj, ind, cur) then m.vecs else m.vecs + [ind.bestPoint]
    ensures r.0.frame.ints == m.ints && r.0.frame.exec == m.exec && r.0.frame.code == m.code
    ensures r.0.frame.inputs == m.inputs
    ensures Improves(obj, ind, cur) ==> r.0.bestPoint == cur && r.0.bestValue == obj.error(cur)
    ensures !Improves(obj, ind, cur) ==> r.0.bestPoint == ind.bestPoint && r.0.bestValue == ind.bestValue
    ensures r.0.currentValue == if obj.inBounds(cur) then obj.error(cur) else ind.currentValue
    ensures r.1 == if obj.inBounds(cur) && Lt(obj.error(cur), popBest) then obj.error(cur) else popBest
  {
    if obj.inBounds(cur) then
      var cv := obj.error(cur);
      var pb := if Lt(cv, popBest) then cv else popBest;
      if Le(cv, ind.bestValue) then
        (Process(cur, cur, cv, cv, m.(floats := m.floats + [cv], bools := m.bools + [true])), pb)
      else
        (ind.(currentPoint := cur, currentValue := cv,
              frame := m.(floats := m.floats + [cv], bools := m.bools + [false], vecs := m.vecs + [ind.bestPoint])), pb)
    else
      (ind.(currentPoint := cur,
            frame := m.(floats := m.floats + [Fin(MAX)], bools := m.bools + [false], vecs := m.vecs + [ind.bestPoint])),
       popBest)
  }

  /** Writing `point` into cell `[p][m]` of a trajectory array, component by component;
      nothing is touched for an empty point. */
  function WriteCell(t: Traj, p: nat, m: nat, point: Vec): (r: Result<Traj>)
    ensures r.Err? <==> |point| > 0 && !(p < |t| && m < |t[p]| && |point| <= |t[p][m]|)
    ensures r.Ok? ==> CellHolds(r.value, p, m, point) && SameShape(r.value, t)
    ensures r.Ok? ==> forall q, n :: 0 <= q < |t| && 0 <= n < |t[q]| && (q, n) != (p, m) ==> r.value[q][n] == t[q][n]
  {
    if |point| == 0 then Ok(t)
    else if p < |t| && m < |t[p]| && |point| <= |t[p][m]| then
      var cell := point + t[p][m][|point|..];
      assert cell[..|point|] == point;
      Ok(t[p := t[p][m := cell]])
    else Err(IndexOutOfBounds)
  }

  /** The first components of cell `[p][m]` are `point`. */
  ghost predicate CellHolds(t: Traj, p: nat, m: nat, point: Vec) {
    |point| == 0 || (p < |t| && m < |t[p]| && |point| <= |t[p][m]| && t[p][m][..|point|] == point)
  }

  ghost predicate SameShape(a: Traj, b: Traj) {
    |a| == |b| &&
    (forall q :: 0 <= q < |a| ==> |a[q]| == |b[q]|) &&
    (forall q, n :: 0 <= q < |a| && 0 <= n < |a[q]| ==> |a[q][n]| == |b[q][n]|)
  }

  /** The trajectory write of a move, when the run records one. */
  function Record(t: Option<Traj>, p: nat, m: nat, point: Vec): (r: Result<Option<Traj>>)
    ensures t.None? ==> r == Ok(None)
    ensures t.Some? ==> (r.Err? <==> WriteCell(t.value, p, m, point).Err?)
    ensures t.Some? && r.Ok? ==> r.value == Some(WriteCell(t.value, p, m, point).value)
  {
    if t.None? then Ok(None)
    else
      var w := WriteCell(t.value, p, m, point);
      if w.Err? then Err(w.fault) else Ok(Some(w.value))
  }

  /** One iteration of the member loop of a move: publish the bounds, push the move number,
      the member index and the best member's index, run the program, take the top vector
      (if any) as the proposal, republish the bounds, apply the acceptance rule, push the
      member index on the input stack and record the proposal. */
  function MoveMember(obj: Objective, run: Runner, runIdx: nat, move: nat, best: int,
                      s: SwarmState, p: nat): (r: Result<SwarmState>)
    requires p < |s.members|
    ensures r.Ok? ==> |r.value.members| == |s.members|
    ensures r.Ok? ==> forall k :: 0 <= k < |s.members| && k != p ==> r.value.members[k] == s.members[k]
    ensures r.Ok? ==> NotWorse(r.value.members[p].bestValue, s.members[p].bestValue)
    ensures r.Ok? ==> r.value.popBest == s.popBest || Lt(r.value.popBest, s.popBest)
    ensures r.Ok? ==> (s.traj.None? <==> r.value.traj.None?)
    ensures r.Ok? && s.traj.Some? ==>
      CellHolds(r.value.traj.value, p, move, r.value.members[p].currentPoint) &&
      SameShape(r.value.traj.value, s.traj.value) &&
      forall q, n :: 0 <= q < |s.traj.value| && 0 <= n < |s.traj.value[q]| && (q, n) != (p, move) ==>
        r.value.traj.value[q][n] == s.traj.value[q][n]
  {
    var ind := s.members[p];
    var m0 := ind.frame.(inputs := BoundsInputs(obj), ints := ind.frame.ints + [move, p, best]);
    var m1 := run(runIdx, move, s.members, p, m0);
    var cur := if |m1.vecs| > 0 then Last(m1.vecs) else ind.currentPoint;
    var (next, pb) := Accept(obj, ind, m1.(inputs := BoundsInputs(obj)), cur, s.popBest);
    var moved := next.(frame := next.frame.(inputs := next.frame.inputs + [IntItem(p)]));
    var t := Record(s.traj, p, move, cur);
    if t.Err? then Err(t.fault)
    else Ok(SwarmState(s.members[p := moved], pb, t.value))
  }

  /** `a` is the same as `b` or below it: a personal best never gets worse. */
  predicate NotWorse(a: Flt, b: Flt) {
    a == b || Le(a, b)
  }

  lemma NotWorseTransitive(a: Flt, b: Flt, c: Flt)
    requires NotWorse(a, b) && NotWorse(b, c)
    ensures NotWorse(a, c)
  {
    if a != b && b != c {
      LeTransitive(a, b, c);
    }
  }

  /** A member whose personal best is NaN never improves: no error is `<=` NaN. */
  lemma NaNBestIsFinal(a: Flt, b: Flt)
    requires b.NaN? && NotWorse(a, b)
    ensures a.NaN?
  {
  }

  // ---------------------------------------------------------------------------------------
  // Invariants of a run

  /** Every personal best value is the error of the personal best point. */
  ghost predicate Consistent(obj: Objective, members: seq<Process>) {
    forall k :: 0 <= k < |members| ==> members[k].bestValue == obj.error(members[k].bestPoint)
  }

  /** `popBestValue` is a number no greater than `MAX` and no greater than any personal best
      that is a number. */
  ghost predicate PopBestBelow(members: seq<Process>, pb: Flt) {
    !pb.NaN? && Le(pb, Fin(MAX)) &&
    forall k :: 0 <= k < |members| && !members[k].bestValue.NaN? ==> Le(pb, members[k].bestValue)
  }

  /** `popBestValue` is still `MAX` or is some member's personal best. */
  ghost predicate Attained(members: seq<Process>, pb: Flt) {
    pb == Fin(MAX) || exists k :: 0 <= k < |members| && members[k].bestValue == pb
  }

  ghost predicate NoNaNBest(members: seq<Process>) {
    forall k :: 0 <= k < |members| ==> !members[k].bestValue.NaN?
  }

  /** The move of one member keeps every invariant. */
  lemma MoveMemberKeeps(obj: Objective, run: Runner, runIdx: nat, move: nat, best: int,
                        s: SwarmState, p: nat)
    requires p < |s.members|
    requires MoveMember(obj, run, runIdx, move, best, s, p).Ok?
    ensures var r := MoveMember(obj, run, runIdx, move, best, s, p).value;
      (Consistent(obj, s.members) ==> Consistent(obj, r.members)) &&
      (PopBestBelow(s.members, s.popBest) ==> PopBestBelow(r.members, r.popBest)) &&
      (NoNaNBest(s.members) ==> NoNaNBest(r.members)) &&
      (NoNaNBest(s.members) && PopBestBelow(s.members, s.popBest) && Attained(s.members, s.popBest) ==>
        Attained(r.members, r.popBest))
  {
    var r := MoveMember(obj, run, runIdx, move, best, s, p).value;
    var ind := s.members[p];
    var m0 := ind.frame.(inputs := BoundsInputs(obj), ints := ind.frame.ints + [move, p, best]);
    var m1 := run(runIdx, move, s.members, p, m0);
    var cur := if |m1.vecs| > 0 then Last(m1.vecs) else ind.currentPoint;
    var cv := obj.error(cur);
    var bv := ind.bestValue;
    var improved := Improves(obj, ind, cur);
    assert r.members[p].bestValue == if improved then cv else bv;
    assert r.members[p].bestPoint == if improved then cur else ind.bestPoint;
    assert r.popBest == if obj.inBounds(cur) && Lt(cv, s.popBest) then cv else s.popBest;
    if PopBestBelow(s.members, s.popBest) {
      var pb := s.popBest;
      if obj.inBounds(cur) && Lt(cv, pb) {
        LtLeTransitive(cv, pb, Fin(MAX));
        forall k | 0 <= k < |r.members| && !r.members[k].bestValue.NaN?
          ensures Le(cv, r.members[k].bestValue)
        {
          if k != p {
            LtLeTransitive(cv, pb, s.members[k].bestValue);
          } else if !improved {
            LtLeTransitive(cv, pb, bv);
          }
        }
      } else if improved {
        Trichotomy(cv, pb);
      }
    }
    if NoNaNBest(s.members) && PopBestBelow(s.members, s.popBest) && Attained(s.members, s.popBest) {
      if obj.inBounds(cur) && Lt(cv, s.popBest) {
        LtLeTransitive(cv, s.popBest, bv);
        assert r.members[p].bestValue == cv;
      } else {
        if s.popBest != Fin(MAX) {
          var k :| 0 <= k < |s.members| && s.members[k].bestValue == s.popBest;
          if k == p && improved {
            Trichotomy(cv, bv);
            assert r.members[p].bestValue == r.popBest;
          } else {
            assert r.members[k].bestValue == r.popBest;
          }
        }
      }
    }
  }

  /** The member loop of one move, from member `p` on. */
  function Sweep(obj: Objective, run: Runner, runIdx: nat, move: nat, best: int,
                 s: SwarmState, p: nat): (r: Result<SwarmState>)
    requires p <= |s.members|
    ensures r.Ok? ==> |r.value.members| == |s.members|
    ensures r.Ok? ==> (s.traj.None? <==> r.value.traj.None?)
    ensures r.Ok? ==> forall k :: 0 <= k < p ==> r.value.members[k] == s.members[k]
    ensures r.Ok? ==> forall k :: 0 <= k < |s.members| ==>
      NotWorse(r.value.members[k].bestValue, s.members[k].bestValue)
    ensures r.Ok? ==> NotWorse(r.value.popBest, s.popBest) || Lt(r.value.popBest, s.popBest)
    ensures r.Ok? && s.traj.Some? ==> forall q :: 0 <= q < p && CellHolds(s.traj.value, q, move, s.members[q].currentPoint) ==>
      CellHolds(r.value.traj.value, q, move, r.value.members[q].currentPoint)
    ensures r.Ok? && s.traj.Some? ==> forall q :: p <= q < |s.members| ==>
      CellHolds(r.value.traj.value, q, move, r.value.members[q].currentPoint)
    ensures r.Ok? && s.traj.Some? ==> KeepsOtherColumns(s.traj.value, r.value.traj.value, move, move + 1)
    decreases |s.members| - p
  {
    if p == |s.members| then Ok(s)
    else
      var next := MoveMember(obj, run, runIdx, move, best, s, p);
      if next.Err? then next
      else
        var r := Sweep(obj, run, runIdx, move, best, next.value, p + 1);
        if r.Ok? then
          SweepStep(obj, run, runIdx, move, best, s, p, next.value, r.value);
          if s.traj.Some? then
            SweepCellStep(s, p, move, next.value, r.value);
            KeepsOtherColumnsTransitive(s.traj.value, next.value.traj.value, r.value.traj.value, move, move + 1);
            r
          else r
        else r
  }

  /** `b` has the shape of `a` and the same cells outside columns `from` .. `to - 1`. */
  ghost predicate KeepsOtherColumns(a: Traj, b: Traj, from: nat, to: nat) {
    SameShape(b, a) &&
    forall q, n :: 0 <= q < |a| && 0 <= n < |a[q]| && !(from <= n < to) ==> b[q][n] == a[q][n]
  }

  lemma KeepsOtherColumnsTransitive(a: Traj, b: Traj, c: Traj, from: nat, to: nat)
    requires KeepsOtherColumns(a, b, from, to) && KeepsOtherColumns(b, c, from, to)
    ensures KeepsOtherColumns(a, c, from, to)
  {
  }

  lemma KeepsOtherColumnsWiden(a: Traj, b: Traj, from: nat, to: nat, from': nat, to': nat)
    requires KeepsOtherColumns(a, b, from, to) && from' <= from && to <= to'
    ensures KeepsOtherColumns(a, b, from', to')
  {
  }

  /** The contract of `Sweep` at `p` from the move of member `p` and the contract at `p + 1`. */
  lemma SweepStep(obj: Objective, run: Runner, runIdx: nat, move: nat, best: int,
                  s: SwarmState, p: nat, next: SwarmState, r: SwarmState)
    requires p < |s.members|
    requires MoveMember(obj, run, runIdx, move, best, s, p) == Ok(next)
    requires |r.members| == |next.members|
    requires forall k :: 0 <= k < |next.members| ==> NotWorse(r.members[k].bestValue, next.members[k].bestValue)
    requires NotWorse(r.popBest, next.popBest) || Lt(r.popBest, next.popBest)
    ensures forall k :: 0 <= k < |s.members| ==> NotWorse(r.members[k].bestValue, s.members[k].bestValue)
    ensures NotWorse(r.popBest, s.popBest) || Lt(r.popBest, s.popBest)
  {
    forall k | 0 <= k < |s.members|
      ensures NotWorse(r.members[k].bestValue, s.members[k].bestValue)
    {
      if k != p {
        assert next.members[k] == s.members[k];
      } else {
        NotWorseTransitive(r.members[k].bestValue, next.members[k].bestValue, s.members[k].bestValue);
      }
    }
    PopBestStep(r.popBest, next.popBest, s.popBest);
  }

  /** The trajectory part of `Sweep`'s contract at `p`, from the move of member `p` (which
      writes only cell `[p][move]`) and the contract at `p + 1`. */
  lemma SweepCellStep(s: SwarmState, p: nat, move: nat, next: SwarmState, r: SwarmState)
    requires p < |s.members| == |next.members| == |r.members|
    requires forall k :: 0 <= k < |s.members| && k != p ==> next.members[k] == s.members[k]
    requires s.traj.Some? && next.traj.Some? && r.traj.Some?
    requires CellHolds(next.traj.value, p, move, next.members[p].currentPoint)
    requires SameShape(next.traj.value, s.traj.value)
    requires forall a, n :: 0 <= a < |s.traj.value| && 0 <= n < |s.traj.value[a]| && (a, n) != (p, move) ==>
      next.traj.value[a][n] == s.traj.value[a][n]
    requires forall q :: 0 <= q < p + 1 && CellHolds(next.traj.value, q, move, next.members[q].currentPoint) ==>
      CellHolds(r.traj.value, q, move, r.members[q].currentPoint)
    requires forall q :: p + 1 <= q < |s.members| ==> CellHolds(r.traj.value, q, move, r.members[q].currentPoint)
    ensures forall q :: 0 <= q < p && CellHolds(s.traj.value, q, move, s.members[q].currentPoint) ==>
      CellHolds(r.traj.value, q, move, r.members[q].currentPoint)
    ensures forall q :: p <= q < |s.members| ==> CellHolds(r.traj.value, q, move, r.members[q].currentPoint)
  {
    forall q | 0 <= q < p && CellHolds(s.traj.value, q, move, s.members[q].currentPoint)
      ensures CellHolds(r.traj.value, q, move, r.members[q].currentPoint)
    {
      CellKept(s.traj.value, next.traj.value, q, p, move, s.members[q].currentPoint);
    }
  }

  /** A write into the cell of another member leaves cell `[q][m]` as it was. */
  lemma CellKept(t: Traj, t': Traj, q: nat, p: nat, m: nat, v: Vec)
    requires q != p && SameShape(t', t)
    requires forall a, n :: 0 <= a < |t| && 0 <= n < |t[a]| && (a, n) != (p, m) ==> t'[a][n] == t[a][n]
    requires CellHolds(t, q, m, v)
    ensures CellHolds(t', q, m, v)
  {
    if |v| > 0 {
      assert t'[q][m] == t[q][m];
    }
  }

  /** Combining two steps of `popBestValue`, each unchanged or lower. */
  lemma PopBestStep(a: Flt, b: Flt, c: Flt)
    requires NotWorse(a, b) || Lt(a, b)
    requires NotWorse(b, c) || Lt(b, c)
    ensures NotWorse(a, c) || Lt(a, c)
  {
    if a != b && b != c {
      if Lt(a, b) {
        if Lt(b, c) { LtTransitive(a, b, c); } else { LtLeTransitive(a, b, c); }
      } else if Lt(b, c) {
        LeLtTransitive(a, b, c);
      } else {
        LeTransitive(a, b, c);
      }
    }
  }

  /** The invariants survive a sweep. */
  lemma {:induction false} SweepKeeps(obj: Objective, run: Runner, runIdx: nat, move: nat, best: int,
                                      s: SwarmState, p: nat)
    requires p <= |s.members|
    requires Sweep(obj, run, runIdx, move, best, s, p).Ok?
    ensures var r := Sweep(obj, run, runIdx, move, best, s, p).value;
      (Consistent(obj, s.members) ==> Consistent(obj, r.members)) &&
      (PopBestBelow(s.members, s.popBest) ==> PopBestBelow(r.members, r.popBest)) &&
      (NoNaNBest(s.members) ==> NoNaNBest(r.members)) &&
      (NoNaNBest(s.members) && PopBestBelow(s.members, s.popBest) && Attained(s.members, s.popBest) ==>
        Attained(r.members, r.popBest))
    decreases |s.members| - p
  {
    if p < |s.members| {
      MoveMemberKeeps(obj, run, runIdx, move, best, s, p);
      SweepKeeps(obj, run, runIdx, move, best, MoveMember(obj, run, runIdx, move, best, s, p).value, p + 1);
    }
  }

  /** The move loop from move `move` on: each move starts with `getBest()`. */
  function Moves(obj: Objective, run: Runner, runIdx: nat, s: SwarmState, move: nat, moves: nat): (r: Result<SwarmState>)
    requires |s.members| <= MAX_INT
    ensures r.Ok? ==> |r.value.members| == |s.members|
    ensures r.Ok? ==> (s.traj.None? <==> r.value.traj.None?)
    ensures r.Ok? ==> forall k :: 0 <= k < |s.members| ==>
      NotWorse(r.value.members[k].bestValue, s.members[k].bestValue)
    ensures r.Ok? ==> NotWorse(r.value.popBest, s.popBest) || Lt(r.value.popBest, s.popBest)
    ensures r.Ok? && r.value.traj.Some? && move < moves ==> forall q :: 0 <= q < |s.members| ==>
      CellHolds(r.value.traj.value, q, moves - 1, r.value.members[q].currentPoint)
    ensures r.Ok? && s.traj.Some? ==> KeepsOtherColumns(s.traj.value, r.value.traj.value, move, moves)
    decreases moves - move
  {
    if move >= moves then Ok(s)
    else
      var best := BestIndex(s.members);
      var swept := Sweep(obj, run, runIdx, move, best, s, 0);
      if swept.Err? then swept
      else
        var r := Moves(obj, run, runIdx, swept.value, move + 1, moves);
        if r.Ok? then
          MovesStep(s, move, moves, swept.value, r.value);
          if s.traj.Some? then
            KeepsOtherColumnsWiden(s.traj.value, swept.value.traj.value, move, move + 1, move, moves);
            KeepsOtherColumnsWiden(swept.value.traj.value, r.value.traj.value, move + 1, moves, move, moves);
            KeepsOtherColumnsTransitive(s.traj.value, swept.value.traj.value, r.value.traj.value, move, moves);
            r
          else r
        else r
  }

  /** The contract of `Moves` at `move` from the sweep of that move and the contract at
      `move + 1`. */
  lemma MovesStep(s: SwarmState, move: nat, moves: nat, swept: SwarmState, r: SwarmState)
    requires move < moves
    requires |swept.members| == |s.members|
    requires forall k :: 0 <= k < |s.members| ==>
      NotWorse(swept.members[k].bestValue, s.members[k].bestValue)
    requires NotWorse(swept.popBest, s.popBest) || Lt(swept.popBest, s.popBest)
    requires swept.traj.Some? ==> forall q :: 0 <= q < |s.members| ==>
      CellHolds(swept.traj.value, q, move, swept.members[q].currentPoint)
    requires |r.members| == |swept.members| && (swept.traj.None? <==> r.traj.None?)
    requires forall k :: 0 <= k < |swept.members| ==>
      NotWorse(r.members[k].bestValue, swept.members[k].bestValue)
    requires NotWorse(r.popBest, swept.popBest) || Lt(r.popBest, swept.popBest)
    requires move + 1 >= moves ==> r == swept
    requires r.traj.Some? && move + 1 < moves ==> forall q :: 0 <= q < |swept.members| ==>
      CellHolds(r.traj.value, q, moves - 1, r.members[q].currentPoint)
    ensures forall k :: 0 <= k < |s.members| ==> NotWorse(r.members[k].bestValue, s.members[k].bestValue)
    ensures NotWorse(r.popBest, s.popBest) || Lt(r.popBest, s.popBest)
    ensures r.traj.Some? ==> forall q :: 0 <= q < |s.members| ==>
      CellHolds(r.traj.value, q, moves - 1, r.members[q].currentPoint)
  {
    NotWorseChain(s.members, swept.members, r.members);
    PopBestStep(r.popBest, swept.popBest, s.popBest);
  }

  /** The swarm after moves `move` .. `k`. */
  function StateAfter(obj: Objective, run: Runner, runIdx: nat, s: SwarmState, move: nat, k: nat): Result<SwarmState>
    requires |s.members| <= MAX_INT
  {
    Moves(obj, run, runIdx, s, move, k + 1)
  }

  /** With a trajectory array, column `k` ends up holding every member's current point
      after move `k`, for every move of the loop. */
  lemma {:induction false} MovesTrajectory(obj: Objective, run: Runner, runIdx: nat, s: SwarmState,
                                           move: nat, moves: nat)
    requires |s.members| <= MAX_INT && s.traj.Some?
    requires Moves(obj, run, runIdx, s, move, moves).Ok?
    ensures var r := Moves(obj, run, runIdx, s, move, moves).value;
      forall k :: move <= k < moves ==>
        StateAfter(obj, run, runIdx, s, move, k).Ok? &&
        forall q :: 0 <= q < |s.members| ==>
          CellHolds(r.traj.value, q, k, StateAfter(obj, run, runIdx, s, move, k).value.members[q].currentPoint)
    decreases moves - move
  {
    if move < moves {
      var swept := Sweep(obj, run, runIdx, move, BestIndex(s.members), s, 0).value;
      var r := Moves(obj, run, runIdx, s, move, moves).value;
      assert r == Moves(obj, run, runIdx, swept, move + 1, moves).value;
      MovesTrajectory(obj, run, runIdx, swept, move + 1, moves);
      forall k | move <= k < moves
        ensures StateAfter(obj, run, runIdx, s, move, k).Ok? &&
          forall q :: 0 <= q < |s.members| ==>
            CellHolds(r.traj.value, q, k, StateAfter(obj, run, runIdx, s, move, k).value.members[q].currentPoint)
      {
        assert StateAfter(obj, run, runIdx, s, move, k) == StateAfter(obj, run, runIdx, swept, move + 1, k);
        if k == move {
          assert StateAfter(obj, run, runIdx, s, move, k) == Ok(swept);
          forall q | 0 <= q < |s.members|
            ensures CellHolds(r.traj.value, q, k, swept.members[q].currentPoint)
          {
            ColumnKept(swept.traj.value, r.traj.value, q, k, k + 1, moves, swept.members[q].currentPoint);
          }
        }
      }
    }
  }

  /** A cell outside the columns a later stretch of moves writes keeps what it holds. */
  lemma ColumnKept(a: Traj, b: Traj, q: nat, k: nat, from: nat, to: nat, v: Vec)
    requires KeepsOtherColumns(a, b, from, to) && !(from <= k < to)
    requires CellHolds(a, q, k, v)
    ensures CellHolds(b, q, k, v)
  {
    if |v| > 0 {
      assert b[q][k] == a[q][k];
    }
  }

  lemma NotWorseChain(a: seq<Process>, b: seq<Process>, c: seq<Process>)
    requires |a| == |b| == |c|
    requires forall k :: 0 <= k < |a| ==> NotWorse(b[k].bestValue, a[k].bestValue)
    requires forall k :: 0 <= k < |b| ==> NotWorse(c[k].bestValue, b[k].bestValue)
    ensures forall k :: 0 <= k < |a| ==> NotWorse(c[k].bestValue, a[k].bestValue)
  {
    forall k | 0 <= k < |a|
      ensures NotWorse(c[k].bestValue, a[k].bestValue)
    {
      NotWorseTransitive(c[k].bestValue, b[k].bestValue, a[k].bestValue);
    }
  }

  lemma {:induction false} MovesKeep(obj: Objective, run: Runner, runIdx: nat, s: SwarmState, move: nat, moves: nat)
    requires |s.members| <= MAX_INT
    requires Moves(obj, run, runIdx, s, move, moves).Ok?
    ensures var r := Moves(obj, run, runIdx, s, move, moves).value;
      (Consistent(obj, s.members) ==> Consistent(obj, r.members)) &&
      (PopBestBelow(s.members, s.popBest) ==> PopBestBelow(r.members, r.popBest)) &&
      (NoNaNBest(s.members) ==> NoNaNBest(r.members)) &&
      (NoNaNBest(s.members) && PopBestBelow(s.members, s.popBest) && Attained(s.members, s.popBest) ==>
        Attained(r.members, r.popBest))
    decreases moves - move
  {
    if move < moves {
      var best := BestIndex(s.members);
      SweepKeeps(obj, run, runIdx, move, best, s, 0);
      MovesKeep(obj, run, runIdx, Sweep(obj, run, runIdx, move, best, s, 0).value, move + 1, moves);
    }
  }

  // ---------------------------------------------------------------------------------------
  // Starting a run

  /** A member's starting stacks: the frame the interpreter gives it with the start point,
      its error and `true` pushed. */
  function StartFrame(frame0: Machine, point: Vec, value: Flt): Machine {
    frame0.(vecs := frame0.vecs + [point], floats := frame0.floats + [value], bools := frame0.bools + [true])
  }

  /** The members created from the start points; the error of a start point is taken
      without a bounds test. */
  function StartMembers(obj: Objective, frame0: Machine, points: seq<Vec>): (ms: seq<Process>)
    ensures |ms| == |points|
    ensures Consistent(obj, ms) && (forall k :: 0 <= k < |ms| ==> ms[k].currentPoint == points[k])
  {
    seq(|points|, i requires 0 <= i < |points| =>
      NewProcess(points[i], obj.error(points[i]), StartFrame(frame0, points[i], obj.error(points[i]))))
  }

  /** `popBestValue` after the start loop: `MAX` lowered by every start error below it. */
  function StartBest(values: seq<Flt>): Flt {
    if |values| == 0 then Fin(MAX)
    else
      var prev := StartBest(DropLast(values));
      if Lt(Last(values), prev) then Last(values) else prev
  }

  /** The start loop leaves `popBestValue` a number no greater than `MAX` or any start
      error, and equal to `MAX` or to some start error. */
  lemma {:induction false} StartBestBounds(values: seq<Flt>)
    ensures !StartBest(values).NaN? && Le(StartBest(values), Fin(MAX))
    ensures forall k :: 0 <= k < |values| && !values[k].NaN? ==> Le(StartBest(values), values[k])
    ensures StartBest(values) == Fin(MAX) || exists k :: 0 <= k < |values| && values[k] == StartBest(values)
  {
    if |values| > 0 {
      var init := DropLast(values);
      StartBestBounds(init);
      var prev := StartBest(init);
      var v := Last(values);
      assert forall k :: 0 <= k < |init| ==> init[k] == values[k];
      if Lt(v, prev) {
        forall k | 0 <= k < |init| && !init[k].NaN?
          ensures Le(v, values[k])
        {
          LtLeTransitive(v, prev, init[k]);
        }
        LtLeTransitive(v, prev, Fin(MAX));
        assert values[|init|] == v;
      } else {
        Trichotomy(v, prev);
        if prev != Fin(MAX) {
          var k :| 0 <= k < |init| && init[k] == prev;
          assert values[k] == prev;
        }
      }
    }
  }

  /** The start errors, which are the members' personal bests. */
  function StartValues(obj: Objective, points: seq<Vec>): (vs: seq<Flt>)
    ensures |vs| == |points|
  {
    seq(|points|, i requires 0 <= i < |points| => obj.error(points[i]))
  }

  /** A NaN personal best stays NaN, so a swarm without one started without one. */
  lemma NaNBestsPersist(before: seq<Process>, after: seq<Process>)
    requires |before| == |after|
    requires forall k :: 0 <= k < |before| ==> NotWorse(after[k].bestValue, before[k].bestValue)
    ensures NoNaNBest(after) ==> NoNaNBest(before)
  {
    if NoNaNBest(after) {
      forall k | 0 <= k < |before|
        ensures !before[k].bestValue.NaN?
      {
        if before[k].bestValue.NaN? {
          NaNBestIsFinal(after[k].bestValue, before[k].bestValue);
        }
      }
    }
  }

  /** A trajectory array of zeros. */
  function Zeros(popSize: nat, moves: nat, dims: nat): (t: Traj)
    ensures |t| == popSize
    ensures forall q :: 0 <= q < popSize ==> |t[q]| == moves
    ensures forall q, n :: 0 <= q < popSize && 0 <= n < moves ==> |t[q][n]| == dims
  {
    seq(popSize, _ => seq(moves, _ => seq(dims, _ => Fin(0.0))))
  }

  /** The start loop's trajectory writes: member `i`'s start point into cell `[i][0]`. It
      fails when some start point does not fit its cell; otherwise cell `[q][0]` holds
      start point `q` and every other cell is untouched. */
  function WriteStarts(t: Traj, points: seq<Vec>, i: nat): (r: Result<Traj>)
    requires i <= |points|
    ensures r.Ok? <==> forall q :: i <= q < |points| ==> StartFits(t, points, q)
    ensures r.Ok? ==> SameShape(r.value, t)
    ensures r.Ok? ==> forall q :: i <= q < |points| ==> CellHolds(r.value, q, 0, points[q])
    ensures r.Ok? ==> forall q, n :: 0 <= q < |t| && 0 <= n < |t[q]| && !(i <= q < |points| && n == 0) ==>
      r.value[q][n] == t[q][n]
    decreases |points| - i
  {
    if i == |points| then Ok(t)
    else
      var w := WriteCell(t, i, 0, points[i]);
      if w.Err? then
        assert !StartFits(t, points, i);
        w
      else
        var r := WriteStarts(w.value, points, i + 1);
        WriteStartsStep(t, points, i, w.value, r);
        r
  }

  /** Start point `q` fits cell `[q][0]`. */
  predicate StartFits(t: Traj, points: seq<Vec>, q: nat)
    requires q < |points|
  {
    |points[q]| == 0 || (q < |t| && 0 < |t[q]| && |points[q]| <= |t[q][0]|)
  }

  /** The contract of `WriteStarts` at `i` from the write of cell `[i][0]` and the contract
      at `i + 1`. */
  lemma WriteStartsStep(t: Traj, points: seq<Vec>, i: nat, w: Traj, r: Result<Traj>)
    requires i < |points|
    requires WriteCell(t, i, 0, points[i]) == Ok(w)
    requires r.Ok? <==> forall q :: i + 1 <= q < |points| ==> StartFits(w, points, q)
    requires r.Ok? ==> SameShape(r.value, w)
    requires r.Ok? ==> forall q :: i + 1 <= q < |points| ==> CellHolds(r.value, q, 0, points[q])
    requires r.Ok? ==> forall q, n :: 0 <= q < |w| && 0 <= n < |w[q]| && !(i + 1 <= q < |points| && n == 0) ==>
      r.value[q][n] == w[q][n]
    ensures r.Ok? <==> forall q :: i <= q < |points| ==> StartFits(t, points, q)
    ensures r.Ok? ==> SameShape(r.value, t)
    ensures r.Ok? ==> forall q :: i <= q < |points| ==> CellHolds(r.value, q, 0, points[q])
    ensures r.Ok? ==> forall q, n :: 0 <= q < |t| && 0 <= n < |t[q]| && !(i <= q < |points| && n == 0) ==>
      r.value[q][n] == t[q][n]
  {
    assert forall q :: i <= q < |points| ==> (StartFits(w, points, q) <==> StartFits(t, points, q));
    assert StartFits(t, points, i);
    if r.Ok? && |points[i]| > 0 {
      assert r.value[i][0] == w[i][0];
    }
  }

  /** One run (`run` of `evaluate`'s outer loop) with the given start points: a fresh swarm,
      a trajectory array of `popSize` rows when `record` holds it, and `moves` moves. */
  function RunOnce(obj: Objective, run: Runner, runIdx: nat, frame0: Machine, points: seq<Vec>,
                   moves: nat, record: Option<nat>): (r: Result<SwarmState>)
    requires |points| <= MAX_INT
    ensures r.Ok? ==> |r.value.members| == |points|
    ensures r.Ok? ==> Consistent(obj, r.value.members)
    ensures r.Ok? ==> PopBestBelow(r.value.members, r.value.popBest)
    ensures r.Ok? && NoNaNBest(r.value.members) ==> Attained(r.value.members, r.value.popBest)
    ensures r.Ok? ==> (record.None? <==> r.value.traj.None?)
  {
    var start := StartSwarm(obj, frame0, points, moves, record);
    if start.Err? then start
    else
      var s := start.value;
      var ms := s.members;
      var pb := s.popBest;
      StartBestBounds(StartValues(obj, points));
      assert forall k :: 0 <= k < |ms| ==> ms[k].bestValue == StartValues(obj, points)[k];
      assert PopBestBelow(ms, pb) && Attained(ms, pb);
      var r := Moves(obj, run, runIdx, s, 0, moves);
      if r.Ok? then
        MovesKeep(obj, run, runIdx, s, 0, moves);
        NaNBestsPersist(ms, r.value.members);
        r
      else r
  }

  /** The swarm a run starts from: the members created from the start points, the start
      loop's `popBestValue`, and, when the run records, a `popSize` x `moves` x `dims` array
      of zeros with each start point written into cell `[i][0]`. The writes fail when a
      non-empty start point has no cell to go to. */
  function StartSwarm(obj: Objective, frame0: Machine, points: seq<Vec>, moves: nat,
                      record: Option<nat>): (r: Result<SwarmState>)
    ensures r.Ok? <==> (record.None? ||
      forall q :: 0 <= q < |points| ==> |points[q]| == 0 || (q < record.value && moves > 0 && |points[q]| <= obj.dims))
    ensures r.Ok? ==> r.value.members == StartMembers(obj, frame0, points)
    ensures r.Ok? ==> r.value.popBest == StartBest(StartValues(obj, points))
    ensures r.Ok? ==> (record.None? <==> r.value.traj.None?)
    ensures r.Ok? && record.Some? ==>
      SameShape(r.value.traj.value, Zeros(record.value, moves, obj.dims)) &&
      forall q :: 0 <= q < |points| ==> CellHolds(r.value.traj.value, q, 0, points[q])
  {
    var ms := StartMembers(obj, frame0, points);
    var pb := StartBest(StartValues(obj, points));
    if record.None? then Ok(SwarmState(ms, pb, None))
    else
      var zeros := Zeros(record.value, moves, obj.dims);
      assert forall q :: 0 <= q < |points| ==>
        (StartFits(zeros, points, q) <==> |points[q]| == 0 || (q < record.value && moves > 0 && |points[q]| <= obj.dims));
      var w := WriteStarts(zeros, points, 0);
      if w.Err? then Err(w.fault) else Ok(SwarmState(ms, pb, Some(w.value)))
  }

  /** With a trajectory array, column `k` of a run's array holds every member's current
      point after move `k` of that run, and the array keeps its allocated shape. */
  lemma RunTrajectory(obj: Objective, run: Runner, runIdx: nat, frame0: Machine, points: seq<Vec>,
                      moves: nat, record: Option<nat>)
    requires |points| <= MAX_INT && record.Some?
    requires RunOnce(obj, run, runIdx, frame0, points, moves, record).Ok?
    ensures StartSwarm(obj, frame0, points, moves, record).Ok?
    ensures var s0 := StartSwarm(obj, frame0, points, moves, record).value;
      var r := RunOnce(obj, run, runIdx, frame0, points, moves, record).value;
      SameShape(r.traj.value, Zeros(record.value, moves, obj.dims)) &&
      forall k :: 0 <= k < moves ==>
        StateAfter(obj, run, runIdx, s0, 0, k).Ok? &&
        forall q :: 0 <= q < |points| ==>
          CellHolds(r.traj.value, q, k, StateAfter(obj, run, runIdx, s0, 0, k).value.members[q].currentPoint)
  {
    var s0 := StartSwarm(obj, frame0, points, moves, record).value;
    assert RunOnce(obj, run, runIdx, frame0, points, moves, record) == Moves(obj, run, runIdx, s0, 0, moves);
    MovesTrajectory(obj, run, runIdx, s0, 0, moves);
  }

  // ---------------------------------------------------------------------------------------
  // Runs, problems and fitness

  /** What a run contributes to its problem: its final `popBestValue` and its trajectory array. */
  function RunResult(obj: Objective, run: Runner, runIdx: nat, frame0: Machine, points: seq<Vec>,
                     moves: nat, record: Option<nat>): (r: Result<(Flt, Option<Traj>)>)
    requires |points| <= MAX_INT
    ensures r.Ok? ==> !r.value.0.NaN? && Le(r.value.0, Fin(MAX))
    ensures r.Ok? ==> (record.None? <==> r.value.1.None?)
    ensures r.Ok? <==> RunOnce(obj, run, runIdx, frame0, points, moves, record).Ok?
    ensures r.Ok? ==> r.value.0 == RunOnce(obj, run, runIdx, frame0, points, moves, record).value.popBest
  {
    var one := RunOnce(obj, run, runIdx, frame0, points, moves, record);
    if one.Err? then Err(one.fault) else Ok((one.value.popBest, one.value.traj))
  }

  /** A run's final `popBestValue`: a number no greater than `MAX`. */
  predicate RunScore(x: Flt) {
    !x.NaN? && Le(x, Fin(MAX))
  }

  /** Only run 0 records a trajectory. */
  function RecordFor(k: nat, record: Option<nat>): Option<nat> {
    if k == 0 then record else None
  }

  /** The final `popBestValue` of run `k` of a problem; NaN for a run that fails, which
      ends the problem before any mean is taken. */
  function FinalBest(obj: Objective, run: Runner, frame0: Machine, starts: seq<seq<Vec>>, moves: nat,
                     record: Option<nat>, k: nat): Flt
    requires k < |starts| && |starts[k]| <= MAX_INT
  {
    var one := RunOnce(obj, run, k, frame0, starts[k], moves, RecordFor(k, record));
    if one.Ok? then one.value.popBest else NaN
  }

  /** The outcome of every run of one problem; only run 0 records a trajectory. */
  function RunResults(obj: Objective, run: Runner, frame0: Machine, starts: seq<seq<Vec>>, moves: nat,
                      record: Option<nat>): (rs: seq<Result<(Flt, Option<Traj>)>>)
    requires forall i :: 0 <= i < |starts| ==> |starts[i]| <= MAX_INT
    ensures |rs| == |starts|
    ensures forall k :: 0 <= k < |rs| && rs[k].Ok? ==> RunScore(rs[k].value.0)
    ensures |rs| > 0 && rs[0].Ok? ==> (record.None? <==> rs[0].value.1.None?)
  {
    seq(|starts|, k requires 0 <= k < |starts| =>
      RunResult(obj, run, k, frame0, starts[k], moves, RecordFor(k, record)))
  }

  /** The runs taken in order from run `k` on: the first failing run ends the problem,
      otherwise the final `popBestValue` of each run and the trajectory array of run 0. */
  function Runs(rs: seq<Result<(Flt, Option<Traj>)>>, k: nat): (r: Result<(seq<Flt>, Option<Traj>)>)
    requires k <= |rs|
    requires forall j :: 0 <= j < |rs| && rs[j].Ok? ==> RunScore(rs[j].value.0)
    ensures r.Ok? ==> |r.value.0| == |rs| - k
    ensures r.Ok? ==> forall i :: 0 <= i < |r.value.0| ==> RunScore(r.value.0[i])
    ensures r.Ok? && k == 0 && |rs| > 0 ==> rs[0].Ok? && r.value.1 == rs[0].value.1
    decreases |rs| - k
  {
    if k == |rs| then Ok(([], None))
    else if rs[k].Err? then Err(rs[k].fault)
    else
      var rest := Runs(rs, k + 1);
      if rest.Err? then rest
      else Ok(([rs[k].value.0] + rest.value.0, if k == 0 then rs[k].value.1 else None))
  }

  /** Run result k succeeds exactly when run k does, and then holds its final
      `popBestValue`; run 0's result holds its trajectory array. */
  lemma RunResultsAreRuns(obj: Objective, run: Runner, frame0: Machine, starts: seq<seq<Vec>>, moves: nat,
                          record: Option<nat>)
    requires forall i :: 0 <= i < |starts| ==> |starts[i]| <= MAX_INT
    ensures var rs := RunResults(obj, run, frame0, starts, moves, record);
      (forall k :: 0 <= k < |rs| ==>
        (rs[k].Ok? <==> RunOnce(obj, run, k, frame0, starts[k], moves, RecordFor(k, record)).Ok?) &&
        (rs[k].Ok? ==> rs[k].value.0 == FinalBest(obj, run, frame0, starts, moves, record, k))) &&
      (|rs| > 0 && rs[0].Ok? ==> rs[0].value.1 == RunOnce(obj, run, 0, frame0, starts[0], moves, record).value.traj)
  {
  }

  /** `Runs` succeeds exactly when every run from `k` on does; its scores are then the runs'
      scores in order, and otherwise its fault is that of the first failing run. */
  lemma {:induction false} RunsInOrder(rs: seq<Result<(Flt, Option<Traj>)>>, k: nat)
    requires k <= |rs|
    requires forall j :: 0 <= j < |rs| && rs[j].Ok? ==> RunScore(rs[j].value.0)
    ensures var r := Runs(rs, k);
      (r.Ok? <==> forall j :: k <= j < |rs| ==> rs[j].Ok?) &&
      (r.Ok? ==> forall j :: k <= j < |rs| ==> r.value.0[j - k] == rs[j].value.0) &&
      (r.Ok? && k > 0 ==> r.value.1.None?) &&
      (r.Err? ==> exists j :: k <= j < |rs| && rs[j] == Err(r.fault) && forall i :: k <= i < j ==> rs[i].Ok?)
    decreases |rs| - k
  {
    if k < |rs| && rs[k].Ok? {
      RunsInOrder(rs, k + 1);
      var r := Runs(rs, k);
      var rest := Runs(rs, k + 1);
      if rest.Err? {
        var j :| k + 1 <= j < |rs| && rs[j] == Err(rest.fault) && forall i :: k + 1 <= i < j ==> rs[i].Ok?;
        assert rs[j] == Err(r.fault) && forall i :: k <= i < j ==> rs[i].Ok?;
      } else {
        assert r.value.0 == [rs[k].value.0] + rest.value.0;
        forall j | k <= j < |rs|
          ensures r.value.0[j - k] == rs[j].value.0
        {
          if j > k {
            assert r.value.0[j - k] == rest.value.0[j - (k + 1)];
          }
        }
      }
    }
  }

  /** `evaluate(problem)`: the mean over runs of the final `popBestValue`, and the first
      run's trajectory array when trajectories are recorded. */
  function EvaluateProblem(obj: Objective, run: Runner, frame0: Machine, starts: seq<seq<Vec>>,
                           moves: nat, record: Option<nat>): (r: Result<(Flt, Option<Traj>)>)
    requires forall i :: 0 <= i < |starts| ==> |starts[i]| <= MAX_INT
    ensures r.Ok? && |starts| == 0 ==> r.value.0.NaN?
  {
    var rs := Runs(RunResults(obj, run, frame0, starts, moves, record), 0);
    if rs.Err? then Err(rs.fault) else Ok((Mean(rs.value.0), rs.value.1))
  }

  /** A problem's error is the float mean of the runs' final `popBestValue`, in run order,
      and its trajectory array is run 0's. */
  lemma ProblemErrorIsMeanOfRuns(obj: Objective, run: Runner, frame0: Machine, starts: seq<seq<Vec>>,
                                 moves: nat, record: Option<nat>)
    requires forall i :: 0 <= i < |starts| ==> |starts[i]| <= MAX_INT
    ensures var r := EvaluateProblem(obj, run, frame0, starts, moves, record);
      (r.Ok? ==>
        r.value.0 == Mean(seq(|starts|, k requires 0 <= k < |starts| => FinalBest(obj, run, frame0, starts, moves, record, k)))) &&
      (r.Ok? && |starts| > 0 ==> r.value.1 == RunOnce(obj, run, 0, frame0, starts[0], moves, record).value.traj)
  {
    var results := RunResults(obj, run, frame0, starts, moves, record);
    var finals := seq(|starts|, k requires 0 <= k < |starts| => FinalBest(obj, run, frame0, starts, moves, record, k));
    RunResultsAreRuns(obj, run, frame0, starts, moves, record);
    assert forall j :: 0 <= j < |results| && results[j].Ok? ==> results[j].value.0 == finals[j];
    RunsAreScores(results, finals);
  }

  /** A problem's error exists exactly when every one of its runs succeeds. */
  lemma ProblemFailsWithARun(obj: Objective, run: Runner, frame0: Machine, starts: seq<seq<Vec>>,
                             moves: nat, record: Option<nat>)
    requires forall i :: 0 <= i < |starts| ==> |starts[i]| <= MAX_INT
    ensures EvaluateProblem(obj, run, frame0, starts, moves, record).Ok? <==>
      forall k :: 0 <= k < |starts| ==> RunOnce(obj, run, k, frame0, starts[k], moves, RecordFor(k, record)).Ok?
  {
    var results := RunResults(obj, run, frame0, starts, moves, record);
    RunResultsAreRuns(obj, run, frame0, starts, moves, record);
    RunsInOrder(results, 0);
  }

  /** When every successful result holds the matching score, a successful `Runs` from 0
      lists exactly those scores. */
  lemma RunsAreScores(rs: seq<Result<(Flt, Option<Traj>)>>, finals: seq<Flt>)
    requires forall j :: 0 <= j < |rs| && rs[j].Ok? ==> RunScore(rs[j].value.0)
    requires |finals| == |rs| && forall j :: 0 <= j < |rs| && rs[j].Ok? ==> rs[j].value.0 == finals[j]
    ensures Runs(rs, 0).Ok? <==> forall j :: 0 <= j < |rs| ==> rs[j].Ok?
    ensures Runs(rs, 0).Ok? ==> Runs(rs, 0).value.0 == finals
  {
    RunsInOrder(rs, 0);
    if Runs(rs, 0).Ok? {
      var scores := Runs(rs, 0).value.0;
      forall j | 0 <= j < |rs|
        ensures scores[j] == finals[j]
      {
        assert scores[j - 0] == rs[j].value.0;
      }
    }
  }

  /** Every run ends with a number no greater than `MAX`; when the run results are finite,
      at least `lo`, and no partial sum overflows, the problem's error lies between `lo` and
      `MAX`. */
  lemma ProblemErrorBounds(results: seq<real>, lo: real)
    requires |results| > 0 && -MAX <= lo <= MAX
    requires Bounded(results, lo, MAX) && PartialSumsFinite(results)
    ensures Mean(Fins(results)).Fin? && lo <= Mean(Fins(results)).v <= MAX
  {
    MeanWithinBounds(results, lo, MAX);
  }

  /** When every run's final `popBestValue` is a finite value of at least `lo` and no partial
      sum overflows, the problem's error lies between `lo` and `MAX`. */
  lemma ProblemErrorInRange(obj: Objective, run: Runner, frame0: Machine, starts: seq<seq<Vec>>,
                            moves: nat, record: Option<nat>, results: seq<real>, lo: real)
    requires forall i :: 0 <= i < |starts| ==> |starts[i]| <= MAX_INT
    requires EvaluateProblem(obj, run, frame0, starts, moves, record).Ok?
    requires |results| == |starts| > 0 && -MAX <= lo <= MAX
    requires forall k :: 0 <= k < |starts| ==> FinalBest(obj, run, frame0, starts, moves, record, k) == Fin(results[k])
    requires Bounded(results, lo, MAX) && PartialSumsFinite(results)
    ensures var e := EvaluateProblem(obj, run, frame0, starts, moves, record).value.0;
      e.Fin? && lo <= e.v <= MAX
  {
    var finals := seq(|starts|, k requires 0 <= k < |starts| => FinalBest(obj, run, frame0, starts, moves, record, k));
    assert forall k :: 0 <= k < |finals| ==> finals[k] == Fin(results[k]);
    MeanOfFinals(finals, results, lo);
    ProblemErrorIsMeanOfRuns(obj, run, frame0, starts, moves, record);
  }

  /** The mean of scores that are the finite `results` lies between `lo` and `MAX`. */
  lemma MeanOfFinals(finals: seq<Flt>, results: seq<real>, lo: real)
    requires |results| == |finals| > 0 && -MAX <= lo <= MAX
    requires forall k :: 0 <= k < |finals| ==> finals[k] == Fin(results[k])
    requires Bounded(results, lo, MAX) && PartialSumsFinite(results)
    ensures Mean(finals).Fin? && lo <= Mean(finals).v <= MAX
  {
    assert finals == Fins(results);
    ProblemErrorBounds(results, lo);
  }

  /** The fitness set by `EvaluateIndividual`: the float mean of the per-problem errors. */
  function Fitness(errors: seq<Flt>): (f: Flt)
    ensures |errors| == 0 ==> f.NaN?
    ensures (exists i :: 0 <= i < |errors| && errors[i].NaN?) ==> f.NaN?
  {
    SumWithNaN(errors);
    Mean(errors)
  }

  /** A NaN anywhere makes a float sum NaN. */
  lemma {:induction false} SumWithNaN(xs: seq<Flt>)
    ensures (exists i :: 0 <= i < |xs| && xs[i].NaN?) ==> Sum(xs).NaN?
  {
    if |xs| > 0 && exists i :: 0 <= i < |xs| && xs[i].NaN? {
      var i :| 0 <= i < |xs| && xs[i].NaN?;
      if i < |xs| - 1 {
        assert DropLast(xs)[i] == xs[i];
        SumWithNaN(DropLast(xs));
      }
    }
  }

  /** Every problem's outcome, in order. */
  function ProblemResults(objs: seq<Objective>, run: Runner, frame0: Machine, starts: seq<seq<seq<Vec>>>,
                          moves: nat, record: Option<nat>): (ps: seq<Result<(Flt, Option<Traj>)>>)
    requires |starts| == |objs|
    requires forall n, i :: 0 <= n < |starts| && 0 <= i < |starts[n]| ==> |starts[n][i]| <= MAX_INT
    ensures |ps| == |objs|
  {
    seq(|objs|, n requires 0 <= n < |objs| => EvaluateProblem(objs[n], run, frame0, starts[n], moves, record))
  }

  /** The loop of `EvaluateIndividual` over the problems' outcomes: the first failure ends
      it; otherwise the errors are the problems' errors in order, the fitness is their mean,
      and the trajectory is that of the last problem that recorded one (`prev` when none did). */
  function Combine(ps: seq<Result<(Flt, Option<Traj>)>>, prev: Option<Traj>): (r: Result<(Flt, seq<Flt>, Option<Traj>)>)
    ensures r.Ok? <==> forall n :: 0 <= n < |ps| ==> ps[n].Ok?
    ensures r.Ok? ==> |r.value.1| == |ps| && r.value.0 == Fitness(r.value.1)
    ensures r.Ok? ==> forall n :: 0 <= n < |ps| ==> r.value.1[n] == ps[n].value.0
    ensures r.Err? ==> exists n :: 0 <= n < |ps| && ps[n] == Err(r.fault)
    decreases |ps|
  {
    if |ps| == 0 then Ok((Fitness([]), [], prev))
    else
      var n := |ps| - 1;
      var before := Combine(ps[..n], prev);
      if before.Err? then before
      else if ps[n].Err? then Err(ps[n].fault)
      else
        var errors := before.value.1 + [ps[n].value.0];
        var t := if ps[n].value.1.Some? then ps[n].value.1 else before.value.2;
        Ok((Fitness(errors), errors, t))
  }

  /** `EvaluateIndividual`: every problem in turn; the fitness is the mean of their errors,
      and the individual keeps the trajectory array of the last problem that recorded one
      (`prev` when none did). */
  function EvaluateAll(objs: seq<Objective>, run: Runner, frame0: Machine, starts: seq<seq<seq<Vec>>>,
                       moves: nat, record: Option<nat>, prev: Option<Traj>): (r: Result<(Flt, seq<Flt>, Option<Traj>)>)
    requires |starts| == |objs|
    requires forall n, i :: 0 <= n < |starts| && 0 <= i < |starts[n]| ==> |starts[n][i]| <= MAX_INT
    ensures r.Ok? ==> |r.value.1| == |objs| && r.value.0 == Fitness(r.value.1)
  {
    Combine(ProblemResults(objs, run, frame0, starts, moves, record), prev)
  }

  /** Each entry of the error array is that problem's `EvaluateProblem` error, and the
      evaluation succeeds exactly when every problem does. */
  lemma ErrorsArePerProblem(objs: seq<Objective>, run: Runner, frame0: Machine, starts: seq<seq<seq<Vec>>>,
                            moves: nat, record: Option<nat>, prev: Option<Traj>)
    requires |starts| == |objs|
    requires forall n, i :: 0 <= n < |starts| && 0 <= i < |starts[n]| ==> |starts[n][i]| <= MAX_INT
    ensures var r := EvaluateAll(objs, run, frame0, starts, moves, record, prev);
      && (r.Ok? <==> (forall n :: 0 <= n < |objs| ==> EvaluateProblem(objs[n], run, frame0, starts[n], moves, record).Ok?))
      && (r.Ok? ==> forall n :: 0 <= n < |objs| ==>
            r.value.1[n] == EvaluateProblem(objs[n], run, frame0, starts[n], moves, record).value.0)
  {
    var ps := ProblemResults(objs, run, frame0, starts, moves, record);
    assert forall n :: 0 <= n < |objs| ==> ps[n] == EvaluateProblem(objs[n], run, frame0, starts[n], moves, record);
  }

  // ---------------------------------------------------------------------------------------
  // Swarm size and move count

  /** The swarm size and the number of moves of a run: with an evolved swarm size the moves
      are the evaluation budget divided (rounding down) by the individual's `popSize`,
      otherwise the configured values. A zero evolved size divides by zero; a negative size
      cannot be allocated. */
  function SizeAndMoves(evolvePopSize: bool, popSize: nat, maxMoves: nat, maxEvaluations: nat,
                        individualPopSize: int): (r: Result<(nat, nat)>)
    ensures r.Ok? ==> r.value.0 == (if evolvePopSize then individualPopSize else popSize)
    ensures r.Ok? && !evolvePopSize ==> r.value.1 == maxMoves
    ensures r.Ok? && evolvePopSize ==>
      r.value.0 > 0 && r.value.1 * r.value.0 <= maxEvaluations < (r.value.1 + 1) * r.value.0
    ensures r.Err? <==> evolvePopSize && individualPopSize <= 0
  {
    if !evolvePopSize then Ok((popSize, maxMoves))
    else if individualPopSize == 0 then Err(DivideByZero)
    else if individualPopSize < 0 then Err(NegativeArraySize)
    else Ok((individualPopSize, maxEvaluations / individualPopSize))
  }

  /** `_RNG.nextInt(maxPopSize - 1) + 1`, with `draw` the value `nextInt` returns (it lies
      below its bound). `nextInt` rejects a bound that is not positive. */
  function DrawPopSize(maxPopSize: int, draw: int): (r: Result<int>)
    requires Wrap(maxPopSize - 1) > 0 ==> 0 <= draw < Wrap(maxPopSize - 1)
    ensures r.Err? <==> Wrap(maxPopSize - 1) <= 0
    ensures r.Ok? ==> 1 <= r.value <= Wrap(maxPopSize - 1)
    ensures r.Ok? && Is32(maxPopSize) && maxPopSize > MIN_INT ==> 1 <= r.value <= maxPopSize - 1
  {
    var bound := Wrap(maxPopSize - 1);
    if bound <= 0 then Err(IllegalArgument) else Ok(draw + 1)
  }

  /** The swarm-size mutation of `ReproduceByMutation`: with probability 0.05 (`coin` is
      `nextDouble()`) a fresh size is drawn. */
  function MutatePopSize(evolvePopSize: bool, popSize: int, maxPopSize: int, coin: real, draw: int): (r: Result<int>)
    requires Wrap(maxPopSize - 1) > 0 ==> 0 <= draw < Wrap(maxPopSize - 1)
    ensures !evolvePopSize || coin >= 0.05 ==> r == Ok(popSize)
    ensures evolvePopSize && coin < 0.05 ==> r == DrawPopSize(maxPopSize, draw)
  {
    if evolvePopSize && coin < 0.05 then DrawPopSize(maxPopSize, draw) else Ok(popSize)
  }

  /** The start point drawn for a member when starts are not fixed: per dimension
      `nextFloat() * (upper - lower) + lower`, with `draws` the values of `nextFloat()`. */
  function RandomStart(obj: Objective, draws: seq<real>): (v: Vec)
    requires |draws| == obj.dims
    ensures |v| == obj.dims
  {
    seq(obj.dims, d requires 0 <= d < obj.dims =>
      Add(Mul(Fin(draws[d]), Sub(obj.upperAt(d), obj.lowerAt(d))), obj.lowerAt(d)))
  }

  /** With draws in [0, 1) and finite bounds whose difference is a finite float, every
      component of a random start lies within its dimension's bounds. */
  lemma RandomStartInBox(obj: Objective, draws: seq<real>)
    requires |draws| == obj.dims
    requires forall d :: 0 <= d < obj.dims ==> 0.0 <= draws[d] < 1.0
    requires forall d :: 0 <= d < obj.dims ==>
      obj.lowerAt(d).Fin? && obj.upperAt(d).Fin? && -MAX <= obj.lowerAt(d).v <= obj.upperAt(d).v <= MAX &&
      obj.upperAt(d).v - obj.lowerAt(d).v <= MAX
    ensures forall d :: 0 <= d < obj.dims ==>
      RandomStart(obj, draws)[d].Fin? &&
      obj.lowerAt(d).v <= RandomStart(obj, draws)[d].v <= obj.upperAt(d).v
  {
    forall d | 0 <= d < obj.dims
      ensures RandomStart(obj, draws)[d].Fin?
      ensures obj.lowerAt(d).v <= RandomStart(obj, draws)[d].v <= obj.upperAt(d).v
    {
      var lo, hi := obj.lowerAt(d).v, obj.upperAt(d).v;
      var p := draws[d] * (hi - lo);
      ScaledBetween(draws[d], hi - lo, p);
      StartExact(draws[d], lo, hi - lo, p);
      assert lo + (hi - lo) == hi;
    }
  }

  /** Every intermediate of a start component that stays within the finite floats is exact. */
  lemma StartExact(u: real, lo: real, d: real, p: real)
    requires p == u * d
    requires -MAX <= lo <= MAX && -MAX <= lo + d <= MAX && -MAX <= d <= MAX
    requires -MAX <= p <= MAX && -MAX <= p + lo <= MAX
    ensures Add(Mul(Fin(u), Sub(Fin(lo + d), Fin(lo))), Fin(lo)) == Fin(p + lo)
  {
    assert Sub(Fin(lo + d), Fin(lo)) == Fin(d);
    assert Mul(Fin(u), Fin(d)) == Fin(p);
  }

  // ---------------------------------------------------------------------------------------
  // Trajectory distance

  /** A distance computed in double precision: a number, +infinity, or NaN. */
  datatype Dist = Finite(d: real) | Infinite | Undefined

  /** All cells of `t` have `rows` x `moves` x `dims` shape. */
  predicate Rect(t: Traj, rows: nat, moves: nat, dims: nat) {
    |t| == rows &&
    (forall q :: 0 <= q < rows ==> |t[q]| == moves) &&
    (forall q, n :: 0 <= q < rows && 0 <= n < moves ==> |t[q][n]| == dims)
  }

  /** `t2` has every cell the loops over a `rows` x `moves` x `dims` array read; it may be
      larger in any direction. */
  predicate Covers(t2: Traj, rows: nat, moves: nat, dims: nat) {
    |t2| >= rows &&
    (forall q :: 0 <= q < rows ==> |t2[q]| >= moves) &&
    (forall q, n :: 0 <= q < rows && 0 <= n < moves ==> |t2[q][n]| >= dims)
  }

  /** The float differences `t2[p][m][d] - t1[p][m][d]` over the shape of `t1`. */
  function Seps(t1: Traj, t2: Traj, rows: nat, moves: nat, dims: nat): (r: seq<seq<Vec>>)
    requires Rect(t1, rows, moves, dims) && Covers(t2, rows, moves, dims)
    ensures Rect(r, rows, moves, dims)
  {
    seq(rows, p requires 0 <= p < rows =>
      seq(moves, m requires 0 <= m < moves =>
        seq(dims, d requires 0 <= d < dims => Sub(t2[p][m][d], t1[p][m][d]))))
  }

  /** The sum of squares of a finite difference vector, in double precision (taken as exact). */
  function SumSquares(v: Vec): (s: real)
    requires forall d :: 0 <= d < |v| ==> v[d].Fin?
    ensures s >= 0.0
    decreases |v|
  {
    if |v| == 0 then 0.0
    else
      var a := if v[0].v >= 0.0 then v[0].v else -v[0].v;
      NonNegProduct(a, a);
      assert v[0].v * v[0].v == a * a;
      v[0].v * v[0].v + SumSquares(v[1..])
  }

  predicate AllFinite(seps: seq<seq<Vec>>) {
    forall p, m, d :: 0 <= p < |seps| && 0 <= m < |seps[p]| && 0 <= d < |seps[p][m]| ==> seps[p][m][d].Fin?
  }

  /** The squared distance of every pair of points. */
  function SquaredDistances(seps: seq<seq<Vec>>): (sq: seq<seq<real>>)
    requires AllFinite(seps)
    ensures |sq| == |seps| && forall p :: 0 <= p < |sq| ==> |sq[p]| == |seps[p]|
  {
    seq(|seps|, p requires 0 <= p < |seps| =>
      seq(|seps[p]|, m requires 0 <= m < |seps[p]| => SumSquares(seps[p][m])))
  }

  /** `root` of every squared distance, summed over moves and then over members. */
  function RootSum(sq: seq<seq<real>>, root: real -> real): real
    decreases |sq|
  {
    if |sq| == 0 then 0.0 else RowRootSum(sq[0], root) + RootSum(sq[1..], root)
  }

  function RowRootSum(row: seq<real>, root: real -> real): real
    decreases |row|
  {
    if |row| == 0 then 0.0 else root(row[0]) + RowRootSum(row[1..], root)
  }

  /** `phenotypicDistance(s1, s2)` on trajectory arrays (`None` is a null array). The shape
      of the first array drives the loops; the second is read only where a component is, so
      it may be larger, and it is not read at all when the first has no component (each
      pair of moves then adds `root(0)`). A NaN difference makes the distance NaN, an
      infinite one +infinity. */
  function PhenotypicDistance(t1: Option<Traj>, t2: Option<Traj>, root: real -> real): (r: Result<Dist>)
    requires t1.Some? ==> IsRect(t1.value)
    ensures t1.None? ==> r == Err(NullPointer)
    ensures t1.Some? ==> (r.Err? <==> ReadsSecond(t1.value) && (t2.None? || !CoversShape(t2.value, t1.value)))
    ensures t1.Some? && t2.None? && r.Err? ==> r.fault == NullPointer
    ensures t1.Some? && t2.Some? && r.Err? ==> r.fault == IndexOutOfBounds
    ensures t1.Some? && !ReadsSecond(t1.value) ==>
      r == Ok(Finite(RootSum(ZeroSquares(ShapeOf(t1.value).0, ShapeOf(t1.value).1), root)))
  {
    if t1.None? then Err(NullPointer)
    else
      var (rows, moves, dims) := ShapeOf(t1.value);
      if rows == 0 || moves == 0 || dims == 0 then Ok(Finite(RootSum(ZeroSquares(rows, moves), root)))
      else if t2.None? then Err(NullPointer)
      else if !Covers(t2.value, rows, moves, dims) then Err(IndexOutOfBounds)
      else Ok(DistanceOf(Seps(t1.value, t2.value, rows, moves, dims), root))
  }

  /** The loops over `t` read a component of the second array. */
  predicate ReadsSecond(t: Traj) {
    ShapeOf(t).0 > 0 && ShapeOf(t).1 > 0 && ShapeOf(t).2 > 0
  }

  predicate CoversShape(t2: Traj, t1: Traj) {
    Covers(t2, ShapeOf(t1).0, ShapeOf(t1).1, ShapeOf(t1).2)
  }

  /** The squared distances of `rows` x `moves` pairs of empty points. */
  function ZeroSquares(rows: nat, moves: nat): (sq: seq<seq<real>>)
    ensures |sq| == rows && forall p :: 0 <= p < rows ==> |sq[p]| == moves
    ensures forall p, m :: 0 <= p < rows && 0 <= m < moves ==> sq[p][m] == 0.0
  {
    seq(rows, _ => seq(moves, _ => 0.0))
  }

  /** The part of `t2` the loops over a `rows` x `moves` x `dims` array read. */
  function Corner(t2: Traj, rows: nat, moves: nat, dims: nat): (c: Traj)
    requires Covers(t2, rows, moves, dims)
    ensures Rect(c, rows, moves, dims)
    ensures forall p, m, d :: 0 <= p < rows && 0 <= m < moves && 0 <= d < dims ==> c[p][m][d] == t2[p][m][d]
  {
    seq(rows, p requires 0 <= p < rows =>
      seq(moves, m requires 0 <= m < moves => t2[p][m][..dims]))
  }

  /** Only the corner of the second array that matches the first one's shape counts: the
      distance to a larger array is the distance to that corner, which has the first one's
      shape. */
  lemma DistanceIgnoresExcess(t1: Traj, t2: Traj, root: real -> real)
    requires IsRect(t1) && CoversShape(t2, t1)
    ensures var c := Corner(t2, ShapeOf(t1).0, ShapeOf(t1).1, ShapeOf(t1).2);
      IsRect(c) && (ReadsSecond(t1) ==> ShapeOf(c) == ShapeOf(t1)) &&
      PhenotypicDistance(Some(t1), Some(t2), root) == PhenotypicDistance(Some(t1), Some(c), root)
  {
    var (rows, moves, dims) := ShapeOf(t1);
    var c := Corner(t2, rows, moves, dims);
    CornerIsRect(c, rows, moves, dims);
    if rows > 0 && moves > 0 && dims > 0 {
      var a := Seps(t1, t2, rows, moves, dims);
      var b := Seps(t1, c, rows, moves, dims);
      forall p | 0 <= p < rows
        ensures a[p] == b[p]
      {
        forall m | 0 <= m < moves
          ensures a[p][m] == b[p][m]
        {
          assert forall d :: 0 <= d < dims ==> a[p][m][d] == b[p][m][d];
        }
      }
      assert a == b;
    }
  }

  /** An array built with the shape `rows` x `moves` x `dims` is rectangular, and its shape
      is that one whenever it has a component. */
  lemma CornerIsRect(c: Traj, rows: nat, moves: nat, dims: nat)
    requires Rect(c, rows, moves, dims)
    ensures IsRect(c)
    ensures rows > 0 && moves > 0 && dims > 0 ==> ShapeOf(c) == (rows, moves, dims)
  {
    if rows > 0 && moves > 0 {
      assert |c[0]| == moves && |c[0][0]| == dims;
    } else if rows > 0 {
      assert |c[0]| == 0;
    }
  }

  /** The array is rectangular, as every `new float[a][b][c]` is. */
  predicate IsRect(t: Traj) {
    Rect(t, ShapeOf(t).0, ShapeOf(t).1, ShapeOf(t).2)
  }

  /** A trajectory array as allocated by the optimiser. */
  type Grid = t: Traj | IsRect(t) witness []

  /** `(t.length, t[0].length, t[0][0].length)`, with 0 where the loops never look. */
  function ShapeOf(t: Traj): (nat, nat, nat) {
    var rows := |t|;
    var moves := if rows == 0 then 0 else |t[0]|;
    var dims := if rows == 0 || moves == 0 then 0 else |t[0][0]|;
    (rows, moves, dims)
  }

  /** The total of the differences: NaN if any is NaN, +infinity if any is infinite,
      otherwise the sum of the Euclidean distances. */
  function DistanceOf(seps: seq<seq<Vec>>, root: real -> real): Dist {
    if HasNaN(seps) then Undefined
    else if HasInfinite(seps) then Infinite
    else Finite(RootSum(SquaredDistances(seps), root))
  }

  predicate HasNaN(seps: seq<seq<Vec>>) {
    exists p, m, d :: 0 <= p < |seps| && 0 <= m < |seps[p]| && 0 <= d < |seps[p][m]| && seps[p][m][d].NaN?
  }

  predicate HasInfinite(seps: seq<seq<Vec>>) {
    exists p, m, d :: 0 <= p < |seps| && 0 <= m < |seps[p]| && 0 <= d < |seps[p][m]| && seps[p][m][d].IsInfinite()
  }

  /** With a non-negative `root`, a finite distance is non-negative. */
  lemma DistanceNonNegative(t1: Option<Traj>, t2: Option<Traj>, root: real -> real)
    requires t1.Some? ==> IsRect(t1.value)
    requires forall x :: root(x) >= 0.0
    ensures var r := PhenotypicDistance(t1, t2, root); r.Ok? && r.value.Finite? ==> r.value.d >= 0.0
  {
    var r := PhenotypicDistance(t1, t2, root);
    if r.Ok? && r.value.Finite? && t1.Some? {
      var (rows, moves, dims) := ShapeOf(t1.value);
      if rows > 0 && moves > 0 && dims > 0 {
        var seps := Seps(t1.value, t2.value, rows, moves, dims);
        RootSumNonNegative(SquaredDistances(seps), root);
      } else {
        RootSumNonNegative(ZeroSquares(rows, moves), root);
      }
    }
  }

  lemma {:induction false} RootSumNonNegative(sq: seq<seq<real>>, root: real -> real)
    requires forall x :: root(x) >= 0.0
    ensures RootSum(sq, root) >= 0.0
    decreases |sq|
  {
    if |sq| > 0 {
      RowRootSumNonNegative(sq[0], root);
      RootSumNonNegative(sq[1..], root);
    }
  }

  lemma {:induction false} RowRootSumNonNegative(row: seq<real>, root: real -> real)
    requires forall x :: root(x) >= 0.0
    ensures RowRootSum(row, root) >= 0.0
    decreases |row|
  {
    if |row| > 0 {
      RowRootSumNonNegative(row[1..], root);
    }
  }

  /** Identical trajectories of finite points are at distance 0 (given `sqrt(0) == 0`). */
  lemma DistanceToItself(t: Traj, root: real -> real)
    requires IsRect(t)
    requires forall p, m, d :: 0 <= p < |t| && 0 <= m < |t[p]| && 0 <= d < |t[p][m]| ==> t[p][m][d].Fin?
    requires root(0.0) == 0.0
    ensures PhenotypicDistance(Some(t), Some(t), root) == Ok(Finite(0.0))
  {
    var (rows, moves, dims) := ShapeOf(t);
    if rows > 0 && moves > 0 && dims > 0 {
      var seps := Seps(t, t, rows, moves, dims);
      forall p, m, d | 0 <= p < rows && 0 <= m < moves && 0 <= d < dims
        ensures seps[p][m][d] == Fin(0.0)
      {
        assert seps[p][m][d] == Sub(t[p][m][d], t[p][m][d]);
      }
      var sq := SquaredDistances(seps);
      forall p, m | 0 <= p < rows && 0 <= m < moves
        ensures sq[p][m] == 0.0
      {
        SumSquaresOfZeros(seps[p][m]);
      }
      RootSumOfZeros(sq, root);
    } else {
      RootSumOfZeros(ZeroSquares(rows, moves), root);
    }
  }

  lemma {:induction false} SumSquaresOfZeros(v: Vec)
    requires forall d :: 0 <= d < |v| ==> v[d] == Fin(0.0)
    ensures SumSquares(v) == 0.0
    decreases |v|
  {
    if |v| > 0 {
      SumSquaresOfZeros(v[1..]);
    }
  }

  lemma {:induction false} RootSumOfZeros(sq: seq<seq<real>>, root: real -> real)
    requires root(0.0) == 0.0
    requires forall p, m :: 0 <= p < |sq| && 0 <= m < |sq[p]| ==> sq[p][m] == 0.0
    ensures RootSum(sq, root) == 0.0
    decreases |sq|
  {
    if |sq| > 0 {
      RowRootSumOfZeros(sq[0], root);
      RootSumOfZeros(sq[1..], root);
    }
  }

  lemma {:induction false} RowRootSumOfZeros(row: seq<real>, root: real -> real)
    requires root(0.0) == 0.0
    requires forall m :: 0 <= m < |row| ==> row[m] == 0.0
    ensures RowRootSum(row, root) == 0.0
    decreases |row|
  {
    if |row| > 0 {
      RowRootSumOfZeros(row[1..], root);
    }
  }

  /** The distance does not depend on the order of its arguments when both arrays have the
      same shape: each difference only changes sign. */
  lemma DistanceSymmetric(t1: Traj, t2: Traj, root: real -> real)
    requires IsRect(t1) && IsRect(t2) && ShapeOf(t1) == ShapeOf(t2)
    ensures PhenotypicDistance(Some(t1), Some(t2), root) == PhenotypicDistance(Some(t2), Some(t1), root)
  {
    var (rows, moves, dims) := ShapeOf(t1);
    if rows > 0 && moves > 0 && dims > 0 {
      var a := Seps(t1, t2, rows, moves, dims);
      var b := Seps(t2, t1, rows, moves, dims);
      forall p, m, d | 0 <= p < rows && 0 <= m < moves && 0 <= d < dims
        ensures b[p][m][d] == Float32.Neg(a[p][m][d])
      {
        SubAntisymmetric(t2[p][m][d], t1[p][m][d]);
      }
      DistanceOfNegated(a, b, rows, moves, dims, root);
    }
  }

  /** Negating every difference leaves the distance unchanged. */
  lemma DistanceOfNegated(a: seq<seq<Vec>>, b: seq<seq<Vec>>, rows: nat, moves: nat, dims: nat,
                          root: real -> real)
    requires Rect(a, rows, moves, dims) && Rect(b, rows, moves, dims)
    requires forall p, m, d :: 0 <= p < rows && 0 <= m < moves && 0 <= d < dims ==>
      b[p][m][d] == Float32.Neg(a[p][m][d])
    ensures DistanceOf(a, root) == DistanceOf(b, root)
  {
    SameSpecials(a, b, rows, moves, dims);
    if !HasNaN(a) && !HasInfinite(a) {
      assert AllFinite(a) && AllFinite(b);
      var sa, sb := SquaredDistances(a), SquaredDistances(b);
      forall p | 0 <= p < rows
        ensures sa[p] == sb[p]
      {
        forall m | 0 <= m < moves
          ensures sa[p][m] == sb[p][m]
        {
          SumSquaresOfNegation(a[p][m], b[p][m]);
        }
      }
      assert sa == sb;
    }
  }

  /** Negation keeps NaN and the infinities where they are. */
  lemma SameSpecials(a: seq<seq<Vec>>, b: seq<seq<Vec>>, rows: nat, moves: nat, dims: nat)
    requires Rect(a, rows, moves, dims) && Rect(b, rows, moves, dims)
    requires forall p, m, d :: 0 <= p < rows && 0 <= m < moves && 0 <= d < dims ==>
      b[p][m][d] == Float32.Neg(a[p][m][d])
    ensures HasNaN(a) <==> HasNaN(b)
    ensures HasInfinite(a) <==> HasInfinite(b)
  {
    if HasNaN(a) {
      var p, m, d :| 0 <= p < |a| && 0 <= m < |a[p]| && 0 <= d < |a[p][m]| && a[p][m][d].NaN?;
      assert b[p][m][d].NaN?;
    }
    if HasNaN(b) {
      var p, m, d :| 0 <= p < |b| && 0 <= m < |b[p]| && 0 <= d < |b[p][m]| && b[p][m][d].NaN?;
      assert a[p][m][d].NaN?;
    }
    if HasInfinite(a) {
      var p, m, d :| 0 <= p < |a| && 0 <= m < |a[p]| && 0 <= d < |a[p][m]| && a[p][m][d].IsInfinite();
      assert b[p][m][d].IsInfinite();
    }
    if HasInfinite(b) {
      var p, m, d :| 0 <= p < |b| && 0 <= m < |b[p]| && 0 <= d < |b[p][m]| && b[p][m][d].IsInfinite();
      assert a[p][m][d].IsInfinite();
    }
  }

  lemma {:induction false} SumSquaresOfNegation(v: Vec, w: Vec)
    requires |v| == |w|
    requires forall d :: 0 <= d < |v| ==> v[d].Fin? && w[d].Fin? && w[d] == Float32.Neg(v[d])
    ensures SumSquares(v) == SumSquares(w)
    decreases |v|
  {
    if |v| > 0 {
      SumSquaresOfNegation(v[1..], w[1..]);
      assert w[0].v * w[0].v == v[0].v * v[0].v;
    }
  }
}

=== FILE: vector_instructions.dfy ===
/** The stack effects of the vector instructions: which stacks each one needs, what it pops
    and pushes, in which order it passes its operands, how it resolves a component index with
    Java's `%`, and how it removes infinities from arithmetic results. Each instruction maps
    a machine to a machine, or to the exception the Java code would raise. */
module VectorInstructions {
  import opened Common
  import opened Float32
  import opened Int32
  import opened Machine
  import P = Population

  // ---------------------------------------------------------------------------------------
  // Component arithmetic

  datatype BinOp = AddOp | SubOp | MulOp | DivOp

  function ApplyOp(op: BinOp, x: Flt, y: Flt): Flt {
    match op
    case AddOp => Add(x, y)
    case SubOp => Sub(x, y)
    case MulOp => Mul(x, y)
    case DivOp => Div(x, y)
  }

  /** The clamp each arithmetic instruction applies to a component: the additive ones map
      infinities into the finite range and keep NaN, the multiplicative ones also map NaN
      to 0. */
  function Sanitise(op: BinOp, f: Flt): (g: Flt)
    ensures !g.IsInfinite()
    ensures op.MulOp? || op.DivOp? ==> g.Fin?
    ensures op.AddOp? || op.SubOp? ==> (g.NaN? <==> f.NaN?)
    ensures f.Fin? ==> g == f
  {
    if op.AddOp? || op.SubOp? then ClampInf(f) else ClampAll(f)
  }

  /** A component whose exact result is a finite float comes out unchanged. */
  lemma SanitisedExact(op: BinOp, x: real, y: real)
    requires op.AddOp? || op.SubOp? || op.MulOp?
    requires -MAX <= ExactOp(op, x, y) <= MAX
    ensures Sanitise(op, ApplyOp(op, Fin(x), Fin(y))) == Fin(ExactOp(op, x, y))
  {
  }

  function ExactOp(op: BinOp, x: real, y: real): real
    requires !op.DivOp?
  {
    match op
    case AddOp => x + y
    case SubOp => x - y
    case MulOp => x * y
  }

  /** No infinite component. */
  predicate NoInfinity(v: Vec) {
    forall i :: 0 <= i < |v| ==> !v[i].IsInfinite()
  }

  /** `BinaryOperator(inA, inB)` of `VectorAdd`, `VectorSub`, `VectorMul` and `VectorDiv`:
      one component per component of `inA`; `inB` must be at least as long. */
  function Combine(op: BinOp, a: Vec, b: Vec): (r: Result<Vec>)
    ensures r.Ok? <==> |b| >= |a|
    ensures r.Ok? ==> |r.value| == |a| && NoInfinity(r.value)
    ensures r.Ok? ==> forall i :: 0 <= i < |a| ==> r.value[i] == Sanitise(op, ApplyOp(op, a[i], b[i]))
  {
    if |b| < |a| then Err(IndexOutOfBounds)
    else Ok(seq(|a|, i requires 0 <= i < |a| => Sanitise(op, ApplyOp(op, a[i], b[i]))))
  }

  /** `BinaryOperator(inA, inB)` of the vector-scalar instructions. */
  function CombineScalar(op: BinOp, a: Vec, b: Flt): (r: Vec)
    ensures |r| == |a| && NoInfinity(r)
    ensures forall i :: 0 <= i < |a| ==> r[i] == Sanitise(op, ApplyOp(op, a[i], b))
  {
    seq(|a|, i requires 0 <= i < |a| => Sanitise(op, ApplyOp(op, a[i], b)))
  }

  /** The componentwise float products `a[i] * b[i]`. */
  function Products(a: Vec, b: Vec): (r: Vec)
    requires |b| >= |a|
    ensures |r| == |a|
  {
    seq(|a|, i requires 0 <= i < |a| => Mul(a[i], b[i]))
  }

  /** `VectorDotProduct`: the products accumulated in a float from 0, with infinities clamped
      at the end; NaN is kept. */
  function DotProduct(a: Vec, b: Vec): (r: Result<Flt>)
    ensures r.Ok? <==> |b| >= |a|
    ensures r.Ok? ==> !r.value.IsInfinite()
    ensures r.Ok? ==> r.value == ClampInf(Sum(Products(a, b)))
  {
    if |b| < |a| then Err(IndexOutOfBounds) else Ok(ClampInf(Sum(Products(a, b))))
  }

  /** While every product and every partial sum is a finite float, the instruction computes
      the exact dot product. */
  lemma DotProductExact(a: seq<real>, b: seq<real>)
    requires |a| == |b|
    requires forall j :: 0 <= j < |a| ==> -MAX <= a[j] * b[j] <= MAX
    requires PartialSumsFinite(seq(|a|, j requires 0 <= j < |a| => a[j] * b[j]))
    ensures DotProduct(Fins(a), Fins(b)) == Ok(Fin(RealSum(seq(|a|, j requires 0 <= j < |a| => a[j] * b[j]))))
  {
    var prods := seq(|a|, j requires 0 <= j < |a| => a[j] * b[j]);
    forall j | 0 <= j < |a|
      ensures Products(Fins(a), Fins(b))[j] == Fins(prods)[j]
    {
      assert Mul(Fin(a[j]), Fin(b[j])) == Fin(a[j] * b[j]);
    }
    assert Products(Fins(a), Fins(b)) == Fins(prods);
    SumIsExact(prods);
  }

  /** `VectorMag`: squares are float products, summed (in double precision, taken as exact)
      and passed to `root`, the square root; an infinite sum gives `MAX`, a NaN component
      gives NaN. */
  function Magnitude(v: Vec, root: real -> real): (r: Flt)
    ensures r.NaN? <==> exists i :: 0 <= i < |v| && v[i].NaN?
    ensures ((forall i :: 0 <= i < |v| ==> !v[i].NaN?) &&
             (exists i :: 0 <= i < |v| && v[i].IsInfinite())) ==> r == Fin(MAX)
  {
    if exists i :: 0 <= i < |v| && v[i].NaN? then NaN
    else if exists i :: 0 <= i < |v| && !Mul(v[i], v[i]).Fin? then Fin(MAX)
    else Round(root(RealSum(seq(|v|, i requires 0 <= i < |v| => Mul(v[i], v[i]).v))))
  }

  /** `root` is the square root on the non-negative reals. */
  ghost predicate IsSqrt(root: real -> real) {
    forall x: real :: 0.0 <= x ==> 0.0 <= root(x) && root(x) * root(x) == x
  }

  /** With the square root for `root`, the magnitude of a vector whose squares stay in float
      range is its Euclidean length: a non-negative float whose square is the sum of the
      squares of the components. */
  lemma MagnitudeIsLength(a: seq<real>, root: real -> real)
    requires IsSqrt(root)
    requires |a| <= MAX_INT
    requires forall i :: 0 <= i < |a| ==> a[i] * a[i] <= MAX
    ensures var r := Magnitude(Fins(a), root);
      r.Fin? && 0.0 <= r.v && r.v * r.v == RealSum(seq(|a|, i requires 0 <= i < |a| => a[i] * a[i]))
  {
    var v := Fins(a);
    var sq := seq(|a|, i requires 0 <= i < |a| => a[i] * a[i]);
    forall i | 0 <= i < |a|
      ensures Mul(v[i], v[i]) == Fin(sq[i]) && 0.0 <= sq[i] <= MAX
    {
      NonNegSquare(a[i]);
    }
    MagnitudeOfSquares(v, sq, root);
    SumOfSquaresBound(sq);
    RootInRange(root, RealSum(sq));
  }

  /** The square root of at most `2^31 * MAX` is a float's value, so rounding keeps it. */
  lemma RootInRange(root: real -> real, sum: real)
    requires IsSqrt(root) && 0.0 <= sum <= (MAX_INT as real + 1.0) * MAX
    ensures Round(root(sum)) == Fin(root(sum)) && 0.0 <= root(sum) && root(sum) * root(sum) == sum
  {
    var t := root(sum);
    assert 0.0 <= t && t * t == sum;
    LengthInRange(t, sum);
  }

  /** Without NaN or overflowing squares, the magnitude is the rounded root of the sum of
      the squares. */
  lemma MagnitudeOfSquares(v: Vec, sq: seq<real>, root: real -> real)
    requires |sq| == |v| && forall i :: 0 <= i < |v| ==> Mul(v[i], v[i]) == Fin(sq[i])
    ensures Magnitude(v, root) == Round(root(RealSum(sq)))
  {
    forall i | 0 <= i < |v|
      ensures !v[i].NaN?
    {
      assert Mul(v[i], v[i]).Fin?;
    }
    assert seq(|v|, i requires 0 <= i < |v| => Mul(v[i], v[i]).v) == sq;
  }

  lemma NonNegSquare(x: real)
    ensures x * x >= 0.0
  {
    if x < 0.0 {
      NonNegProduct(-x, -x);
    } else {
      NonNegProduct(x, x);
    }
  }

  /** A sum of values in [0, MAX] lies in [0, n * MAX]. */
  lemma {:induction false} SumOfSquaresBound(xs: seq<real>)
    requires forall i :: 0 <= i < |xs| ==> 0.0 <= xs[i] <= MAX
    ensures 0.0 <= RealSum(xs) <= (|xs| as real) * MAX
  {
    if |xs| > 0 {
      SumOfSquaresBound(xs[..|xs| - 1]);
    }
  }

  /** A non-negative root of at most `2^31 * MAX` is at most `MAX`. */
  lemma LengthInRange(t: real, sum: real)
    requires 0.0 <= t && t * t == sum && sum <= (MAX_INT as real + 1.0) * MAX
    ensures t <= MAX
  {
    if t > MAX {
      NonNegProduct(t, t - MAX);
    }
  }

  /** The component `TernaryOperator(inA, inB, inC)` of `VectorDimAdd`/`VectorDimMul` writes:
      `|inB| % inA.length` with Java's `-` and `%`, or none when that is negative (only for
      `Integer.MIN_VALUE`). */
  function DimIndex(c: int, n: nat): (d: int)
    requires Is32(c) && n > 0
    ensures -(n as int) < d < n
    ensures c != MIN_INT ==> 0 <= d && d == Abs(c) % n
  {
    var c' := if c < 0 then Int32.Neg(c) else c;
    Rem(c', n)
  }

  /** `TernaryOperator` of `VectorDimAdd` (`AddOp`) and `VectorDimMul` (`MulOp`): a copy of
      `a` with one component combined with `f` and clamped (NaN kept). */
  function DimOp(op: BinOp, a: Vec, c: int, f: Flt): (r: Result<Vec>)
    requires op.AddOp? || op.MulOp?
    requires Is32(c)
    ensures r.Err? <==> |a| == 0
    ensures r.Ok? ==> |r.value| == |a|
    ensures r.Ok? ==> forall j :: 0 <= j < |a| && j != DimIndex(c, |a|) ==> r.value[j] == a[j]
    ensures r.Ok? && DimIndex(c, |a|) >= 0 ==>
      r.value[DimIndex(c, |a|)] == ClampInf(ApplyOp(op, a[DimIndex(c, |a|)], f))
    ensures r.Ok? && NoInfinity(a) ==> NoInfinity(r.value)
  {
    if |a| == 0 then Err(DivideByZero)
    else
      var d := DimIndex(c, |a|);
      if d >= 0 then Ok(a[d := ClampInf(ApplyOp(op, a[d], f))]) else Ok(a)
  }

  /** `Integer.MIN_VALUE` stays negative under Java's unary minus, so its index is
      `Integer.MIN_VALUE % length`: a vector whose length is not a power of two is left
      unchanged, and one whose length is a power of two has component 0 combined. */
  lemma DimOpOfMinInt(op: BinOp, a: Vec, f: Flt)
    requires op.AddOp? || op.MulOp?
    requires 0 < |a| <= MAX_INT
    ensures DimIndex(MIN_INT, |a|) <= 0
    ensures !IsPowerOfTwo(|a|) ==> DimOp(op, a, MIN_INT, f) == Ok(a)
    ensures IsPowerOfTwo(|a|) ==> DimOp(op, a, MIN_INT, f) == Ok(a[0 := ClampInf(ApplyOp(op, a[0], f))])
  {
    Pow2Of31();
    MinIntRemZero(|a|);
    assert DimIndex(MIN_INT, |a|) == Rem(MIN_INT, |a|);
  }

  /** One component of `VectorBetween`: `x + f * (y - x)`, clamped, with NaN replaced by `x`. */
  function BetweenComponent(x: Flt, y: Flt, f: Flt): (r: Flt)
    ensures r.IsInfinite() ==> r == x
    ensures r.NaN? ==> x.NaN?
  {
    var t := ClampInf(Add(x, Mul(f, Sub(y, x))));
    if t.NaN? then x else t
  }

  /** For `0 <= f <= 1` the result lies on the segment from `x` to `y`, with `f = 0` giving
      `x` and `f = 1` giving `y`, provided `y - x` is a finite float. */
  lemma BetweenOnSegment(x: real, y: real, f: real)
    requires 0.0 <= f <= 1.0
    requires -MAX <= x <= MAX && -MAX <= y <= MAX && -MAX <= y - x <= MAX
    ensures BetweenComponent(Fin(x), Fin(y), Fin(f)).Fin?
    ensures var r := BetweenComponent(Fin(x), Fin(y), Fin(f)).v;
      (x <= y ==> x <= r <= y) && (y <= x ==> y <= r <= x)
    ensures f == 0.0 ==> BetweenComponent(Fin(x), Fin(y), Fin(f)) == Fin(x)
    ensures f == 1.0 ==> BetweenComponent(Fin(x), Fin(y), Fin(f)) == Fin(y)
  {
    var d := y - x;
    var p := f * d;
    ScaledBetween(f, d, p);
    BetweenExact(x, d, f, p);
    assert x + d == y;
    assert BetweenComponent(Fin(x), Fin(y), Fin(f)) == Fin(x + p);
  }

  /** Every intermediate of a component that stays within the finite floats is exact. */
  lemma BetweenExact(x: real, d: real, f: real, p: real)
    requires p == f * d
    requires -MAX <= x <= MAX && -MAX <= x + d <= MAX && -MAX <= d <= MAX
    requires -MAX <= p <= MAX && -MAX <= x + p <= MAX
    ensures BetweenComponent(Fin(x), Fin(x + d), Fin(f)) == Fin(x + p)
  {
    assert Sub(Fin(x + d), Fin(x)) == Fin(d);
    assert Mul(Fin(f), Fin(d)) == Fin(p);
    assert Add(Fin(x), Fin(p)) == Fin(x + p);
  }

  // ---------------------------------------------------------------------------------------
  // Instructions

  /** What the instructions read besides the machine: the dimensionality (`vectorStack._dims`),
      the interpreter used by `VectorZip`/`VectorApply`, the square root of `VectorMag`, and
      the swarm with the index of the member being moved, for `VectorBest`/`VectorCurrent`. */
  datatype Env = Env(
    dims: nat,
    run: (Code, Machine) -> Machine,
    root: real -> real,
    members: seq<P.Process>,
    current: int)

  datatype VecInstr =
    | GetComponent | SetComponent | FromFloats | ToFloats
    | Binary(op: BinOp) | Dot | Scalar(op: BinOp) | Mag
    | DimAdd | DimMul | Zip | Apply | Between | Best | Current

  /** `VectorGetComponent`: needs a vector and an int; pops the int, keeps the vector, and
      pushes component `i % dims` of the top vector when that remainder is non-negative. */
  function GetComp(m: Machine, dims: nat): (r: Result<Machine>)
    requires m.IntsAre32()
    ensures !(|m.vecs| > 0 && |m.ints| > 0) ==> r == Ok(m)
    ensures r.Ok? ==> r.value.vecs == m.vecs && r.value.bools == m.bools && r.value.exec == m.exec
    ensures |m.vecs| > 0 && |m.ints| > 0 && r.Ok? ==>
      dims > 0 && r.value.ints == DropLast(m.ints) &&
      var d := Rem(Last(m.ints), dims);
      (d >= 0 ==> d < |Last(m.vecs)| && r.value.floats == m.floats + [Last(m.vecs)[d]]) &&
      (d < 0 ==> r.value.floats == m.floats)
  {
    if |m.vecs| > 0 && |m.ints| > 0 then
      if dims == 0 then Err(DivideByZero)
      else
        var d := Rem(Last(m.ints), dims);
        var m1 := m.(ints := DropLast(m.ints));
        if d >= 0 then
          if d < |Last(m.vecs)| then Ok(m1.(floats := m.floats + [Last(m.vecs)[d]]))
          else Err(IndexOutOfBounds)
        else Ok(m1)
    else Ok(m)
  }

  /** `VectorSetComponent`: needs a float, an int and a vector. Pops the vector and the int;
      for a non-negative remainder also pops the float and pushes a copy of the vector with
      that component replaced. For a negative remainder the vector is lost. */
  function SetComp(m: Machine): (r: Result<Machine>)
    requires m.IntsAre32()
    ensures !(|m.floats| > 0 && |m.ints| > 0 && |m.vecs| > 0) ==> r == Ok(m)
    ensures r.Err? <==> |m.floats| > 0 && |m.ints| > 0 && |m.vecs| > 0 && |Last(m.vecs)| == 0
    ensures |m.floats| > 0 && |m.ints| > 0 && |m.vecs| > 0 && r.Ok? ==>
      var v := Last(m.vecs);
      var d := Rem(Last(m.ints), |v|);
      r.value.ints == DropLast(m.ints) &&
      (d >= 0 ==>
        r.value.floats == DropLast(m.floats) &&
        r.value.vecs == DropLast(m.vecs) + [v[d := Last(m.floats)]]) &&
      (d < 0 ==> r.value.floats == m.floats && r.value.vecs == DropLast(m.vecs))
  {
    if |m.floats| > 0 && |m.ints| > 0 && |m.vecs| > 0 then
      var v := Last(m.vecs);
      if |v| == 0 then Err(DivideByZero)
      else
        var d := Rem(Last(m.ints), |v|);
        var m1 := m.(vecs := DropLast(m.vecs), ints := DropLast(m.ints));
        if d >= 0 then
          Ok(m1.(floats := DropLast(m.floats), vecs := m1.vecs + [v[d := Last(m.floats)]]))
        else Ok(m1)
    else Ok(m)
  }

  /** `VectorFromFloats`: with at least `dims` floats, pops them into a new vector, the last
      popped (deepest) value first; otherwise does nothing. */
  function FromFloatsOp(m: Machine, dims: nat): (r: Machine)
    ensures |m.floats| < dims ==> r == m
    ensures |m.floats| >= dims ==>
      |r.floats| == |m.floats| - dims && |r.vecs| == |m.vecs| + 1 &&
      r.floats + Last(r.vecs) == m.floats && DropLast(r.vecs) == m.vecs && |Last(r.vecs)| == dims
    ensures r.ints == m.ints && r.bools == m.bools
  {
    if |m.floats| >= dims then
      var k := |m.floats| - dims;
      assert m.floats[..k] + m.floats[k..] == m.floats;
      m.(floats := m.floats[..k], vecs := m.vecs + [m.floats[k..]])
    else m
  }

  /** `VectorToFloats`: pops the top vector and pushes its components, component 0 first. */
  function ToFloatsOp(m: Machine): (r: Machine)
    ensures |m.vecs| == 0 ==> r == m
    ensures |m.vecs| > 0 ==>
      r.vecs == DropLast(m.vecs) && r.floats == m.floats + Last(m.vecs) &&
      |r.floats| == |m.floats| + |Last(m.vecs)|
    ensures r.ints == m.ints && r.bools == m.bools
  {
    if |m.vecs| > 0 then m.(vecs := DropLast(m.vecs), floats := m.floats + Last(m.vecs)) else m
  }

  /** `VectorFromFloats` then `VectorToFloats` restores both stacks when at least `dims`
      floats were present. */
  lemma FromThenToFloats(m: Machine, dims: nat)
    requires |m.floats| >= dims
    ensures ToFloatsOp(FromFloatsOp(m, dims)) == m
  {
  }

  /** `VectorToFloats` then `VectorFromFloats` restores both stacks when the top vector has
      `dims` components. */
  lemma ToThenFromFloats(m: Machine, dims: nat)
    requires |m.vecs| > 0 && |Last(m.vecs)| == dims
    ensures FromFloatsOp(ToFloatsOp(m), dims) == m
  {
    var r := FromFloatsOp(ToFloatsOp(m), dims);
    assert r.floats == m.floats;
    assert Last(r.vecs) == Last(m.vecs);
    assert r.vecs == DropLast(m.vecs) + [Last(m.vecs)];
  }

  /** The shared body of the two-vector instructions: pops the top `a` and the next `b`. */
  function PopTwo(m: Machine): (r: (Vec, Vec, Machine))
    requires |m.vecs| > 1
    ensures r.0 == m.vecs[|m.vecs| - 1] && r.1 == m.vecs[|m.vecs| - 2]
    ensures r.2 == m.(vecs := m.vecs[..|m.vecs| - 2])
  {
    (m.vecs[|m.vecs| - 1], m.vecs[|m.vecs| - 2], m.(vecs := m.vecs[..|m.vecs| - 2]))
  }

  /** `BinaryVectorInstruction` with `VectorAdd`/`Sub`/`Mul`/`Div`: needs two vectors, pops
      the top `a` and the next `b`, pushes `b op a`. */
  function BinaryOp(m: Machine, op: BinOp): (r: Result<Machine>)
    ensures |m.vecs| < 2 ==> r == Ok(m)
    ensures |m.vecs| >= 2 ==>
      var (a, b, rest) := PopTwo(m);
      (r.Err? <==> |a| < |b|) &&
      (r.Ok? ==> r.value == rest.(vecs := rest.vecs + [Combine(op, b, a).value]))
    ensures r.Ok? && |m.vecs| >= 2 ==> |r.value.vecs| == |m.vecs| - 1 && NoInfinity(Last(r.value.vecs))
  {
    if |m.vecs| > 1 then
      var (a, b, rest) := PopTwo(m);
      var c := Combine(op, b, a);
      if c.Err? then Err(c.fault) else Ok(rest.(vecs := rest.vecs + [c.value]))
    else Ok(m)
  }

  /** `BinaryVectorToScalarInstruction` with `VectorDotProduct`: pops two vectors and pushes
      the dot product of the next and the top onto the float stack. */
  function DotOp(m: Machine): (r: Result<Machine>)
    ensures |m.vecs| < 2 ==> r == Ok(m)
    ensures |m.vecs| >= 2 ==>
      var (a, b, rest) := PopTwo(m);
      (r.Err? <==> |a| < |b|) &&
      (r.Ok? ==> r.value == rest.(floats := m.floats + [DotProduct(b, a).value]))
  {
    if |m.vecs| > 1 then
      var (a, b, rest) := PopTwo(m);
      var d := DotProduct(b, a);
      if d.Err? then Err(d.fault) else Ok(rest.(floats := m.floats + [d.value]))
    else Ok(m)
  }

  /** `BinaryVectorScalarInstruction`: needs a vector and a float, pops both and pushes the
      vector combined with the float. */
  function ScalarOp(m: Machine, op: BinOp): (r: Machine)
    ensures !(|m.vecs| > 0 && |m.floats| > 0) ==> r == m
    ensures |m.vecs| > 0 && |m.floats| > 0 ==>
      r.floats == DropLast(m.floats) && |r.vecs| == |m.vecs| &&
      r.vecs == DropLast(m.vecs) + [CombineScalar(op, Last(m.vecs), Last(m.floats))]
  {
    if |m.vecs| > 0 && |m.floats| > 0 then
      var a := Last(m.vecs);
      m.(vecs := DropLast(m.vecs) + [CombineScalar(op, a, Last(m.floats))], floats := DropLast(m.floats))
    else m
  }

  /** `UnaryVectorScalarInstruction` with `VectorMag`: pops a vector, pushes its magnitude. */
  function MagOp(m: Machine, root: real -> real): (r: Machine)
    ensures |m.vecs| == 0 ==> r == m
    ensures |m.vecs| > 0 ==>
      r.vecs == DropLast(m.vecs) && r.floats == m.floats + [Magnitude(Last(m.vecs), root)]
  {
    if |m.vecs| > 0 then
      m.(vecs := DropLast(m.vecs), floats := m.floats + [Magnitude(Last(m.vecs), root)])
    else m
  }

  /** `TernaryVectorInstruction`: needs a vector, a float and an int. Reads the top vector
      without popping it, pops the float and the int, and pushes the result, so the vector
      stack grows by one. */
  function TernaryOp(m: Machine, op: BinOp): (r: Result<Machine>)
    requires op.AddOp? || op.MulOp?
    requires m.IntsAre32()
    ensures !(|m.vecs| > 0 && |m.floats| > 0 && |m.ints| > 0) ==> r == Ok(m)
    ensures |m.vecs| > 0 && |m.floats| > 0 && |m.ints| > 0 ==>
      (r.Err? <==> |Last(m.vecs)| == 0) &&
      (r.Ok? ==>
        r.value.floats == DropLast(m.floats) && r.value.ints == DropLast(m.ints) &&
        r.value.vecs == m.vecs + [DimOp(op, Last(m.vecs), Last(m.ints), Last(m.floats)).value])
  {
    if |m.vecs| > 0 && |m.floats| > 0 && |m.ints| > 0 then
      var a := Last(m.vecs);
      var res := DimOp(op, a, Last(m.ints), Last(m.floats));
      if res.Err? then Err(res.fault)
      else Ok(m.(floats := DropLast(m.floats), ints := DropLast(m.ints), vecs := m.vecs + [res.value]))
    else Ok(m)
  }

  /** One pass of the loop in `VectorZip`/`VectorApply`: push `xs` onto the float stack, run
      `ins` if it is a program or an instruction, take the float on top as the component (0
      when the float stack is empty), then clear the exec and code stacks. */
  function Step(ins: Code, run: (Code, Machine) -> Machine, m: Machine, xs: seq<Flt>): (r: (Machine, Flt))
    ensures r.0.exec == [] && r.0.code == []
  {
    var pushed := m.(floats := m.floats + xs);
    var ran := if ins.Prog? || ins.Instr? then run(ins, pushed) else pushed;
    if |ran.floats| > 0 then (ran.(floats := DropLast(ran.floats), exec := [], code := []), Last(ran.floats))
    else (ran.(exec := [], code := []), Fin(0.0))
  }

  /** `ins` replaces the `k` floats on top of the stack by `g` of them and changes nothing
      else, as a float instruction such as `float.+` does. */
  ghost predicate ReplacesTop(run: (Code, Machine) -> Machine, ins: Code, k: nat, g: seq<Flt> -> Flt) {
    forall x: Machine :: |x.floats| >= k ==>
      run(ins, x) == x.(floats := x.floats[..|x.floats| - k] + [g(x.floats[|x.floats| - k..])])
  }

  /** When the entry replaces the pushed values by `g` of them, the component is that value
      and the step leaves the machine as it found it, with empty exec and code stacks. */
  lemma StepOfReplacement(ins: Code, run: (Code, Machine) -> Machine, m: Machine, xs: seq<Flt>,
                          g: seq<Flt> -> Flt)
    requires (ins.Prog? || ins.Instr?) && ReplacesTop(run, ins, |xs|, g)
    ensures Step(ins, run, m, xs) == (m.(exec := [], code := []), g(xs))
  {
    var pushed := m.(floats := m.floats + xs);
    assert pushed.floats[..|pushed.floats| - |xs|] == m.floats;
    assert pushed.floats[|pushed.floats| - |xs|..] == xs;
  }

  /** When the entry leaves no float on the stack, the step's component is 0. */
  lemma StepOfEmptying(ins: Code, run: (Code, Machine) -> Machine, m: Machine, xs: seq<Flt>)
    requires (ins.Prog? || ins.Instr?) && run(ins, m.(floats := m.floats + xs)).floats == []
    ensures Step(ins, run, m, xs).1 == Fin(0.0)
  {
  }

  /** The loop: one step per element of `steps`, collecting the components. */
  function Loop(ins: Code, run: (Code, Machine) -> Machine, m: Machine, steps: seq<seq<Flt>>): (r: (Machine, Vec))
    ensures |r.1| == |steps|
    ensures |steps| > 0 ==> r.0.exec == [] && r.0.code == []
    decreases |steps|
  {
    if |steps| == 0 then (m, [])
    else
      var (m1, x) := Step(ins, run, m, steps[0]);
      var (m2, xs) := Loop(ins, run, m1, steps[1..]);
      (m2, [x] + xs)
  }

  /** The machine after the first `i` steps of the loop. */
  function StateBefore(ins: Code, run: (Code, Machine) -> Machine, m: Machine, steps: seq<seq<Flt>>, i: nat): Machine
    requires i <= |steps|
  {
    Loop(ins, run, m, steps[..i]).0
  }

  /** Component `i` of the loop's vector is what step `i` takes from the machine the first
      `i` steps left. */
  lemma {:induction false} LoopComponents(ins: Code, run: (Code, Machine) -> Machine, m: Machine, steps: seq<seq<Flt>>)
    ensures forall i :: 0 <= i < |steps| ==>
      Loop(ins, run, m, steps).1[i] == Step(ins, run, StateBefore(ins, run, m, steps, i), steps[i]).1
    ensures Loop(ins, run, m, steps).0 == StateBefore(ins, run, m, steps, |steps|)
    decreases |steps|
  {
    assert steps[..|steps|] == steps;
    if |steps| > 0 {
      var (m1, x) := Step(ins, run, m, steps[0]);
      LoopComponents(ins, run, m1, steps[1..]);
      forall i | 0 <= i < |steps|
        ensures Loop(ins, run, m, steps).1[i] == Step(ins, run, StateBefore(ins, run, m, steps, i), steps[i]).1
      {
        if i == 0 {
          assert steps[..0] == [];
        } else {
          assert steps[..i][0] == steps[0];
          assert steps[..i][1..] == steps[1..][..i - 1];
          assert steps[1..][i - 1] == steps[i];
        }
      }
    }
  }

  /** When every step leaves the machine as it found it and yields `g` of what it pushed,
      the loop leaves the machine as it was and collects `g` of every step. */
  lemma {:induction false} LoopOfSteadySteps(ins: Code, run: (Code, Machine) -> Machine, m: Machine,
                                             steps: seq<seq<Flt>>, g: seq<Flt> -> Flt)
    requires forall i :: 0 <= i < |steps| ==> Step(ins, run, m, steps[i]) == (m, g(steps[i]))
    ensures Loop(ins, run, m, steps) == (m, seq(|steps|, i requires 0 <= i < |steps| => g(steps[i])))
    decreases |steps|
  {
    if |steps| > 0 {
      assert Step(ins, run, m, steps[0]) == (m, g(steps[0]));
      assert forall i :: 0 <= i < |steps| - 1 ==> steps[1..][i] == steps[i + 1];
      LoopOfSteadySteps(ins, run, m, steps[1..], g);
      var rest := seq(|steps| - 1, i requires 0 <= i < |steps| - 1 => g(steps[1..][i]));
      assert Loop(ins, run, m, steps[1..]) == (m, rest);
      assert seq(|steps|, i requires 0 <= i < |steps| => g(steps[i])) == [g(steps[0])] + rest;
    }
  }

  /** With an entry that replaces the pushed values by `g` of them, the loop over a
      machine with empty exec and code stacks leaves it as it was and collects `g` of every
      step. */
  lemma LoopOfReplacement(ins: Code, run: (Code, Machine) -> Machine, m: Machine,
                          steps: seq<seq<Flt>>, k: nat, g: seq<Flt> -> Flt)
    requires (ins.Prog? || ins.Instr?) && ReplacesTop(run, ins, k, g)
    requires m.exec == [] && m.code == []
    requires forall i :: 0 <= i < |steps| ==> |steps[i]| == k
    ensures Loop(ins, run, m, steps) == (m, seq(|steps|, i requires 0 <= i < |steps| => g(steps[i])))
  {
    assert m.(exec := [], code := []) == m;
    forall i | 0 <= i < |steps|
      ensures Step(ins, run, m, steps[i]) == (m, g(steps[i]))
    {
      StepOfReplacement(ins, run, m, steps[i], g);
    }
    LoopOfSteadySteps(ins, run, m, steps, g);
  }

  /** `VectorZip`: needs two vectors and an exec entry. Pops `v1` (top), `v2` and the exec
      entry; for each component of `v1` pushes `v1[i]` and `v2[i]` and runs the entry on
      fresh exec and code stacks; then reinstates the caller's exec (without the entry) and
      code stacks and pushes the collected vector. */
  function ZipOp(m: Machine, run: (Code, Machine) -> Machine): (r: Result<Machine>)
    ensures !(|m.vecs| > 1 && |m.exec| > 0) ==> r == Ok(m)
    ensures |m.vecs| > 1 && |m.exec| > 0 ==>
      (r.Err? <==> |m.vecs[|m.vecs| - 2]| < |Last(m.vecs)|) &&
      (r.Ok? ==>
        r.value.exec == DropLast(m.exec) && r.value.code == m.code &&
        |r.value.vecs| > 0 && |Last(r.value.vecs)| == |Last(m.vecs)|)
  {
    if |m.vecs| > 1 && |m.exec| > 0 then
      var (v1, v2, rest) := PopTwo(m);
      if |v2| < |v1| then Err(IndexOutOfBounds)
      else
        var steps := seq(|v1|, i requires 0 <= i < |v1| => [v1[i], v2[i]]);
        var (after, v3) := Loop(Last(m.exec), run, rest.(exec := [], code := []), steps);
        Ok(after.(exec := DropLast(m.exec), code := m.code, vecs := after.vecs + [v3]))
    else Ok(m)
  }

  /** `VectorApply`: as `VectorZip` with one vector, but guarded by two vectors (it pops only
      one). */
  function ApplyOpInstr(m: Machine, run: (Code, Machine) -> Machine): (r: Machine)
    ensures !(|m.vecs| > 1 && |m.exec| > 0) ==> r == m
    ensures |m.vecs| > 1 && |m.exec| > 0 ==>
      r.exec == DropLast(m.exec) && r.code == m.code && |r.vecs| > 0 && |Last(r.vecs)| == |Last(m.vecs)|
  {
    if |m.vecs| > 1 && |m.exec| > 0 then
      var v1 := Last(m.vecs);
      var steps := seq(|v1|, i requires 0 <= i < |v1| => [v1[i]]);
      var (after, v3) := Loop(Last(m.exec), run, m.(vecs := DropLast(m.vecs), exec := [], code := []), steps);
      after.(exec := DropLast(m.exec), code := m.code, vecs := after.vecs + [v3])
    else m
  }

  /** The vector `VectorZip` pushes is the loop's: component i is what step i (pushing
      `v1[i]`, then `v2[i]`) takes from the machine the first i steps left, and the machine
      is the one after the last step with the caller's exec (less the entry) and code
      stacks back. */
  lemma ZipCollects(m: Machine, run: (Code, Machine) -> Machine)
    requires |m.vecs| > 1 && |m.exec| > 0 && |m.vecs[|m.vecs| - 2]| >= |Last(m.vecs)|
    ensures ZipOp(m, run).Ok?
    ensures var v1, v2 := Last(m.vecs), m.vecs[|m.vecs| - 2];
      var steps := seq(|v1|, i requires 0 <= i < |v1| => [v1[i], v2[i]]);
      var start := m.(vecs := m.vecs[..|m.vecs| - 2], exec := [], code := []);
      var after := StateBefore(Last(m.exec), run, start, steps, |v1|);
      var r := ZipOp(m, run).value;
      |r.vecs| > 0 && |Last(r.vecs)| == |v1| &&
      r == after.(exec := DropLast(m.exec), code := m.code, vecs := after.vecs + [Last(r.vecs)]) &&
      forall i :: 0 <= i < |v1| ==>
        Last(r.vecs)[i] == Step(Last(m.exec), run, StateBefore(Last(m.exec), run, start, steps, i), [v1[i], v2[i]]).1
  {
    var (v1, v2, rest) := PopTwo(m);
    var steps := seq(|v1|, i requires 0 <= i < |v1| => [v1[i], v2[i]]);
    var start := rest.(exec := [], code := []);
    LoopComponents(Last(m.exec), run, start, steps);
    var looped := Loop(Last(m.exec), run, start, steps);
    assert ZipOp(m, run) == Ok(looped.0.(exec := DropLast(m.exec), code := m.code, vecs := looped.0.vecs + [looped.1]));
  }

  /** An entry that leaves no float behind makes `VectorZip` push a vector of zeros. */
  lemma ZipOfEmptying(m: Machine, run: (Code, Machine) -> Machine)
    requires |m.vecs| > 1 && |m.exec| > 0 && |m.vecs[|m.vecs| - 2]| >= |Last(m.vecs)|
    requires (Last(m.exec).Prog? || Last(m.exec).Instr?) && forall x: Machine :: run(Last(m.exec), x).floats == []
    ensures ZipOp(m, run).Ok?
    ensures Last(ZipOp(m, run).value.vecs) == seq(|Last(m.vecs)|, _ => Fin(0.0))
  {
    var v1, v2 := Last(m.vecs), m.vecs[|m.vecs| - 2];
    var steps := seq(|v1|, i requires 0 <= i < |v1| => [v1[i], v2[i]]);
    var start := m.(vecs := m.vecs[..|m.vecs| - 2], exec := [], code := []);
    ZipCollects(m, run);
    var pushed := Last(ZipOp(m, run).value.vecs);
    forall i | 0 <= i < |v1|
      ensures pushed[i] == Fin(0.0)
    {
      var before := StateBefore(Last(m.exec), run, start, steps, i);
      StepOfEmptying(Last(m.exec), run, before, [v1[i], v2[i]]);
    }
  }

  /** The vector `VectorApply` pushes is the loop's: component i is what step i (pushing
      `v1[i]`) takes from the machine the first i steps left, and the machine is the one
      after the last step with the caller's exec (less the entry) and code stacks back. */
  lemma ApplyCollects(m: Machine, run: (Code, Machine) -> Machine)
    requires |m.vecs| > 1 && |m.exec| > 0
    ensures var v1 := Last(m.vecs);
      var steps := seq(|v1|, i requires 0 <= i < |v1| => [v1[i]]);
      var start := m.(vecs := DropLast(m.vecs), exec := [], code := []);
      var after := StateBefore(Last(m.exec), run, start, steps, |v1|);
      var r := ApplyOpInstr(m, run);
      |r.vecs| > 0 && |Last(r.vecs)| == |v1| &&
      r == after.(exec := DropLast(m.exec), code := m.code, vecs := after.vecs + [Last(r.vecs)]) &&
      forall i :: 0 <= i < |v1| ==>
        Last(r.vecs)[i] == Step(Last(m.exec), run, StateBefore(Last(m.exec), run, start, steps, i), [v1[i]]).1
  {
    var v1 := Last(m.vecs);
    var steps := seq(|v1|, i requires 0 <= i < |v1| => [v1[i]]);
    var start := m.(vecs := DropLast(m.vecs), exec := [], code := []);
    LoopComponents(Last(m.exec), run, start, steps);
  }

  /** An entry that leaves no float behind makes `VectorApply` push a vector of zeros. */
  lemma ApplyOfEmptying(m: Machine, run: (Code, Machine) -> Machine)
    requires |m.vecs| > 1 && |m.exec| > 0
    requires (Last(m.exec).Prog? || Last(m.exec).Instr?) && forall x: Machine :: run(Last(m.exec), x).floats == []
    ensures Last(ApplyOpInstr(m, run).vecs) == seq(|Last(m.vecs)|, _ => Fin(0.0))
  {
    var v1 := Last(m.vecs);
    var steps := seq(|v1|, i requires 0 <= i < |v1| => [v1[i]]);
    var start := m.(vecs := DropLast(m.vecs), exec := [], code := []);
    ApplyCollects(m, run);
    var pushed := Last(ApplyOpInstr(m, run).vecs);
    forall i | 0 <= i < |v1|
      ensures pushed[i] == Fin(0.0)
    {
      var before := StateBefore(Last(m.exec), run, start, steps, i);
      StepOfEmptying(Last(m.exec), run, before, [v1[i]]);
    }
  }

  /** `VectorZip` with an entry that replaces the two floats on top by `g` of them (as
      `float.-` does): the result is `g([v1[i], v2[i]])` in every component, with `v2[i]`
      on top when the entry runs, and only the two vectors and the entry are consumed. */
  lemma ZipComponentwise(m: Machine, run: (Code, Machine) -> Machine, g: seq<Flt> -> Flt)
    requires |m.vecs| > 1 && |m.exec| > 0
    requires (Last(m.exec).Prog? || Last(m.exec).Instr?) && ReplacesTop(run, Last(m.exec), 2, g)
    requires |m.vecs[|m.vecs| - 2]| >= |Last(m.vecs)|
    ensures var v1, v2 := Last(m.vecs), m.vecs[|m.vecs| - 2];
      ZipOp(m, run) == Ok(m.(exec := DropLast(m.exec),
                             vecs := m.vecs[..|m.vecs| - 2] + [seq(|v1|, i requires 0 <= i < |v1| => g([v1[i], v2[i]]))]))
  {
    var (v1, v2, rest) := PopTwo(m);
    var steps := seq(|v1|, i requires 0 <= i < |v1| => [v1[i], v2[i]]);
    var start := rest.(exec := [], code := []);
    var v3 := seq(|v1|, i requires 0 <= i < |v1| => g([v1[i], v2[i]]));
    assert Loop(Last(m.exec), run, start, steps) == (start, v3) by {
      LoopOfReplacement(Last(m.exec), run, start, steps, 2, g);
      assert seq(|steps|, i requires 0 <= i < |steps| => g(steps[i])) == v3;
    }
    assert ZipOp(m, run) == Ok(start.(exec := DropLast(m.exec), code := m.code, vecs := start.vecs + [v3]));
  }

  /** `VectorApply` with an entry that replaces the float on top by `g` of it (as
      `float.sin` does): the result is `g([v1[i]])` in every component, and only the top
      vector and the entry are consumed. */
  lemma ApplyComponentwise(m: Machine, run: (Code, Machine) -> Machine, g: seq<Flt> -> Flt)
    requires |m.vecs| > 1 && |m.exec| > 0
    requires (Last(m.exec).Prog? || Last(m.exec).Instr?) && ReplacesTop(run, Last(m.exec), 1, g)
    ensures var v1 := Last(m.vecs);
      ApplyOpInstr(m, run) == m.(exec := DropLast(m.exec),
                                 vecs := DropLast(m.vecs) + [seq(|v1|, i requires 0 <= i < |v1| => g([v1[i]]))])
  {
    var v1 := Last(m.vecs);
    var steps := seq(|v1|, i requires 0 <= i < |v1| => [v1[i]]);
    var start := m.(vecs := DropLast(m.vecs), exec := [], code := []);
    LoopOfReplacement(Last(m.exec), run, start, steps, 1, g);
    ApplyOfSteadyLoop(m, run, g);
  }

  /** `VectorApply` pushes what its loop collects: when every step leaves the machine as it
      was and yields `g` of the component, the pushed vector is `g` componentwise. */
  lemma ApplyOfSteadyLoop(m: Machine, run: (Code, Machine) -> Machine, g: seq<Flt> -> Flt)
    requires |m.vecs| > 1 && |m.exec| > 0
    requires var v1 := Last(m.vecs);
      var steps := seq(|v1|, i requires 0 <= i < |v1| => [v1[i]]);
      var start := m.(vecs := DropLast(m.vecs), exec := [], code := []);
      Loop(Last(m.exec), run, start, steps) == (start, seq(|steps|, i requires 0 <= i < |steps| => g(steps[i])))
    ensures var v1 := Last(m.vecs);
      ApplyOpInstr(m, run) == m.(exec := DropLast(m.exec),
                                 vecs := DropLast(m.vecs) + [seq(|v1|, i requires 0 <= i < |v1| => g([v1[i]]))])
  {
    var v1 := Last(m.vecs);
    var steps := seq(|v1|, i requires 0 <= i < |v1| => [v1[i]]);
    assert seq(|steps|, i requires 0 <= i < |steps| => g(steps[i])) == seq(|v1|, i requires 0 <= i < |v1| => g([v1[i]]));
  }

  /** With nothing to run, each step of the loop pops what it pushed last. */
  lemma {:induction false} LoopWithoutRun(ins: Code, run: (Code, Machine) -> Machine, m: Machine, steps: seq<seq<Flt>>)
    requires ins.Literal?
    requires forall i :: 0 <= i < |steps| ==> |steps[i]| > 0
    ensures Loop(ins, run, m, steps).0.vecs == m.vecs
    ensures Loop(ins, run, m, steps).0.floats == m.floats + Lower(steps)
    ensures forall i :: 0 <= i < |steps| ==> Loop(ins, run, m, steps).1[i] == Last(steps[i])
    decreases |steps|
  {
    if |steps| > 0 {
      var (m1, x) := Step(ins, run, m, steps[0]);
      assert m1.floats == m.floats + DropLast(steps[0]);
      assert m.floats + steps[0] == m.floats + DropLast(steps[0]) + [Last(steps[0])];
      LoopWithoutRun(ins, run, m1, steps[1..]);
      assert Lower(steps) == DropLast(steps[0]) + Lower(steps[1..]);
      var r := Loop(ins, run, m, steps);
      forall i | 0 <= i < |steps|
        ensures r.1[i] == Last(steps[i])
      {
        if i > 0 {
          assert steps[1..][i - 1] == steps[i];
        }
      }
    }
  }

  /** Everything each step pushes except its last value, in order. */
  function Lower(steps: seq<seq<Flt>>): seq<Flt>
    requires forall i :: 0 <= i < |steps| ==> |steps[i]| > 0
  {
    if |steps| == 0 then [] else DropLast(steps[0]) + Lower(steps[1..])
  }

  lemma {:induction false} LowerOfSingletons(steps: seq<seq<Flt>>)
    requires forall i :: 0 <= i < |steps| ==> |steps[i]| == 1
    ensures Lower(steps) == []
    decreases |steps|
  {
    if |steps| > 0 {
      LowerOfSingletons(steps[1..]);
    }
  }

  lemma {:induction false} LowerOfPairs(steps: seq<seq<Flt>>, v: Vec)
    requires |steps| == |v|
    requires forall i :: 0 <= i < |steps| ==> |steps[i]| == 2 && steps[i][0] == v[i]
    ensures Lower(steps) == v
    decreases |steps|
  {
    if |steps| > 0 {
      LowerOfPairs(steps[1..], v[1..]);
      assert v == [v[0]] + v[1..];
    }
  }

  /** `VectorApply` with a literal on the exec stack runs nothing: every component pushed
      is popped straight back, so the vector stack and the float stack are as before and
      only the literal is consumed. */
  lemma ApplyLiteral(m: Machine, run: (Code, Machine) -> Machine)
    requires |m.vecs| > 1 && |m.exec| > 0 && Last(m.exec).Literal?
    ensures ApplyOpInstr(m, run).vecs == m.vecs
    ensures ApplyOpInstr(m, run).floats == m.floats
    ensures ApplyOpInstr(m, run).exec == DropLast(m.exec)
  {
    var v1 := Last(m.vecs);
    var steps := seq(|v1|, i requires 0 <= i < |v1| => [v1[i]]);
    var start := m.(vecs := DropLast(m.vecs), exec := [], code := []);
    LoopWithoutRun(Last(m.exec), run, start, steps);
    LowerOfSingletons(steps);
    var (after, v3) := Loop(Last(m.exec), run, start, steps);
    assert v3 == v1;
    assert m.vecs == DropLast(m.vecs) + [v1];
  }

  /** `VectorZip` with a literal on the exec stack: each step pops the `v2` component it
      pushed last, so the result is a copy of `v2` and the components of `v1` are left
      behind on the float stack. */
  lemma ZipLiteral(m: Machine, run: (Code, Machine) -> Machine)
    requires |m.vecs| > 1 && |m.exec| > 0 && Last(m.exec).Literal?
    requires |m.vecs[|m.vecs| - 2]| == |Last(m.vecs)|
    ensures ZipOp(m, run).Ok?
    ensures ZipOp(m, run).value.vecs == m.vecs[..|m.vecs| - 2] + [m.vecs[|m.vecs| - 2]]
    ensures ZipOp(m, run).value.floats == m.floats + Last(m.vecs)
  {
    var (v1, v2, rest) := PopTwo(m);
    var steps := seq(|v1|, i requires 0 <= i < |v1| => [v1[i], v2[i]]);
    var start := rest.(exec := [], code := []);
    LoopWithoutRun(Last(m.exec), run, start, steps);
    LowerOfPairs(steps, v1);
    var (after, v3) := Loop(Last(m.exec), run, start, steps);
    assert v3 == v2;
  }

  /** `VectorBetween`: needs two vectors and a float. Pops `v2` (top), `v1` and `f`, and
      pushes `v1 + f * (v2 - v1)` componentwise. */
  function BetweenOp(m: Machine): (r: Result<Machine>)
    ensures !(|m.vecs| > 1 && |m.floats| > 0) ==> r == Ok(m)
    ensures |m.vecs| > 1 && |m.floats| > 0 ==>
      var (v2, v1, rest) := PopTwo(m);
      (r.Err? <==> |v2| < |v1|) &&
      (r.Ok? ==>
        r.value.floats == DropLast(m.floats) && |r.value.vecs| == |m.vecs| - 1 &&
        DropLast(r.value.vecs) == rest.vecs &&
        |Last(r.value.vecs)| == |v1| && (NoInfinity(v1) ==> NoInfinity(Last(r.value.vecs))) &&
        forall i :: 0 <= i < |v1| ==>
          Last(r.value.vecs)[i] == BetweenComponent(v1[i], v2[i], Last(m.floats)))
  {
    if |m.vecs| > 1 && |m.floats| > 0 then
      var (v2, v1, rest) := PopTwo(m);
      if |v2| < |v1| then Err(IndexOutOfBounds)
      else
        var f := Last(m.floats);
        var v3 := seq(|v1|, i requires 0 <= i < |v1| => BetweenComponent(v1[i], v2[i], f));
        Ok(rest.(floats := DropLast(m.floats), vecs := rest.vecs + [v3]))
    else Ok(m)
  }

  /** The member index `VectorBest`/`VectorCurrent` use: the int on top if there is one and
      it is non-negative, the current member otherwise. */
  function MemberOperand(m: Machine, current: int): (r: (int, Machine))
    requires m.IntsAre32() && Is32(current)
    ensures Is32(r.0)
    ensures |m.ints| == 0 ==> r == (current, m)
    ensures |m.ints| > 0 ==> r.1 == m.(ints := DropLast(m.ints))
    ensures |m.ints| > 0 && Last(m.ints) >= 0 ==> r.0 == Last(m.ints)
    ensures |m.ints| > 0 && Last(m.ints) < 0 ==> r.0 == current
  {
    if |m.ints| < 1 then (current, m)
    else
      var i := Last(m.ints);
      (if i < 0 then current else i, m.(ints := DropLast(m.ints)))
  }

  /** `VectorBest` (`best`) and `VectorCurrent`: push one copy of the selected member's
      personal best or current point. */
  function MemberPointOp(m: Machine, env: Env, best: bool): (r: Result<Machine>)
    requires m.IntsAre32() && Is32(env.current)
    ensures r.Err? <==> |env.members| == 0
    ensures r.Ok? ==>
      var (i, m1) := MemberOperand(m, env.current);
      r.value == m1.(vecs := m.vecs + [P.GetPosition(env.members, i, best).value]) &&
      |r.value.vecs| == |m.vecs| + 1
  {
    var (i, m1) := MemberOperand(m, env.current);
    var point := P.GetPosition(env.members, i, best);
    if point.Err? then Err(point.fault) else Ok(m1.(vecs := m.vecs + [point.value]))
  }

  /** One vector instruction. */
  function Execute(instr: VecInstr, env: Env, m: Machine): Result<Machine>
    requires m.IntsAre32() && Is32(env.current)
  {
    match instr
    case GetComponent => GetComp(m, env.dims)
    case SetComponent => SetComp(m)
    case FromFloats => Ok(FromFloatsOp(m, env.dims))
    case ToFloats => Ok(ToFloatsOp(m))
    case Binary(op) => BinaryOp(m, op)
    case Dot => DotOp(m)
    case Scalar(op) => Ok(ScalarOp(m, op))
    case Mag => Ok(MagOp(m, env.root))
    case DimAdd => TernaryOp(m, AddOp)
    case DimMul => TernaryOp(m, MulOp)
    case Zip => ZipOp(m, env.run)
    case Apply => Ok(ApplyOpInstr(m, env.run))
    case Between => BetweenOp(m)
    case Best => MemberPointOp(m, env, true)
    case Current => MemberPointOp(m, env, false)
  }

  /** The swarm's points all have the configured dimensionality. */
  predicate MembersShaped(members: seq<P.Process>, dims: nat) {
    forall k :: 0 <= k < |members| ==>
      |members[k].bestPoint| == dims && |members[k].currentPoint| == dims
  }

  /** Shape invariant: if every vector on the stack, every member's point, and every vector
      the interpreter leaves behind has `dims` components, so does every vector after any
      vector instruction; and no instruction makes an int wider than 32 bits. */
  lemma ExecuteKeepsShape(instr: VecInstr, env: Env, m: Machine)
    requires m.IntsAre32() && Is32(env.current)
    requires m.Shaped(env.dims) && MembersShaped(env.members, env.dims)
    requires forall c: Code, x: Machine :: x.Shaped(env.dims) ==> env.run(c, x).Shaped(env.dims)
    requires forall c: Code, x: Machine :: x.IntsAre32() ==> env.run(c, x).IntsAre32()
    ensures Execute(instr, env, m).Ok? ==>
      Execute(instr, env, m).value.Shaped(env.dims) && Execute(instr, env, m).value.IntsAre32()
  {
    match instr {
      case Zip => ZipKeepsShape(env, m);
      case Apply => ApplyKeepsShape(env, m);
      case GetComponent => ComponentOpsKeepShape(instr, env, m);
      case SetComponent => ComponentOpsKeepShape(instr, env, m);
      case FromFloats => ComponentOpsKeepShape(instr, env, m);
      case ToFloats => ComponentOpsKeepShape(instr, env, m);
      case Binary(_) => ArithmeticKeepsShape(instr, env, m);
      case Dot => ArithmeticKeepsShape(instr, env, m);
      case Scalar(_) => ArithmeticKeepsShape(instr, env, m);
      case Mag => ArithmeticKeepsShape(instr, env, m);
      case DimAdd => ArithmeticKeepsShape(instr, env, m);
      case DimMul => ArithmeticKeepsShape(instr, env, m);
      case Between => MemberOpsKeepShape(instr, env, m);
      case Best => MemberOpsKeepShape(instr, env, m);
      case Current => MemberOpsKeepShape(instr, env, m);
    }
  }

  lemma ZipKeepsShape(env: Env, m: Machine)
    requires m.IntsAre32() && Is32(env.current) && m.Shaped(env.dims)
    requires forall c: Code, x: Machine :: x.Shaped(env.dims) ==> env.run(c, x).Shaped(env.dims)
    requires forall c: Code, x: Machine :: x.IntsAre32() ==> env.run(c, x).IntsAre32()
    ensures ZipOp(m, env.run).Ok? ==>
      ZipOp(m, env.run).value.Shaped(env.dims) && ZipOp(m, env.run).value.IntsAre32()
  {
    if |m.vecs| > 1 && |m.exec| > 0 && ZipOp(m, env.run).Ok? {
      var (v1, v2, rest) := PopTwo(m);
      var steps := seq(|v1|, i requires 0 <= i < |v1| => [v1[i], v2[i]]);
      LoopKeepsShape(Last(m.exec), env, rest.(exec := [], code := []), steps);
    }
  }

  lemma ApplyKeepsShape(env: Env, m: Machine)
    requires m.IntsAre32() && Is32(env.current) && m.Shaped(env.dims)
    requires forall c: Code, x: Machine :: x.Shaped(env.dims) ==> env.run(c, x).Shaped(env.dims)
    requires forall c: Code, x: Machine :: x.IntsAre32() ==> env.run(c, x).IntsAre32()
    ensures ApplyOpInstr(m, env.run).Shaped(env.dims) && ApplyOpInstr(m, env.run).IntsAre32()
  {
    if |m.vecs| > 1 && |m.exec| > 0 {
      var v1 := Last(m.vecs);
      var steps := seq(|v1|, i requires 0 <= i < |v1| => [v1[i]]);
      LoopKeepsShape(Last(m.exec), env, m.(vecs := DropLast(m.vecs), exec := [], code := []), steps);
    }
  }

  lemma ComponentOpsKeepShape(instr: VecInstr, env: Env, m: Machine)
    requires instr.GetComponent? || instr.SetComponent? || instr.FromFloats? || instr.ToFloats?
    requires m.IntsAre32() && Is32(env.current) && m.Shaped(env.dims)
    ensures Execute(instr, env, m).Ok? ==>
      Execute(instr, env, m).value.Shaped(env.dims) && Execute(instr, env, m).value.IntsAre32()
  {
  }

  lemma ArithmeticKeepsShape(instr: VecInstr, env: Env, m: Machine)
    requires instr.Binary? || instr.Dot? || instr.Scalar? || instr.Mag? || instr.DimAdd? || instr.DimMul?
    requires m.IntsAre32() && Is32(env.current) && m.Shaped(env.dims)
    ensures Execute(instr, env, m).Ok? ==>
      Execute(instr, env, m).value.Shaped(env.dims) && Execute(instr, env, m).value.IntsAre32()
  {
  }

  lemma MemberOpsKeepShape(instr: VecInstr, env: Env, m: Machine)
    requires instr.Between? || instr.Best? || instr.Current?
    requires m.IntsAre32() && Is32(env.current)
    requires m.Shaped(env.dims) && MembersShaped(env.members, env.dims)
    ensures Execute(instr, env, m).Ok? ==>
      Execute(instr, env, m).value.Shaped(env.dims) && Execute(instr, env, m).value.IntsAre32()
  {
  }

  lemma {:induction false} LoopKeepsShape(ins: Code, env: Env, m: Machine, steps: seq<seq<Flt>>)
    requires m.Shaped(env.dims) && m.IntsAre32()
    requires forall c: Code, x: Machine :: x.Shaped(env.dims) ==> env.run(c, x).Shaped(env.dims)
    requires forall c: Code, x: Machine :: x.IntsAre32() ==> env.run(c, x).IntsAre32()
    ensures Loop(ins, env.run, m, steps).0.Shaped(env.dims)
    ensures Loop(ins, env.run, m, steps).0.IntsAre32()
    decreases |steps|
  {
    if |steps| > 0 {
      var (m1, x) := Step(ins, env.run, m, steps[0]);
      LoopKeepsShape(ins, env, m1, steps[1..]);
    }
  }

  /** `VectorSetComponent` then `VectorGetComponent` with the same index reads back the
      value that was set, when the vector has `dims` components. */
  lemma SetThenGet(m: Machine, dims: nat)
    requires m.IntsAre32()
    requires |m.floats| > 0 && |m.ints| > 1 && |m.vecs| > 0
    requires |Last(m.vecs)| == dims > 0
    requires m.ints[|m.ints| - 2] == Last(m.ints) && Last(m.ints) >= 0
    ensures SetComp(m).Ok?
    ensures GetComp(SetComp(m).value, dims).Ok?
    ensures Last(GetComp(SetComp(m).value, dims).value.floats) == Last(m.floats)
  {
    var s := SetComp(m).value;
    assert Last(s.ints) == Last(m.ints);
  }
}
